=== FILE: README.md ===
# Hotel backend (BackendSGH) — a Dafny model of its booking core

BackendSGH is the ASP.NET backend of a hotel ("Blue Kasbah Resort"). This
project models the rules behind five of its controllers:

- **room availability and booking**: availability query, unavailable days,
  direct client booking, staff booking, completion of a stay;
- **the client cart (`Panier`)**: adding a room stay, removing room and service
  lines, recomputing the cached total, checkout with loyalty points, and the
  checks made before a payment session is opened;
- **services**: the catalogue, booking a service (into the cart when it is
  paid), the staff and client listings, completion;
- **room categories (`TypeChambre`)**: the admin catalogue and the public search
  by capacity and free dates;
- **staff (`Responsable`)**: the displayed role, user-name generation,
  creation, promotion to administrator and the edit that keeps the role.

The whole database is one immutable value, `Hotel.Hotel`. It holds one
sequence per table and a single counter `nextId` that stands for the identity
values the database hands out. Every endpoint is a pure function from a state
to a `Step(next, result)`: the state after the call, and either the answer or
the `Error` the controller returns. `AddToPanier` needs both parts. It can
create an empty cart and still fail for lack of a free room.

A few conventions hold throughout:

- Money is integer cents. One loyalty point is worth 100 cents, and one point
  is earned per 2000 cents paid.
- Dates are integer day numbers, and stays are half-open intervals
  [start, end).
- The string statuses of the database are enumerations.

The central invariant is `Hotel.Valid`:

- room ids are distinct;
- no two non-cancelled stays on one room overlap;
- every id in use lies below `nextId`;
- an active cart holds no cancelled stay;
- a client has at most one active cart.

Module `Safety` proves that every endpoint that writes preserves `Valid`, with
one stated exception in `CompleteReservation`.

Where the code says more than its surrounding documentation, the model follows
the code. Examples:

- `Checkout` trusts the cached total and accepts negative points.
- `AddToPanier` never checks the order of the dates.
- `unavailable-dates` prefilters with `DateDebut < end`, so stays that begin
  on day `end` are not counted for that day.
- `CompleteReservation` turns even a cancelled stay into "Terminée".

Files, in dependency order:

- `common.dfy`: Option, `FirstIndex`, `Filter`, `RemoveAt`.
- `text.dfy`: `EndsWith`, `Split(..)[0]`, `Trim`, `Replace`, decimal rendering.
- `ordering.dfy`: `OrderByDescending` as a proved stable insertion sort.
- `model.dfy`: the entities, lookups, the invariant and cart sums.
- `availability.dfy`: free rooms, pricing and the shared booking step.
- `reservations.dfy`, `paniers.dfy`, `services.dfy`, `roomtypes.dfy`,
  `staff.dfy`: the endpoints.
- `safety.dfy`: preservation of `Valid`.

## Model

| member | source | states |
|---|---|---|
| Text.AppendEndsWith | BackendSGH/BackendSGH/Controllers/ResponsablesControllers.cs:267 | a role with "/ADMIN" appended passes the `EndsWith("/ADMIN")` admin test |
| Text.PrefixBefore | BackendSGH/BackendSGH/Controllers/ResponsablesControllers.cs:65 | `Split('/')[0]` is a prefix of the role, contains no '/', and stops exactly at the first '/' when there is one |
| Text.Trim | BackendSGH/BackendSGH/Controllers/ResponsablesControllers.cs:110 | the result is the slice of the input with only white space before and after it and none at either of its own ends; an already-trimmed string is unchanged |
| Text.TrimUnique | BackendSGH/BackendSGH/Controllers/ResponsablesControllers.cs:110 | any slice of the input with only white space around it and none at its ends is the trimmed string, so `Trim` is determined |
| Text.RemoveChar | BackendSGH/BackendSGH/Controllers/ResponsablesControllers.cs:120 | `Replace(" ", "")` is the input with every space dropped and every other character kept in order; no space is left |
| Text.NatToString | BackendSGH/BackendSGH/Controllers/ResponsablesControllers.cs:126 | the counter's rendering is a non-empty run of digits ending in the last decimal digit, one character long exactly below 10 |
| Text.NatToStringValue | BackendSGH/BackendSGH/Controllers/ResponsablesControllers.cs:126 | the rendering has no leading zero and its decimal value is the counter itself, so it is the counter's decimal numeral |
| Text.NatToStringInjective | BackendSGH/BackendSGH/Controllers/ResponsablesControllers.cs:126-127 | two different counters never render to the same suffix |
| Ordering.InsertDesc | BackendSGH/BackendSGH/Controllers/ReservationsController.cs:208 | inserting into a list sorted by descending key keeps it sorted and adds exactly that element |
| Ordering.SortDesc | BackendSGH/BackendSGH/Controllers/ReservationsController.cs:208 | `OrderByDescending` returns a permutation of its input whose keys never increase |
| Ordering.InsertDescByKey | BackendSGH/BackendSGH/Controllers/ReservationsController.cs:208 | inserting an element leaves the elements of every other key in their order and puts it first among the elements of its own key |
| Ordering.SortDescStable | BackendSGH/BackendSGH/Controllers/ReservationsController.cs:208 | the sort is stable, as `OrderByDescending` is: for every key, the elements with that key appear in the same order as in the input |
| Ordering.SortDescStableBy | BackendSGH/BackendSGH/Controllers/ServicesController.cs:328 | the same stability for any predicate that picks out exactly the elements of one key |
| Ordering.SortDescMembers | BackendSGH/BackendSGH/Controllers/ServicesController.cs:328 | sorting neither drops nor invents an element |
| Hotel.LiveStatusesKeepNoDoubleBooking | BackendSGH/BackendSGH/Controllers/PaniersController.cs:208-213 | rewriting statuses without making a cancelled stay live, and without moving rooms or dates, keeps stays on a room apart |
| Hotel.RoomLinesTotalAppend | BackendSGH/BackendSGH/Controllers/PaniersController.cs:49 | the room-line sum of a cart distributes over concatenation of the stay table |
| Hotel.ServiceLinesTotalAppend | BackendSGH/BackendSGH/Controllers/PaniersController.cs:53 | the service-line sum (null price as 0) distributes over concatenation |
| Hotel.RoomLinesTotalNone | BackendSGH/BackendSGH/Controllers/PaniersController.cs:84 | a cart no stay refers to, such as a new one, has room-line sum 0, matching its initial `Total = 0` |
| Hotel.ServiceLinesTotalNone | BackendSGH/BackendSGH/Controllers/ServicesController.cs:227 | a cart no service line refers to has service-line sum 0 |
| Hotel.RoomLinesTotalRemove | BackendSGH/BackendSGH/Controllers/PaniersController.cs:151-154 | deleting a stay lowers its own cart's line sum by its `PrixTotal` and no other cart's |
| Hotel.ServiceLinesTotalRemove | BackendSGH/BackendSGH/Controllers/PaniersController.cs:175-178 | deleting a service line lowers its cart's line sum by `Prix ?? 0` and no other cart's |
| Hotel.SetRoomState | BackendSGH/BackendSGH/Controllers/PaniersController.cs:211-212 | exactly the rooms with the given ids get the new `Etat`; ids, categories and all other rooms are untouched |
| Hotel.GetOrCreateCart | BackendSGH/BackendSGH/Controllers/PaniersController.cs:74-89 | the result is the client's active cart; an existing one leaves the state unchanged, otherwise one empty "Actif" cart with total 0 is appended under a fresh id |
| Hotel.IsAdminFirstProfile | BackendSGH/BackendSGH/Controllers/ServicesController.cs:175-180 | a user is admin iff their first staff profile exists and its role ends with "/ADMIN" |
| Availability.StayPrice | BackendSGH/BackendSGH/Controllers/PaniersController.cs:109-111 | a well-ordered stay costs rate × nights with at least one night, a same-day stay costs one night, a reversed stay gets a negative night count |
| Availability.Ids | BackendSGH/BackendSGH/Controllers/ReservationsController.cs:62 | `Select(r => r.Id)` lists each room's id at its position |
| Availability.RoomTypeOfMember | BackendSGH/BackendSGH/Controllers/ReservationsController.cs:47 | with distinct room ids, `r.Chambre.TypeChambreId` is the category the room is stored with |
| Availability.FreeRoomsAreFree | BackendSGH/BackendSGH/Controllers/ReservationsController.cs:46-56 | a room survives the booked-ids filter iff it is of the category and no live stay on it overlaps [start, end) |
| Availability.FreeRoomsMembers | BackendSGH/BackendSGH/Controllers/ReservationsController.cs:129-131 | every room the booking query can pick is of the category and free for the interval |
| Availability.Book | BackendSGH/BackendSGH/Controllers/ReservationsController.cs:119-158 | fails with no change iff no room is free (or the category has no rate); on success appends one stay under a fresh id, priced rate × nights, on the first free room, optionally marking it "Réservée" |
| Availability.AppendFreeKeepsNoDoubleBooking | BackendSGH/BackendSGH/Controllers/ReservationsController.cs:120-134 | adding a stay on a room free for its interval keeps every room free of overlapping live stays |
| Availability.BookKeepsNoDoubleBooking | BackendSGH/BackendSGH/Controllers/ReservationsController.cs:120-154 | whatever status, client, guest or cart it records, a booking never creates two overlapping live stays on a room |
| Availability.CheckAvailability | BackendSGH/BackendSGH/Controllers/ReservationsController.cs:26-64 | refuses exactly `start >= end`; a category without rooms is reported as such; otherwise `count` is the number of listed ids and `available` holds iff it is positive |
| Availability.IdsOfKept | BackendSGH/BackendSGH/Controllers/ReservationsController.cs:56-62 | with distinct ids, a room's id is listed iff the room was kept |
| Availability.CheckAvailabilityExact | BackendSGH/BackendSGH/Controllers/ReservationsController.cs:46-62 | `availableRoomIds` contains a room's id iff the room is of the category and no live stay on it overlaps the interval |
| Availability.FullDaysFrom | BackendSGH/BackendSGH/Controllers/ReservationsController.cs:92-99 | the day loop yields, in strictly ascending order, exactly the days of the range whose covering count reaches the room count |
| Availability.UnavailableDates | BackendSGH/BackendSGH/Controllers/ReservationsController.cs:67-101 | a category without rooms yields nothing; otherwise day d is listed iff start <= d <= end and at least as many loaded stays hold d as the category has rooms; ascending |
| Availability.CountCoveringFilters | BackendSGH/BackendSGH/Controllers/ReservationsController.cs:81-94 | two filters that agree on the stays holding day d count the same stays for d |
| Availability.UnavailableDayCount | BackendSGH/BackendSGH/Controllers/ReservationsController.cs:81-94 | for each day before `end` the prefiltered stays count exactly the category's live stays holding that day |
| Reservations.CreateReservation | BackendSGH/BackendSGH/Controllers/ReservationsController.cs:105-162 | InvalidDates iff the dates are reversed or equal, then ClientNotFound iff the caller has no client profile, then NoAvailability iff no room of the category is free, then UnknownRoomType iff it has no rate; no other error, and no change on error; on success the client's "Confirmée" stay outside any cart for exactly those dates on the first free room, priced rate × nights, under the next fresh id; the next state is the old one with that stay appended, the id counter advanced and that room "Réservée", and nothing else changed |
| Reservations.GuestFor | BackendSGH/BackendSGH/Controllers/ReservationsController.cs:311-318 | a given client id wins; otherwise only a non-empty free-text name is recorded |
| Reservations.CreateAdminReservation | BackendSGH/BackendSGH/Controllers/ReservationsController.cs:267-325 | InvalidDates iff the dates are reversed or equal, then Forbidden iff the caller neither manages rooms nor is admin, then NoAvailability and UnknownRoomType as in the direct booking, then UnknownClient iff a client id is given that names no stored client (the `ClientId` foreign key, BackendSGH/BackendSGH/Migrations/20251227215449_MakeReservationChambreClientNullable.cs:29-34, makes the save fail); no other error, so a booking with neither client nor name succeeds; on success the stay has exactly those dates and the first free room, records the given client, else a non-empty guest name, else nobody (exactly `GuestFor`), is priced rate × nights under the next fresh id, and the next state is the old one with that stay appended, the counter advanced and the room "Réservée", nothing else changed |
| Reservations.CompleteReservation | BackendSGH/BackendSGH/Controllers/ReservationsController.cs:346-372 | NotFound iff no stay has the id; for the first stay with it, AlreadyCompleted iff it is "Terminée" and success otherwise; on success only that stay becomes "Terminée" and its room "Disponible" |
| Reservations.GetMyReservations | BackendSGH/BackendSGH/Controllers/ReservationsController.cs:197-222 | returns exactly the caller's "Confirmée" stays, each as often as stored (the same multiset as the filtered table), latest arrival first; no client profile is an error |
| Reservations.GetMyReservationsStable | BackendSGH/BackendSGH/Controllers/ReservationsController.cs:208 | stays arriving on the same day are listed in table order |
| Paniers.GetActivePanier | BackendSGH/BackendSGH/Controllers/PaniersController.cs:29-63 | no profile is an error, no active cart answers null with no change; otherwise the cart comes back with its total equal to the sum of its lines, and nothing else in the state changes |
| Paniers.GetActivePanierIdempotent | BackendSGH/BackendSGH/Controllers/PaniersController.cs:56-60 | a second read returns the same cart and changes nothing more |
| Paniers.AddLine | BackendSGH/BackendSGH/Controllers/PaniersController.cs:91-131 | fails with no change iff no room is free; otherwise adds one "Panier" stay of the caller linked to the cart, priced rate × nights, and raises that cart's total by exactly that price |
| Paniers.AddToPanier | BackendSGH/BackendSGH/Controllers/PaniersController.cs:67-134 | no profile is an error; otherwise the active cart is fetched or created first, availability and price are judged as before that creation, and the line is added to that cart |
| Paniers.AddLineKeepsTotal | BackendSGH/BackendSGH/Controllers/PaniersController.cs:126-129 | adding a room keeps a consistent cart consistent (total = sum of lines) and keeps it the client's active cart |
| Paniers.AddToPanierKeepsTotal | BackendSGH/BackendSGH/Controllers/PaniersController.cs:73-131 | after a successful add the client's active cart is consistent, whether it existed (and was consistent) or was just created |
| Paniers.RemoveItem | BackendSGH/BackendSGH/Controllers/PaniersController.cs:138-158 | ClientNotFound iff the caller has no client profile, ItemNotFound iff no stay with that id belongs to the caller in an "Actif" cart, and no other error; otherwise only that stay is deleted and its cart's total becomes max(0, total − price) |
| Paniers.RemoveServiceItem | BackendSGH/BackendSGH/Controllers/PaniersController.cs:162-182 | the same for service lines, a null price counting as 0: only those two errors, each iff its condition |
| Paniers.RemoveItemKeepsTotal | BackendSGH/BackendSGH/Controllers/PaniersController.cs:150-154 | when the floor at zero does not apply, removal keeps the cart consistent and reports its new total |
| Paniers.RemoveLineKeepsConsistent | BackendSGH/BackendSGH/Controllers/PaniersController.cs:150-154 | deleting a stay and lowering its cart's total by the stay's price, with the floor not reached, keeps that cart's total equal to the sum of its lines |
| Paniers.ConfirmRoomLines | BackendSGH/BackendSGH/Controllers/PaniersController.cs:208-210 | the cart's stays become "Confirmée"; every other stay is unchanged |
| Paniers.ConfirmServiceLines | BackendSGH/BackendSGH/Controllers/PaniersController.cs:216-219 | the cart's service lines become "Confirmée"; every other line is unchanged |
| Paniers.SettleSettles | BackendSGH/BackendSGH/Controllers/PaniersController.cs:200-233 | settlement sets the balance, closes the cart as "Payé", confirms every line of the cart, leaves other stays alone and marks every booked room "Réservée" |
| Paniers.Checkout | BackendSGH/BackendSGH/Controllers/PaniersController.cs:186-235 | ClientNotFound iff there is no client profile, EmptyCart iff there is no active cart or it has no line, InsufficientPoints iff positive points exceed the balance, and no other error; otherwise pays max(0, cached total − points), earns one point per 20 euros of it, and the balance becomes old − spent + earned |
| Paniers.CheckoutBalance | BackendSGH/BackendSGH/Controllers/PaniersController.cs:200-231 | the balance moves by exactly earned − spent, earnings are never negative nor exceed 1 per 20 euros paid, and spending between 0 and the balance leaves a non-negative balance |
| Paniers.SumAppend | BackendSGH/BackendSGH/Controllers/PaniersController.cs:307-309 | the sum of line amounts distributes over concatenation |
| Paniers.RoomAmountsSum | BackendSGH/BackendSGH/Controllers/PaniersController.cs:334-350 | the room line items handed to the provider add up to the cart's room-line sum |
| Paniers.ServiceAmountsSum | BackendSGH/BackendSGH/Controllers/PaniersController.cs:352-368 | the service line items add up to the cart's service-line sum |
| Paniers.CheckoutSession | BackendSGH/BackendSGH/Controllers/PaniersController.cs:282-314 | ClientNotFound, InvalidPoints (negative), InsufficientPoints (above the balance), EmptyCart (no active cart or no line) and PointsExceedTotal (points worth more than the recomputed total) each iff its condition holds after the earlier ones, and no other error; on success the line items sum to the recomputed total |
| Paniers.CheckoutChecked | BackendSGH/BackendSGH/Controllers/PaniersController.cs:289-314 | succeeds iff the session checks pass, fails with their error and no change; pays the recomputed total less the points, never negative, and leaves a non-negative balance |
| Paniers.NegativePointsInflateEarnings | BackendSGH/BackendSGH/Controllers/PaniersController.cs:201-230 | spending −20m points passes checkout, reports 20m euros more paid and credits m extra points, while the checked checkout refuses it |
| Paniers.PointsBeyondTotalAccepted | BackendSGH/BackendSGH/Controllers/PaniersController.cs:224-226 | points worth more than the cart are accepted: nothing is paid, nothing earned, and the whole `pointsUsed` is deducted, while the checked checkout refuses them |
| Paniers.AddToPanierChecked | BackendSGH/BackendSGH/Controllers/PaniersController.cs:109-111 | a departure before the arrival is refused; otherwise it behaves as `AddToPanier`, and a non-negative rate gives a non-negative line price |
| Paniers.ReversedDatesLowerTotal | BackendSGH/BackendSGH/Controllers/PaniersController.cs:109-129 | for a client with a free room of a category with a positive rate, reversed dates are accepted: the line is priced negative and lowers the cart's total, while the checked add refuses it |
| Paniers.ReversedLineLowersTotal | BackendSGH/BackendSGH/Controllers/PaniersController.cs:109-129 | on the cart side, a reversed stay is booked at a negative price and the cart's total drops, the cart staying the client's active one |
| Services.FindService | BackendSGH/BackendSGH/Controllers/ServicesController.cs:39-49 | a found service has the id and is in the catalogue; NotFound only when no service has the id |
| Services.PutService | BackendSGH/BackendSGH/Controllers/ServicesController.cs:52-114 | Forbidden iff the caller is not admin, NotFound iff no service has the id, no other error and no change on error; an admin editing an existing service succeeds and only that service's fields are replaced |
| Services.PostService | BackendSGH/BackendSGH/Controllers/ServicesController.cs:117-154 | Forbidden iff the caller is not admin, with no change, and no other error; otherwise the service is appended under a fresh id |
| Services.DeleteService | BackendSGH/BackendSGH/Controllers/ServicesController.cs:157-173 | Forbidden iff the caller is not admin, NotFound iff no service has the id, then ServiceInUse iff a staff profile other than the caller's own is scoped to the service (the `ServiceId` foreign key of BackendSGH/BackendSGH/Migrations/20251227213934_AddServiceReservationsAndResponsableScope.cs:86-91 has no delete action, so the save fails); no other error; otherwise exactly one service with that id is removed, the caller's own profile, tracked since the admin check, loses its scope on it (Entity Framework nulls the key of a tracked dependent), nothing else changes, and afterwards no profile is scoped to the id |
| Services.PutThenFind | BackendSGH/BackendSGH/Controllers/ServicesController.cs:58-67 | after an edit the service reads back as edited and every other id reads as before |
| Services.PostThenFind | BackendSGH/BackendSGH/Controllers/ServicesController.cs:150-153 | a new service reads back under its id, ids stay distinct and fresh |
| Services.DeleteThenFind | BackendSGH/BackendSGH/Controllers/ServicesController.cs:163-170 | with distinct ids a deleted service can no longer be found |
| Services.ReserveService | BackendSGH/BackendSGH/Controllers/ServicesController.cs:188-297 | ServiceNotFound iff the service does not exist; a staff caller without client or guest is refused iff neither is given; a staff caller naming a client id that no stored client has gets UnknownClient iff so (the `ClientId` foreign key, BackendSGH/BackendSGH/Migrations/20251227213934_AddServiceReservationsAndResponsableScope.cs:80-84, makes the save at line 258 fail); no other error, so every other call books; the line copies the price; it is "Panier" in the client's active cart (total raised by the price) iff a client with a profile books a paid service, and otherwise "Confirmée" outside any cart; the line takes the next fresh id and the next state is the old one (after the cart is fetched or created) with the line appended, the counter advanced and, for a cart line, that cart's total raised, nothing else changed |
| Services.ReserveServiceKeepsTotal | BackendSGH/BackendSGH/Controllers/ServicesController.cs:214-235 | booking a paid service keeps the receiving cart consistent, whether it existed or was just created |
| Services.GetReservations | BackendSGH/BackendSGH/Controllers/ServicesController.cs:300-330 | no staff profile is Unauthorized; otherwise returns exactly the bookings in the caller's scope, each as often as stored, latest day first |
| Services.GetReservationsStable | BackendSGH/BackendSGH/Controllers/ServicesController.cs:328 | bookings in scope on the same day are listed in table order |
| Services.GetReservationsScope | BackendSGH/BackendSGH/Controllers/ServicesController.cs:314-326 | an unassigned non-admin sees nothing, an unassigned admin sees every booking |
| Services.GetMyServiceReservations | BackendSGH/BackendSGH/Controllers/ServicesController.cs:333-360 | returns exactly the caller's "Confirmée" or "Terminée" bookings, each as often as stored, never cart lines, latest day first |
| Services.GetMyServiceReservationsStable | BackendSGH/BackendSGH/Controllers/ServicesController.cs:346 | the caller's bookings on the same day are listed in table order |
| Services.CompleteService | BackendSGH/BackendSGH/Controllers/ServicesController.cs:361-381 | NotFound iff no booking has the id; for the first booking with it, AlreadyCompleted iff it is "Terminée" and success otherwise; on success only that booking becomes "Terminée" |
| Services.CompleteServiceTwice | BackendSGH/BackendSGH/Controllers/ServicesController.cs:370-371 | completing twice: the second call is refused and changes nothing |
| RoomTypes.FindType | BackendSGH/BackendSGH/Controllers/TypeChambresController.cs:34-45 | a found category has the id and is in the catalogue; none only when no category has the id |
| RoomTypes.PutType | BackendSGH/BackendSGH/Controllers/TypeChambresController.cs:48-59 | Forbidden for non-admins, IdMismatch when the route id differs from the body's, NotFound for an unknown id, no other error and no change on error; an admin edit of an existing category with matching ids succeeds and only that category is overwritten |
| RoomTypes.PostType | BackendSGH/BackendSGH/Controllers/TypeChambresController.cs:62-101 | Forbidden iff the caller is not admin, with no change, and no other error; otherwise the category is appended under a fresh id |
| RoomTypes.DeleteType | BackendSGH/BackendSGH/Controllers/TypeChambresController.cs:104-117 | Forbidden for non-admins, NotFound for an unknown id, no other error; an admin deleting an existing category succeeds and one category with that id is removed |
| RoomTypes.PutTypeThenFind | BackendSGH/BackendSGH/Controllers/TypeChambresController.cs:54-57 | an edited category reads back as edited and its new rate is the one bookings use |
| RoomTypes.PostTypeThenFind | BackendSGH/BackendSGH/Controllers/TypeChambresController.cs:97-100 | a new category reads back under its fresh id and ids stay fresh |
| RoomTypes.ReservedIffOccupied | BackendSGH/BackendSGH/Controllers/TypeChambresController.cs:152-158 | a room is in `reservedChambreIds` iff some live stay on it overlaps the requested days |
| RoomTypes.UnreservedIffFree | BackendSGH/BackendSGH/Controllers/TypeChambresController.cs:161 | a category has a room outside the reserved set iff it has a room free for the whole stay |
| RoomTypes.SearchTypes | BackendSGH/BackendSGH/Controllers/TypeChambresController.cs:132-165 | InvalidDates exactly when both dates are given and arrival >= departure, and no other error; returns exactly the categories that fit the capacity and, with both dates, own a free room |
| RoomTypes.SearchAgreesWithAvailability | BackendSGH/BackendSGH/Controllers/TypeChambresController.cs:152-161 | the search's date filter keeps a category iff the booking query finds a free room of it |
| Staff.DisplayRole | BackendSGH/BackendSGH/Controllers/ResponsablesControllers.cs:65 | a role without '/' is shown whole; otherwise the shown role is the part before the first '/' |
| Staff.PromotedDisplayRole | BackendSGH/BackendSGH/Controllers/ResponsablesControllers.cs:262-267 | a promoted role passes the admin test and is displayed exactly as before |
| Staff.PrefixBeforeExtend | BackendSGH/BackendSGH/Controllers/ResponsablesControllers.cs:65 | text after the first separator does not change the displayed prefix |
| Staff.DefaultRole | BackendSGH/BackendSGH/Controllers/ResponsablesControllers.cs:110 | a missing role becomes "Employé Standard"; a given one becomes its trimmed form, the slice left after removing leading and trailing white space |
| Staff.BaseUserName | BackendSGH/BackendSGH/Controllers/ResponsablesControllers.cs:120 | the base name is the trimmed first name followed by the trimmed last name, each with its spaces dropped and other characters kept in order |
| Staff.CandidateInjective | BackendSGH/BackendSGH/Controllers/ResponsablesControllers.cs:122-128 | different counters give different candidate names |
| Staff.CandidateNotBelow | BackendSGH/BackendSGH/Controllers/ResponsablesControllers.cs:122-128 | no candidate repeats an earlier one |
| Staff.GenerateUserName | BackendSGH/BackendSGH/Controllers/ResponsablesControllers.cs:122-128 | the loop ends on the first candidate not taken: the result is never taken, every earlier candidate is, and a free base is kept as is |
| Staff.AdminGate | BackendSGH/BackendSGH/Controllers/ResponsablesControllers.cs:35-48 | no staff profile is Unauthorized, a role without "/ADMIN" is Forbidden, and the gate opens iff the caller is an admin |
| Staff.Index | BackendSGH/BackendSGH/Controllers/ResponsablesControllers.cs:33-72 | succeeds iff the caller is admin, otherwise Unauthorized or Forbidden as the gate says; one row per staff member in order, with the displayed role |
| Staff.CreateEmployee | BackendSGH/BackendSGH/Controllers/ResponsablesControllers.cs:98-173 | succeeds iff the caller is admin; the user name is the first untaken candidate and the new profile carries the trimmed or default role under a fresh id |
| Staff.PromoteToAdmin | BackendSGH/BackendSGH/Controllers/ResponsablesControllers.cs:245-283 | admins only; for an admin caller, NotFound iff no member has the id, AlreadyAdmin iff the first member with it already ends with "/ADMIN", and success otherwise; on success only that member's role gets "/ADMIN" appended |
| Staff.PromoteTwice | BackendSGH/BackendSGH/Controllers/ResponsablesControllers.cs:262-267 | a promoted member is an admin showing the same role, and a second promotion is refused with nothing changed |
| Staff.RoleChangeKeepsLookups | BackendSGH/BackendSGH/Controllers/ResponsablesControllers.cs:258-271 | changing one role moves no one: lookups by id and by identity user find the same member |
| Staff.Edit | BackendSGH/BackendSGH/Controllers/ResponsablesControllers.cs:190-212 | NotFound iff the ids differ or no member has the id, then UnknownService iff the submitted `ServiceId` names no stored service (the `ServiceId` foreign key makes the save at line 208 fail); no other error; otherwise the submitted profile replaces the stored one but keeps the stored role and identity user |
| Staff.EditKeepsAdmins | BackendSGH/BackendSGH/Controllers/ResponsablesControllers.cs:201-203 | an edit never grants or revokes admin rights for any user |
| Safety.CartTotalKeepsValid | BackendSGH/BackendSGH/Controllers/PaniersController.cs:56-60 | rewriting only cached cart totals keeps the invariant |
| Safety.GetOrCreateCartKeepsValid | BackendSGH/BackendSGH/Controllers/PaniersController.cs:74-89 | fetching or creating the active cart keeps the invariant and the cart id is already in use below the counter |
| Safety.BookKeepsValid | BackendSGH/BackendSGH/Controllers/ReservationsController.cs:119-158 | a live booking into an existing cart or none keeps the invariant |
| Safety.CreateReservationKeepsValid | BackendSGH/BackendSGH/Controllers/ReservationsController.cs:105-162 | direct booking keeps the invariant |
| Safety.CreateAdminReservationKeepsValid | BackendSGH/BackendSGH/Controllers/ReservationsController.cs:267-325 | staff booking keeps the invariant |
| Safety.AddLineKeepsValid | BackendSGH/BackendSGH/Controllers/PaniersController.cs:91-131 | adding a room line to an existing cart keeps the invariant |
| Safety.AddToPanierKeepsValid | BackendSGH/BackendSGH/Controllers/PaniersController.cs:67-134 | the cart add keeps the invariant, including no double booking |
| Safety.StatusChangeKeepsValid | BackendSGH/BackendSGH/Controllers/ReservationsController.cs:359-362 | status rewrites that keep which stays are live, and room-state changes, keep the invariant |
| Safety.CompleteReservationKeepsValid | BackendSGH/BackendSGH/Controllers/ReservationsController.cs:346-372 | completing a stay that is not cancelled keeps the invariant |
| Safety.GetActivePanierKeepsValid | BackendSGH/BackendSGH/Controllers/PaniersController.cs:29-63 | reading the cart keeps the invariant |
| Safety.RemoveAtKeepsNoDoubleBooking | BackendSGH/BackendSGH/Controllers/PaniersController.cs:154 | deleting a stay keeps the remaining stays apart |
| Safety.RemoveBookingKeepsValid | BackendSGH/BackendSGH/Controllers/PaniersController.cs:154 | deleting a stay keeps the invariant |
| Safety.RemoveServiceBookingKeepsValid | BackendSGH/BackendSGH/Controllers/PaniersController.cs:178 | deleting a service line keeps the invariant |
| Safety.RemoveItemShape | BackendSGH/BackendSGH/Controllers/PaniersController.cs:144-154 | a successful removal deletes the first matching stay and changes only cart totals |
| Safety.RemoveItemKeepsValid | BackendSGH/BackendSGH/Controllers/PaniersController.cs:138-158 | room-line removal keeps the invariant |
| Safety.RemoveServiceItemShape | BackendSGH/BackendSGH/Controllers/PaniersController.cs:168-178 | a successful service removal deletes the first matching line and changes only cart totals |
| Safety.RemoveServiceItemKeepsValid | BackendSGH/BackendSGH/Controllers/PaniersController.cs:162-182 | service-line removal keeps the invariant |
| Safety.SettleKeepsValid | BackendSGH/BackendSGH/Controllers/PaniersController.cs:200-233 | settling an active cart keeps the invariant |
| Safety.CheckoutKeepsValid | BackendSGH/BackendSGH/Controllers/PaniersController.cs:186-235 | checkout as written keeps the invariant |
| Safety.CheckoutCheckedKeepsValid | BackendSGH/BackendSGH/Controllers/PaniersController.cs:289-314 | the checked checkout keeps the invariant |
| Safety.AppendServiceLineKeepsValid | BackendSGH/BackendSGH/Controllers/ServicesController.cs:257-258 | storing a service line under a fresh id keeps the invariant |
| Safety.ReserveServiceKeepsValid | BackendSGH/BackendSGH/Controllers/ServicesController.cs:188-297 | booking a service keeps the invariant |
| Safety.ReserveServiceInCartShape | BackendSGH/BackendSGH/Controllers/ServicesController.cs:214-235 | a paid client booking stores one fresh line in an existing or new active cart and changes only that cart's total |
| Safety.AppendCartServiceLineKeepsValid | BackendSGH/BackendSGH/Controllers/ServicesController.cs:233-234 | storing a fresh line and changing only cart totals keeps the invariant |
| Safety.ReserveServiceInCartKeepsValid | BackendSGH/BackendSGH/Controllers/ServicesController.cs:214-235 | a paid client booking keeps the invariant |
| Safety.ReserveServiceDirectKeepsValid | BackendSGH/BackendSGH/Controllers/ServicesController.cs:241-258 | a directly confirmed service booking keeps the invariant |
| Safety.CompleteServiceKeepsValid | BackendSGH/BackendSGH/Controllers/ServicesController.cs:361-381 | completing a service keeps the invariant |
| Safety.CatalogueChangeKeepsValid | BackendSGH/BackendSGH/Controllers/ServicesController.cs:150-151 | any catalogue whose ids are below the counter keeps the invariant |
| Safety.PutServiceKeepsValid | BackendSGH/BackendSGH/Controllers/ServicesController.cs:52-114 | editing a service keeps the invariant |
| Safety.PostServiceKeepsValid | BackendSGH/BackendSGH/Controllers/ServicesController.cs:117-154 | adding a service keeps the invariant |
| Safety.DeleteServiceKeepsValid | BackendSGH/BackendSGH/Controllers/ServicesController.cs:157-173 | deleting a service keeps the invariant |
| Safety.DeleteServiceKeepsScopesKnown | BackendSGH/BackendSGH/Controllers/ServicesController.cs:168-169 | if every staff scope names a stored service, it still does after a delete |
| Safety.EditKeepsScopesKnown | BackendSGH/BackendSGH/Controllers/ResponsablesControllers.cs:207-208 | if every staff scope names a stored service, it still does after an edit |
| Safety.PutTypeKeepsValid | BackendSGH/BackendSGH/Controllers/TypeChambresController.cs:48-59 | editing a category keeps the invariant |
| Safety.PostTypeKeepsValid | BackendSGH/BackendSGH/Controllers/TypeChambresController.cs:62-101 | adding a category keeps the invariant |
| Safety.DeleteTypeKeepsValid | BackendSGH/BackendSGH/Controllers/TypeChambresController.cs:104-117 | deleting a category keeps the invariant |
| Safety.StaffChangeKeepsValid | BackendSGH/BackendSGH/Controllers/ResponsablesControllers.cs:150-157 | creating, promoting or editing staff keeps the invariant |

## Left out

- E-mail receipts and confirmations: SMTP I/O whose failures are caught and never change state.
- Stripe session and coupon creation after the validation prefix of `create-checkout-session`: a foreign payment library. `CheckoutSession` stops at the manifest it would send.
- Identity: password hashing, `CreateAsync`, role creation and the identity user table. The taken user names are a set parameter of `CreateEmployee`, the new identity id is a parameter, and a failed identity creation or transaction rollback is not modelled. `FindByNameAsync`'s name normalisation is not modelled; names are compared exactly.
- Caller roles: `User.IsInRole` is the `Services.Caller` record passed in; route attributes such as `[Authorize(Roles = ...)]` are not enforced by the model.
- Image uploads, descriptions, view fields (`Vue`), creation timestamps and JSON image paths: file-system I/O and display data.
- Entity Framework: change tracking, `Include`, concurrency exceptions and cascade deletes. The exceptions are the foreign-key failures stated as UnknownClient, UnknownService and ServiceInUse, and the release of the caller's tracked profile in `Services.DeleteService`. Deleting a category or service does not delete the rooms or bookings referring to it. Each endpoint is one atomic step, so the race between the availability query and the insert is not modelled.
- `ModelState` validation in `Edit` and the empty-body check of `Create` (`dto == null`): the model always receives a well-formed request.
- Time of day and `decimal`: dates are whole days and money integer cents. `(End - Start).Days` is exactly `end - start`.
- Availability.Book: a category id with free rooms but no `TypeChambre` row makes the source throw on `type.Tarif`; the model answers UnknownRoomType without changing the state.
- Integer width: points, prices and counters are unbounded; 32-bit overflow of `int` points is not modelled.
- Hotel.IsAdmin: the "/ADMIN" suffix is compared ordinally. The source's `Role.EndsWith("/ADMIN")` passes no `StringComparison` and so compares under the current culture, which ignores characters such as U+00AD; a role ending in "/ADMIN" followed by such a character is an admin there and not in the model.
- `IsWhiteSpace` covers ASCII and Latin-1 white space, not every Unicode separator `Trim` removes.
- Plain listings with no rule (`GetServices`, `GetTypeChambres`, `GetAllReservations`, `GetClients`), the Razor `Details`/`Delete`/`DeleteConfirmed` views of staff, `ChambresController`, `AuthController` and the frontend.
- Safety.CompleteReservationKeepsValid: requires that the completed stay is not "Annulée". The source completes a cancelled stay too, which revives it and can then overlap a later booking of its room.
- Staff.Edit: the source applies no admin or identity check to `Edit`, and neither does the model.

## Findings

| source | as written | input that shows it | evidently intended | confidence | as-written member | corrected member |
|---|---|---|---|---|---|---|
| BackendSGH/BackendSGH/Controllers/PaniersController.cs:201-226 | a negative `pointsUsed` skips the balance check and the deduction but enters `Math.Max(0, Total - pointsUsed)` | `pointsUsed = -20` on any non-empty cart: the client is credited one extra point and a paid amount 20 euros above the cart | refuse negative points, as `create-checkout-session` does at line 289 | not executed | Paniers.NegativePointsInflateEarnings | Paniers.CheckoutChecked |
| BackendSGH/BackendSGH/Controllers/PaniersController.cs:201-226 | `pointsUsed` is never compared with the total; the amount paid floors at 0 while the whole `pointsUsed` is deducted | balance 100, cart total 30 euros, `pointsUsed = 100`: 100 points are spent on a 30-euro cart | refuse points worth more than the recomputed total, as lines 307-314 do | not executed | Paniers.PointsBeyondTotalAccepted | Paniers.CheckoutChecked |
| BackendSGH/BackendSGH/Controllers/PaniersController.cs:109-111 | the date order is never checked, so `days` can be negative | `StartDate` 3 days after `EndDate` with a rate of 100 euros: the line costs −300 euros and lowers the cart total | refuse a departure before the arrival; a same-day stay stays allowed, because line 109 deliberately charges it as one night (the other booking endpoints refuse `StartDate >= EndDate`, which would also drop that case) | not executed | Paniers.ReversedDatesLowerTotal | Paniers.AddToPanierChecked |

=== FILE: availability.dfy ===
/** Room availability over half-open day intervals, the stay price, and the
    single booking step shared by the cart, direct and staff booking paths. */
module Availability {
  import opened Common
  import opened Hotel

  // ----- Pricing -------------------------------------------------------------

  /** `(End - Start).Days`, where only a zero-day stay is charged one night. */
  function Nights(start: int, end: int): int {
    if end - start == 0 then 1 else end - start
  }

  /** `Tarif * days`, in cents. */
  function RoomPrice(rate: int, start: int, end: int): int {
    rate * Nights(start, end)
  }

  /** A well-ordered stay is charged exactly one rate per night, and at least
      one night; a same-day stay is charged one night; a reversed stay gets a
      negative night count. */
  lemma StayPrice(rate: int, start: int, end: int)
    ensures start < end ==> Nights(start, end) >= 1 && RoomPrice(rate, start, end) == rate * (end - start)
    ensures start == end ==> RoomPrice(rate, start, end) == rate
    ensures end < start ==> Nights(start, end) < 0
  {
  }

  // ----- Free rooms ----------------------------------------------------------

  /** No live reservation of the room meets [start, end). */
  predicate RoomFree(h: Hotel, roomId: int, start: int, end: int) {
    forall i :: 0 <= i < |h.bookings| && h.bookings[i].roomId == roomId && Live(h.bookings[i].status)
      ==> !Overlaps(h.bookings[i], start, end)
  }

  /** `bookedRoomIds`: the rooms of the category holding a live reservation
      that meets [start, end), found through each reservation's room. */
  function BookedRoomIds(h: Hotel, typeId: int, start: int, end: int): set<int> {
    set b | b in h.bookings && RoomTypeOf(h.rooms, b.roomId) == Some(typeId)
      && Live(b.status) && Overlaps(b, start, end) :: b.roomId
  }

  function RoomsOfType(rooms: seq<Room>, typeId: int): seq<Room> {
    Filter(rooms, (c: Room) => c.typeId == typeId)
  }

  /** The category's rooms outside `bookedRoomIds`, in table order. */
  function FreeRooms(h: Hotel, typeId: int, start: int, end: int): seq<Room> {
    var booked := BookedRoomIds(h, typeId, start, end);
    Filter(h.rooms, (c: Room) => c.typeId == typeId && c.id !in booked)
  }

  function Ids(rooms: seq<Room>): (r: seq<int>)
    ensures |r| == |rooms|
    ensures forall i :: 0 <= i < |r| ==> r[i] == rooms[i].id
  {
    seq(|rooms|, i requires 0 <= i < |rooms| => rooms[i].id)
  }

  /** With distinct room ids, a room's category is the one it is stored with. */
  lemma RoomTypeOfMember(rooms: seq<Room>, k: nat)
    requires RoomIdsDistinct(rooms) && k < |rooms|
    ensures RoomTypeOf(rooms, rooms[k].id) == Some(rooms[k].typeId)
  {
    var m := FirstIndex(rooms, (c: Room) => c.id == rooms[k].id);
    assert m.Some?;
    assert m.value == k;
  }

  /** The rooms the availability query keeps are exactly the category's rooms
      that no live reservation occupies during [start, end). */
  lemma {:induction false} FreeRoomsAreFree(h: Hotel, typeId: int, start: int, end: int, k: nat)
    requires RoomIdsDistinct(h.rooms) && k < |h.rooms|
    ensures h.rooms[k] in FreeRooms(h, typeId, start, end)
        <==> h.rooms[k].typeId == typeId && RoomFree(h, h.rooms[k].id, start, end)
  {
    var c := h.rooms[k];
    var booked := BookedRoomIds(h, typeId, start, end);
    var p := (c: Room) => c.typeId == typeId && c.id !in booked;
    if c.typeId == typeId {
      RoomTypeOfMember(h.rooms, k);
      if c.id in booked {
        var b :| b in h.bookings && RoomTypeOf(h.rooms, b.roomId) == Some(typeId)
          && Live(b.status) && Overlaps(b, start, end) && b.roomId == c.id;
        var i :| 0 <= i < |h.bookings| && h.bookings[i] == b;
        assert !RoomFree(h, c.id, start, end);
      } else {
        forall i | 0 <= i < |h.bookings| && h.bookings[i].roomId == c.id && Live(h.bookings[i].status)
          ensures !Overlaps(h.bookings[i], start, end)
        {
          var b := h.bookings[i];
          assert RoomTypeOf(h.rooms, b.roomId) == Some(typeId);
          assert b in h.bookings;
          assert Overlaps(b, start, end) ==> b.roomId in booked;
        }
        assert p(c);
      }
    }
  }

  /** Every room the query keeps is of the category and free. */
  lemma FreeRoomsMembers(h: Hotel, typeId: int, start: int, end: int)
    requires RoomIdsDistinct(h.rooms)
    ensures forall i :: 0 <= i < |FreeRooms(h, typeId, start, end)| ==>
      var c := FreeRooms(h, typeId, start, end)[i];
      c.typeId == typeId && RoomFree(h, c.id, start, end)
  {
    var free := FreeRooms(h, typeId, start, end);
    forall i | 0 <= i < |free|
      ensures free[i].typeId == typeId && RoomFree(h, free[i].id, start, end)
    {
      var k :| 0 <= k < |h.rooms| && h.rooms[k] == free[i];
      FreeRoomsAreFree(h, typeId, start, end, k);
    }
  }

  // ----- The shared booking step ---------------------------------------------

  /** The nightly rate of the category, if it exists (`TypeChambres.FindAsync`). */
  function RateOf(h: Hotel, typeId: int): Option<int> {
    match TypeIndex(h.types, typeId)
    case Some(i) => Some(h.types[i].rate)
    case None => None
  }

  /** Books the first free room of the category for [start, end): the new
      reservation carries the given status, client, guest name and cart, is
      priced `Tarif * days`, and the direct paths (`markRoom`) mark the room
      "Réservée". The three booking endpoints differ only in these arguments. */
  function Book(h: Hotel, typeId: int, start: int, end: int, status: LineStatus,
                clientId: Option<int>, guestName: Option<string>, cartId: Option<int>,
                markRoom: bool): (s: Step<RoomReservation>)
    ensures s.result.Err? ==> s.next == h
    ensures s.result.Err? ==> s.result.error == NoAvailability || s.result.error == UnknownRoomType
    ensures s.result == Err(NoAvailability) <==> |FreeRooms(h, typeId, start, end)| == 0
    ensures s.result == Err(UnknownRoomType) <==> |FreeRooms(h, typeId, start, end)| > 0 && RateOf(h, typeId).None?
    ensures s.result.Ok? ==>
      var r := s.result.value;
      && r.id == h.nextId && r.start == start && r.end == end && r.status == status
      && r.clientId == clientId && r.guestName == guestName && r.cartId == cartId
      && RateOf(h, typeId).Some? && r.price == RoomPrice(RateOf(h, typeId).value, start, end)
      && r.roomId == FreeRooms(h, typeId, start, end)[0].id
      && s.next == h.(bookings := h.bookings + [r], nextId := h.nextId + 1,
                      rooms := if markRoom then SetRoomState(h.rooms, {r.roomId}, Reservee) else h.rooms)
  {
    var free := FreeRooms(h, typeId, start, end);
    if |free| == 0 then Step(h, Err(NoAvailability))
    else match RateOf(h, typeId)
      case None => Step(h, Err(UnknownRoomType))
      case Some(rate) =>
        var room := free[0];
        var r := RoomReservation(h.nextId, start, end, status, RoomPrice(rate, start, end),
                                 clientId, guestName, room.id, cartId);
        var rooms := if markRoom then SetRoomState(h.rooms, {room.id}, Reservee) else h.rooms;
        Step(h.(bookings := h.bookings + [r], nextId := h.nextId + 1, rooms := rooms), Ok(r))
  }

  /** Appending a stay on a room that is free for its interval keeps the
      no-double-booking invariant. */
  lemma AppendFreeKeepsNoDoubleBooking(h: Hotel, r: RoomReservation)
    requires NoDoubleBooking(h.bookings)
    requires RoomFree(h, r.roomId, r.start, r.end)
    ensures NoDoubleBooking(h.bookings + [r])
  {
    var bs := h.bookings + [r];
    forall i, j | 0 <= i < |bs| && 0 <= j < |bs| && i != j
      && bs[i].roomId == bs[j].roomId && Live(bs[i].status) && Live(bs[j].status)
      ensures !Overlaps(bs[i], bs[j].start, bs[j].end)
    {
      if i == |h.bookings| {
        assert !Overlaps(h.bookings[j], r.start, r.end);
      } else if j == |h.bookings| {
        assert !Overlaps(h.bookings[i], r.start, r.end);
      } else {
        assert bs[i] == h.bookings[i] && bs[j] == h.bookings[j];
      }
    }
  }

  /** The key safety property: whatever the status, client or cart it records,
      a booking never creates two overlapping live stays on one room. */
  lemma BookKeepsNoDoubleBooking(h: Hotel, typeId: int, start: int, end: int, status: LineStatus,
                                 clientId: Option<int>, guestName: Option<string>, cartId: Option<int>,
                                 markRoom: bool)
    requires RoomIdsDistinct(h.rooms) && NoDoubleBooking(h.bookings)
    ensures NoDoubleBooking(Book(h, typeId, start, end, status, clientId, guestName, cartId, markRoom).next.bookings)
  {
    var s := Book(h, typeId, start, end, status, clientId, guestName, cartId, markRoom);
    if s.result.Ok? {
      FreeRoomsMembers(h, typeId, start, end);
      AppendFreeKeepsNoDoubleBooking(h, s.result.value);
    }
  }

  // ----- CheckAvailability ---------------------------------------------------

  /** The answer of `check-availability`: either the category has no room at
      all, or the free rooms' ids and their count. */
  datatype Availability = NoRoomsOfType | Rooms(available: bool, count: nat, roomIds: seq<int>) {
    predicate IsAvailable() {
      Rooms? && available
    }
  }

  function CheckAvailability(h: Hotel, typeId: int, start: int, end: int): (r: Result<Availability>)
    ensures start >= end <==> r == Err(InvalidDates)
    ensures start < end && |RoomsOfType(h.rooms, typeId)| == 0 ==> r == Ok(NoRoomsOfType)
    ensures r.Ok? && r.value.Rooms? ==>
      && |RoomsOfType(h.rooms, typeId)| > 0
      && r.value.count == |r.value.roomIds|
      && (r.value.available <==> r.value.count > 0)
      && r.value.roomIds == Ids(FreeRooms(h, typeId, start, end))
  {
    if start >= end then Err(InvalidDates)
    else if |RoomsOfType(h.rooms, typeId)| == 0 then Ok(NoRoomsOfType)
    else
      var free := FreeRooms(h, typeId, start, end);
      Ok(Rooms(|free| > 0, |free|, Ids(free)))
  }

  /** With distinct room ids, a room's id is listed iff the room was kept. */
  lemma IdsOfKept(rooms: seq<Room>, kept: seq<Room>, k: nat)
    requires RoomIdsDistinct(rooms) && k < |rooms|
    requires forall i :: 0 <= i < |kept| ==> kept[i] in rooms
    ensures rooms[k].id in Ids(kept) <==> rooms[k] in kept
  {
    if rooms[k].id in Ids(kept) {
      var i :| 0 <= i < |kept| && kept[i].id == rooms[k].id;
      var m :| 0 <= m < |rooms| && rooms[m] == kept[i];
      assert m == k;
    }
    if rooms[k] in kept {
      var i :| 0 <= i < |kept| && kept[i] == rooms[k];
      assert Ids(kept)[i] == rooms[k].id;
    }
  }

  /** `availableRoomIds` lists exactly the ids of the category's rooms that
      are free for [start, end); a category without rooms is never available. */
  lemma CheckAvailabilityExact(h: Hotel, typeId: int, start: int, end: int)
    requires RoomIdsDistinct(h.rooms) && start < end
    ensures var r := CheckAvailability(h, typeId, start, end);
      && r.Ok?
      && (r.value.NoRoomsOfType? ==> forall k :: 0 <= k < |h.rooms| ==> h.rooms[k].typeId != typeId)
      && (r.value.Rooms? ==> forall k :: 0 <= k < |h.rooms| ==>
            (h.rooms[k].id in r.value.roomIds
             <==> h.rooms[k].typeId == typeId && RoomFree(h, h.rooms[k].id, start, end)))
  {
    var r := CheckAvailability(h, typeId, start, end);
    if r.value.Rooms? {
      var free := FreeRooms(h, typeId, start, end);
      forall k | 0 <= k < |h.rooms|
        ensures h.rooms[k].id in r.value.roomIds
            <==> h.rooms[k].typeId == typeId && RoomFree(h, h.rooms[k].id, start, end)
      {
        FreeRoomsAreFree(h, typeId, start, end, k);
        IdsOfKept(h.rooms, free, k);
      }
    }
  }

  // ----- GetUnavailableDates -------------------------------------------------

  /** The reservations `unavailable-dates` loads: live, of the category,
      meeting [start, end). */
  function LoadedReservations(h: Hotel, typeId: int, start: int, end: int): seq<RoomReservation> {
    Filter(h.bookings, (b: RoomReservation) =>
      RoomTypeOf(h.rooms, b.roomId) == Some(typeId) && Live(b.status) && Overlaps(b, start, end))
  }

  /** The live reservations of the category, whatever their dates. */
  function LiveOfType(h: Hotel, typeId: int): seq<RoomReservation> {
    Filter(h.bookings, (b: RoomReservation) => RoomTypeOf(h.rooms, b.roomId) == Some(typeId) && Live(b.status))
  }

  predicate Covers(b: RoomReservation, d: int) {
    b.start <= d && b.end > d
  }

  /** How many of the reservations hold day `d` (`DateDebut <= d && DateFin > d`). */
  function CountCovering(rs: seq<RoomReservation>, d: int): nat {
    if |rs| == 0 then 0
    else (if Covers(rs[0], d) then 1 else 0) + CountCovering(rs[1..], d)
  }

  /** Days `d .. end` whose covering count reaches `total`, in ascending order. */
  function FullDaysFrom(rs: seq<RoomReservation>, total: nat, d: int, end: int): (r: seq<int>)
    ensures forall i :: 0 <= i < |r| ==> d <= r[i] <= end
    ensures forall i, j :: 0 <= i < j < |r| ==> r[i] < r[j]
    ensures forall x :: d <= x <= end ==> (x in r <==> CountCovering(rs, x) >= total)
    decreases end + 1 - d
  {
    if d > end then []
    else
      var rest := FullDaysFrom(rs, total, d + 1, end);
      if CountCovering(rs, d) >= total then [d] + rest else rest
  }

  /** `unavailable-dates`: every day from `start` to `end` inclusive, ascending,
      on which the loaded reservations number at least the category's rooms;
      nothing at all for a category without rooms. */
  function UnavailableDates(h: Hotel, typeId: int, start: int, end: int): (r: seq<int>)
    ensures |RoomsOfType(h.rooms, typeId)| == 0 ==> r == []
    ensures forall i, j :: 0 <= i < j < |r| ==> r[i] < r[j]
    ensures |RoomsOfType(h.rooms, typeId)| > 0 ==> forall x ::
      x in r <==> (start <= x <= end
        && CountCovering(LoadedReservations(h, typeId, start, end), x) >= |RoomsOfType(h.rooms, typeId)|)
  {
    var total := |RoomsOfType(h.rooms, typeId)|;
    if total == 0 then []
    else FullDaysFrom(LoadedReservations(h, typeId, start, end), total, start, end)
  }

  /** Two filters that agree on every reservation holding day `d` count the
      same reservations for that day. */
  lemma {:induction false} CountCoveringFilters(rs: seq<RoomReservation>, p: RoomReservation -> bool,
                                                q: RoomReservation -> bool, d: int)
    requires forall i :: 0 <= i < |rs| && Covers(rs[i], d) ==> (p(rs[i]) <==> q(rs[i]))
    ensures CountCovering(Filter(rs, p), d) == CountCovering(Filter(rs, q), d)
  {
    if |rs| > 0 {
      CountCoveringFilters(rs[1..], p, q, d);
    }
  }

  /** For every day before `end` the loaded reservations count exactly the
      category's live stays that hold that day; only day `end` itself misses
      the stays that begin on it. */
  lemma UnavailableDayCount(h: Hotel, typeId: int, start: int, end: int, d: int)
    requires start <= d < end
    ensures CountCovering(LoadedReservations(h, typeId, start, end), d) == CountCovering(LiveOfType(h, typeId), d)
  {
    CountCoveringFilters(h.bookings,
      (b: RoomReservation) => RoomTypeOf(h.rooms, b.roomId) == Some(typeId) && Live(b.status) && Overlaps(b, start, end),
      (b: RoomReservation) => RoomTypeOf(h.rooms, b.roomId) == Some(typeId) && Live(b.status), d);
  }
}

=== FILE: common.dfy ===
/** Small generic helpers shared by the whole model: an optional value,
    first-match search and order-preserving filtering over sequences. */
module Common {

  /** The conventional Some/None datatype, standing for a nullable value. */
  datatype Option<+T> = None | Some(value: T) {

    /** The wrapped value, or `default` when there is none (C#'s `??`). */
    function GetOr(default: T): T {
      match this
      case Some(v) => v
      case None => default
    }
  }

  function Max(a: int, b: int): int {
    if a < b then b else a
  }

  /** Index of the first element of `s` satisfying `p` (LINQ's `FirstOrDefault`). */
  function FirstIndex<T>(s: seq<T>, p: T -> bool): (r: Option<nat>)
    ensures r.Some? ==> r.value < |s| && p(s[r.value])
    ensures r.Some? ==> forall j :: 0 <= j < r.value ==> !p(s[j])
    ensures r.None? ==> forall j :: 0 <= j < |s| ==> !p(s[j])
  {
    if |s| == 0 then None
    else if p(s[0]) then Some(0)
    else match FirstIndex(s[1..], p)
      case None => None
      case Some(k) => Some(k + 1)
  }

  /** The elements of `s` satisfying `p`, in their original order (LINQ's `Where`). */
  function Filter<T>(s: seq<T>, p: T -> bool): (r: seq<T>)
    ensures |r| <= |s|
    ensures forall i :: 0 <= i < |r| ==> p(r[i])
    ensures forall i :: 0 <= i < |s| && p(s[i]) ==> s[i] in r
    ensures forall i :: 0 <= i < |r| ==> r[i] in s
    ensures multiset(r) <= multiset(s)
  {
    if |s| == 0 then []
    else
      assert s == [s[0]] + s[1..];
      if p(s[0]) then [s[0]] + Filter(s[1..], p)
      else Filter(s[1..], p)
  }

  /** Filtering distributes over concatenation. */
  lemma {:induction false} FilterAppend<T>(a: seq<T>, b: seq<T>, p: T -> bool)
    ensures Filter(a + b, p) == Filter(a, p) + Filter(b, p)
  {
    if |a| == 0 {
      assert a + b == b;
    } else {
      assert (a + b)[1..] == a[1..] + b;
      FilterAppend(a[1..], b, p);
    }
  }

  /** Filtering with a predicate that accepts every element changes nothing. */
  lemma {:induction false} FilterAll<T>(s: seq<T>, p: T -> bool)
    requires forall i :: 0 <= i < |s| ==> p(s[i])
    ensures Filter(s, p) == s
  {
    if |s| > 0 {
      FilterAll(s[1..], p);
    }
  }

  /** Filtering depends only on which elements the predicate accepts. */
  lemma {:induction false} FilterSamePredicate<T>(s: seq<T>, p: T -> bool, q: T -> bool)
    requires forall x :: p(x) == q(x)
    ensures Filter(s, p) == Filter(s, q)
  {
    if |s| > 0 {
      FilterSamePredicate(s[1..], p, q);
    }
  }

  /** The element removed at index `k`; the rest keeps its order. */
  function RemoveAt<T>(s: seq<T>, k: nat): (r: seq<T>)
    requires k < |s|
    ensures |r| == |s| - 1
    ensures forall i :: 0 <= i < k ==> r[i] == s[i]
    ensures forall i :: k <= i < |r| ==> r[i] == s[i + 1]
    ensures multiset(r) + multiset{s[k]} == multiset(s)
  {
    assert s == s[..k] + [s[k]] + s[k + 1..];
    s[..k] + s[k + 1..]
  }
}

=== FILE: model.dfy ===
/** The in-memory hotel state the controllers read and write: one sequence per
    database table, money as integer cents, dates as integer day numbers and
    the string statuses of the database as enumerations. */
module Hotel {
  import opened Common
  import Text

  /** `ReservationChambre.Statut` / `ReservationService.Statut`. */
  datatype LineStatus = Panier | Confirmee | Terminee | Annulee

  /** `Panier.Statut`: "Actif" or "Payé". */
  datatype CartStatus = Actif | Paye

  /** `Chambre.Etat`: "Disponible" or "Réservée". */
  datatype RoomState = Disponible | Reservee

  /** A room category; `rate` is the nightly `Tarif` in cents. */
  datatype RoomType = RoomType(id: int, name: string, capacity: int, rate: int)

  datatype Room = Room(id: int, number: string, typeId: int, state: RoomState)

  /** A room stay (`ReservationChambre`): the half-open day interval
      [start, end), the locked `PrixTotal` in cents, the optional client or
      free-text guest name and the optional owning cart. */
  datatype RoomReservation = RoomReservation(
    id: int, start: int, end: int, status: LineStatus, price: int,
    clientId: Option<int>, guestName: Option<string>, roomId: int, cartId: Option<int>)

  /** A bookable service; a null `Prix` is `None`. */
  datatype Service = Service(id: int, name: string, price: Option<int>, category: string)

  /** A service booking (`ReservationService`) with its day, its time of day in
      minutes and the price snapshot taken from the service. */
  datatype ServiceReservation = ServiceReservation(
    id: int, date: int, time: int, price: Option<int>, status: LineStatus,
    clientId: Option<int>, guestName: Option<string>, serviceId: int, cartId: Option<int>)

  /** A cart (`Panier`); `total` is the cached running total in cents. */
  datatype Cart = Cart(id: int, clientId: int, status: CartStatus, total: int)

  /** A client profile, found through the identity user id; `points` is the
      loyalty balance in whole euros. */
  datatype Client = Client(id: int, userId: string, points: int)

  /** A staff profile (`Responsable`). */
  datatype Responsable = Responsable(
    id: int, role: string, userId: string, roomManager: bool, serviceId: Option<int>)

  datatype Hotel = Hotel(
    types: seq<RoomType>,
    rooms: seq<Room>,
    bookings: seq<RoomReservation>,
    services: seq<Service>,
    serviceBookings: seq<ServiceReservation>,
    carts: seq<Cart>,
    clients: seq<Client>,
    staff: seq<Responsable>,
    nextId: int)

  /** Why an endpoint refused a request. */
  datatype Error =
    | ClientNotFound
    | InvalidDates
    | NoAvailability
    | UnknownRoomType
    | ItemNotFound
    | EmptyCart
    | InsufficientPoints
    | InvalidPoints
    | PointsExceedTotal
    | ServiceNotFound
    | MissingClient
    | UnknownClient
    | UnknownService
    | ServiceInUse
    | NotFound
    | AlreadyCompleted
    | AlreadyAdmin
    | IdMismatch
    | Unauthorized
    | Forbidden

  datatype Result<+T> = Ok(value: T) | Err(error: Error)

  /** One endpoint call: the state after it and what it answered. */
  datatype Step<+T> = Step(next: Hotel, result: Result<T>)

  /** One loyalty point is worth one euro. */
  const CentsPerPoint: int := 100

  /** One point is earned for every 20 euros actually paid. */
  const CentsPerEarnedPoint: int := 2000

  const AdminSuffix: string := "/ADMIN"

  // ----- Lookups -------------------------------------------------------------

  function ClientIndex(clients: seq<Client>, userId: string): Option<nat> {
    FirstIndex(clients, (c: Client) => c.userId == userId)
  }

  function ClientById(clients: seq<Client>, id: int): Option<nat> {
    FirstIndex(clients, (c: Client) => c.id == id)
  }

  /** A `ClientId` the foreign key to `Clients` accepts: none, or the id of a
      stored client. */
  predicate KnownClient(clients: seq<Client>, clientId: Option<int>) {
    clientId.None? || ClientById(clients, clientId.value).Some?
  }

  function StaffIndex(staff: seq<Responsable>, userId: string): Option<nat> {
    FirstIndex(staff, (r: Responsable) => r.userId == userId)
  }

  function TypeIndex(types: seq<RoomType>, id: int): Option<nat> {
    FirstIndex(types, (t: RoomType) => t.id == id)
  }

  function ServiceIndex(services: seq<Service>, id: int): Option<nat> {
    FirstIndex(services, (s: Service) => s.id == id)
  }

  /** A `ServiceId` the foreign key to `Services` accepts: none, or the id of
      a stored service. */
  predicate KnownService(services: seq<Service>, serviceId: Option<int>) {
    serviceId.None? || ServiceIndex(services, serviceId.value).Some?
  }

  /** Referential integrity of `Responsables.ServiceId`: every scoped staff
      profile names a stored service. */
  predicate ScopesKnown(h: Hotel) {
    forall j :: 0 <= j < |h.staff| ==> KnownService(h.services, h.staff[j].serviceId)
  }

  function CartIndex(carts: seq<Cart>, id: int): Option<nat> {
    FirstIndex(carts, (c: Cart) => c.id == id)
  }

  /** The client's cart with status "Actif", if any. */
  function ActiveCartIndex(carts: seq<Cart>, clientId: int): Option<nat> {
    FirstIndex(carts, (c: Cart) => c.clientId == clientId && c.status == Actif)
  }

  /** The category of the room with the given id (`r.Chambre.TypeChambreId`). */
  function RoomTypeOf(rooms: seq<Room>, roomId: int): Option<int> {
    match FirstIndex(rooms, (c: Room) => c.id == roomId)
    case Some(i) => Some(rooms[i].typeId)
    case None => None
  }

  // ----- Roles ---------------------------------------------------------------

  predicate IsAdminRole(role: string) {
    Text.EndsWith(role, AdminSuffix)
  }

  /** The caller has a staff profile whose role ends with "/ADMIN". */
  predicate IsAdmin(h: Hotel, userId: string) {
    match StaffIndex(h.staff, userId)
    case Some(i) => IsAdminRole(h.staff[i].role)
    case None => false
  }

  /** Being an admin is decided by the user's first staff profile: there is
      one, and its role ends with "/ADMIN". */
  lemma IsAdminFirstProfile(h: Hotel, userId: string)
    ensures IsAdmin(h, userId) <==>
      exists i :: 0 <= i < |h.staff| && h.staff[i].userId == userId
        && (forall j :: 0 <= j < i ==> h.staff[j].userId != userId)
        && Text.EndsWith(h.staff[i].role, AdminSuffix)
  {
    match StaffIndex(h.staff, userId)
    case Some(i) =>
      forall m | 0 <= m < |h.staff| && h.staff[m].userId == userId
        && (forall j :: 0 <= j < m ==> h.staff[j].userId != userId)
        ensures m == i
      {
        assert !(m < i) && !(i < m);
      }
    case None =>
  }

  // ----- Overlap and the no-double-booking invariant -----------------------

  /** Every status except "Annulée" holds the room. */
  predicate Live(s: LineStatus) {
    s != Annulee
  }

  /** The stay meets the half-open interval [start, end). */
  predicate Overlaps(r: RoomReservation, start: int, end: int) {
    r.start < end && r.end > start
  }

  /** No two live reservations of the same room overlap. */
  predicate NoDoubleBooking(rs: seq<RoomReservation>) {
    forall i, j ::
      0 <= i < |rs| && 0 <= j < |rs| && i != j
      && rs[i].roomId == rs[j].roomId && Live(rs[i].status) && Live(rs[j].status)
      ==> !Overlaps(rs[i], rs[j].start, rs[j].end)
  }

  predicate RoomIdsDistinct(rooms: seq<Room>) {
    forall i, j :: 0 <= i < j < |rooms| ==> rooms[i].id != rooms[j].id
  }

  predicate ServiceIdsDistinct(services: seq<Service>) {
    forall i, j :: 0 <= i < j < |services| ==> services[i].id != services[j].id
  }

  predicate TypeIdsDistinct(types: seq<RoomType>) {
    forall i, j :: 0 <= i < j < |types| ==> types[i].id != types[j].id
  }

  /** Every id the state already uses, as a key or a cart reference, lies
      below `nextId`, so `nextId` is a fresh identity value. */
  predicate Fresh(h: Hotel) {
    && (forall i :: 0 <= i < |h.bookings| ==> h.bookings[i].id < h.nextId)
    && (forall i :: 0 <= i < |h.bookings| && h.bookings[i].cartId.Some? ==>
          h.bookings[i].cartId.value < h.nextId)
    && (forall i :: 0 <= i < |h.serviceBookings| ==> h.serviceBookings[i].id < h.nextId)
    && (forall i :: 0 <= i < |h.serviceBookings| && h.serviceBookings[i].cartId.Some? ==>
          h.serviceBookings[i].cartId.value < h.nextId)
    && (forall i :: 0 <= i < |h.carts| ==> h.carts[i].id < h.nextId)
    && (forall i :: 0 <= i < |h.services| ==> h.services[i].id < h.nextId)
    && (forall i :: 0 <= i < |h.types| ==> h.types[i].id < h.nextId)
  }

  /** The cart with this id exists and is still "Actif". */
  predicate IsActiveCart(carts: seq<Cart>, id: int) {
    exists j :: 0 <= j < |carts| && carts[j].id == id && carts[j].status == Actif
  }

  /** No cancelled room stay sits in an active cart (checkout revives them). */
  predicate ActiveCartLinesLive(h: Hotel) {
    forall i ::
      (0 <= i < |h.bookings| && h.bookings[i].cartId.Some?
       && IsActiveCart(h.carts, h.bookings[i].cartId.value))
      ==> Live(h.bookings[i].status)
  }

  /** A client owns at most one "Actif" cart. */
  predicate OneActiveCartPerClient(carts: seq<Cart>) {
    forall i, j :: 0 <= i < j < |carts| && carts[i].clientId == carts[j].clientId
      ==> carts[i].status != Actif || carts[j].status != Actif
  }

  /** The invariant every booking path preserves. */
  predicate Valid(h: Hotel) {
    && RoomIdsDistinct(h.rooms)
    && NoDoubleBooking(h.bookings)
    && Fresh(h)
    && ActiveCartLinesLive(h)
    && OneActiveCartPerClient(h.carts)
  }

  /** Rewriting statuses without changing which stays are live, nor their
      rooms and dates, keeps the no-double-booking invariant. */
  lemma LiveStatusesKeepNoDoubleBooking(a: seq<RoomReservation>, b: seq<RoomReservation>)
    requires NoDoubleBooking(a) && |a| == |b|
    requires forall i :: 0 <= i < |a| ==>
      b[i].roomId == a[i].roomId && b[i].start == a[i].start && b[i].end == a[i].end
      && (Live(b[i].status) ==> Live(a[i].status))
    ensures NoDoubleBooking(b)
  {
    forall i, j | 0 <= i < |b| && 0 <= j < |b| && i != j
      && b[i].roomId == b[j].roomId && Live(b[i].status) && Live(b[j].status)
      ensures !Overlaps(b[i], b[j].start, b[j].end)
    {
      assert !Overlaps(a[i], a[j].start, a[j].end);
    }
  }

  // ----- Cart contents -------------------------------------------------------

  /** Sum of `PrixTotal` over the room stays linked to the cart. */
  function RoomLinesTotal(rs: seq<RoomReservation>, cartId: int): int {
    if |rs| == 0 then 0
    else
      var last := rs[|rs| - 1];
      RoomLinesTotal(rs[..|rs| - 1], cartId) + (if last.cartId == Some(cartId) then last.price else 0)
  }

  /** Sum of `Prix ?? 0` over the service bookings linked to the cart. */
  function ServiceLinesTotal(ss: seq<ServiceReservation>, cartId: int): int {
    if |ss| == 0 then 0
    else
      var last := ss[|ss| - 1];
      ServiceLinesTotal(ss[..|ss| - 1], cartId) + (if last.cartId == Some(cartId) then last.price.GetOr(0) else 0)
  }

  /** What the cart's total should be: the sum of its line items' prices. */
  function LinesTotal(h: Hotel, cartId: int): int {
    RoomLinesTotal(h.bookings, cartId) + ServiceLinesTotal(h.serviceBookings, cartId)
  }

  /** The cart carries at least one room or service line, whatever its status. */
  predicate HasLines(h: Hotel, cartId: int) {
    (exists i :: 0 <= i < |h.bookings| && h.bookings[i].cartId == Some(cartId))
    || (exists i :: 0 <= i < |h.serviceBookings| && h.serviceBookings[i].cartId == Some(cartId))
  }

  lemma {:induction false} RoomLinesTotalAppend(a: seq<RoomReservation>, b: seq<RoomReservation>, cartId: int)
    ensures RoomLinesTotal(a + b, cartId) == RoomLinesTotal(a, cartId) + RoomLinesTotal(b, cartId)
    decreases |b|
  {
    if |b| == 0 {
      assert a + b == a;
    } else {
      assert (a + b)[..|a + b| - 1] == a + b[..|b| - 1];
      RoomLinesTotalAppend(a, b[..|b| - 1], cartId);
    }
  }

  lemma {:induction false} ServiceLinesTotalAppend(a: seq<ServiceReservation>, b: seq<ServiceReservation>, cartId: int)
    ensures ServiceLinesTotal(a + b, cartId) == ServiceLinesTotal(a, cartId) + ServiceLinesTotal(b, cartId)
    decreases |b|
  {
    if |b| == 0 {
      assert a + b == a;
    } else {
      assert (a + b)[..|a + b| - 1] == a + b[..|b| - 1];
      ServiceLinesTotalAppend(a, b[..|b| - 1], cartId);
    }
  }

  /** A sequence with no line of the cart contributes nothing to its total. */
  lemma {:induction false} RoomLinesTotalNone(rs: seq<RoomReservation>, cartId: int)
    requires forall i :: 0 <= i < |rs| ==> rs[i].cartId != Some(cartId)
    ensures RoomLinesTotal(rs, cartId) == 0
  {
    if |rs| > 0 {
      RoomLinesTotalNone(rs[..|rs| - 1], cartId);
    }
  }

  lemma {:induction false} ServiceLinesTotalNone(ss: seq<ServiceReservation>, cartId: int)
    requires forall i :: 0 <= i < |ss| ==> ss[i].cartId != Some(cartId)
    ensures ServiceLinesTotal(ss, cartId) == 0
  {
    if |ss| > 0 {
      ServiceLinesTotalNone(ss[..|ss| - 1], cartId);
    }
  }

  /** Removing one line lowers the total of its cart by that line's price. */
  lemma RoomLinesTotalRemove(rs: seq<RoomReservation>, k: nat, cartId: int)
    requires k < |rs|
    ensures RoomLinesTotal(RemoveAt(rs, k), cartId)
      == RoomLinesTotal(rs, cartId) - (if rs[k].cartId == Some(cartId) then rs[k].price else 0)
  {
    assert rs == rs[..k] + [rs[k]] + rs[k + 1..];
    assert RemoveAt(rs, k) == rs[..k] + rs[k + 1..];
    RoomLinesTotalAppend(rs[..k] + [rs[k]], rs[k + 1..], cartId);
    RoomLinesTotalAppend(rs[..k], [rs[k]], cartId);
    RoomLinesTotalAppend(rs[..k], rs[k + 1..], cartId);
    assert RoomLinesTotal([rs[k]], cartId) == RoomLinesTotal([], cartId)
      + (if rs[k].cartId == Some(cartId) then rs[k].price else 0);
  }

  lemma ServiceLinesTotalRemove(ss: seq<ServiceReservation>, k: nat, cartId: int)
    requires k < |ss|
    ensures ServiceLinesTotal(RemoveAt(ss, k), cartId)
      == ServiceLinesTotal(ss, cartId) - (if ss[k].cartId == Some(cartId) then ss[k].price.GetOr(0) else 0)
  {
    assert ss == ss[..k] + [ss[k]] + ss[k + 1..];
    assert RemoveAt(ss, k) == ss[..k] + ss[k + 1..];
    ServiceLinesTotalAppend(ss[..k] + [ss[k]], ss[k + 1..], cartId);
    ServiceLinesTotalAppend(ss[..k], [ss[k]], cartId);
    ServiceLinesTotalAppend(ss[..k], ss[k + 1..], cartId);
    assert ServiceLinesTotal([ss[k]], cartId) == ServiceLinesTotal([], cartId)
      + (if ss[k].cartId == Some(cartId) then ss[k].price.GetOr(0) else 0);
  }

  // ----- Shared state updates ------------------------------------------------

  /** Sets `Etat` of every room whose id is in `ids`. */
  function SetRoomState(rooms: seq<Room>, ids: set<int>, state: RoomState): (r: seq<Room>)
    ensures |r| == |rooms|
    ensures forall i :: 0 <= i < |r| ==> r[i].id == rooms[i].id && r[i].typeId == rooms[i].typeId
    ensures forall i :: 0 <= i < |r| && rooms[i].id in ids ==> r[i].state == state
    ensures forall i :: 0 <= i < |r| && rooms[i].id !in ids ==> r[i] == rooms[i]
  {
    seq(|rooms|, i requires 0 <= i < |rooms| =>
      if rooms[i].id in ids then rooms[i].(state := state) else rooms[i])
  }

  /** The client's active cart, created empty (total 0) when there is none. */
  function GetOrCreateCart(h: Hotel, clientId: int): (r: (Hotel, nat))
    ensures r.1 < |r.0.carts|
    ensures r.0.carts[r.1].clientId == clientId && r.0.carts[r.1].status == Actif
    ensures ActiveCartIndex(r.0.carts, clientId) == Some(r.1)
    ensures ActiveCartIndex(h.carts, clientId).Some? ==> r.0 == h
    ensures ActiveCartIndex(h.carts, clientId).None? ==>
      && r.0 == h.(carts := h.carts + [Cart(h.nextId, clientId, Actif, 0)], nextId := h.nextId + 1)
      && r.1 == |h.carts|
  {
    match ActiveCartIndex(h.carts, clientId)
    case Some(i) => (h, i)
    case None =>
      var carts := h.carts + [Cart(h.nextId, clientId, Actif, 0)];
      assert forall j :: 0 <= j < |h.carts| ==> carts[j] == h.carts[j];
      (h.(carts := carts, nextId := h.nextId + 1), |h.carts|)
  }
}

=== FILE: ordering.dfy ===
/** `OrderByDescending(key)`: an insertion sort on sequences, proved to
    return a permutation of its input in descending key order that keeps
    elements with equal keys in their input order. */
module Ordering {
  import opened Common

  predicate SortedDesc<T>(s: seq<T>, key: T -> int) {
    forall i, j :: 0 <= i < j < |s| ==> key(s[i]) >= key(s[j])
  }

  /** Inserts `x` before the first element whose key is not greater. */
  function InsertDesc<T>(x: T, s: seq<T>, key: T -> int): (r: seq<T>)
    requires SortedDesc(s, key)
    ensures SortedDesc(r, key)
    ensures multiset(r) == multiset(s) + multiset{x}
    ensures |r| == |s| + 1
    ensures r[0] == x || (|s| > 0 && r[0] == s[0])
  {
    if |s| == 0 then [x]
    else if key(x) >= key(s[0]) then [x] + s
    else
      var rest := InsertDesc(x, s[1..], key);
      assert s == [s[0]] + s[1..];
      assert key(rest[0]) <= key(s[0]);
      [s[0]] + rest
  }

  /** The elements of `s`, reordered so that keys never increase. */
  function SortDesc<T>(s: seq<T>, key: T -> int): (r: seq<T>)
    ensures SortedDesc(r, key)
    ensures multiset(r) == multiset(s)
    ensures |r| == |s|
  {
    if |s| == 0 then []
    else
      assert s == [s[0]] + s[1..];
      InsertDesc(s[0], SortDesc(s[1..], key), key)
  }

  /** Sorting keeps exactly the elements it was given. */
  lemma SortDescMembers<T>(s: seq<T>, key: T -> int)
    ensures forall i :: 0 <= i < |s| ==> s[i] in SortDesc(s, key)
    ensures forall i :: 0 <= i < |SortDesc(s, key)| ==> SortDesc(s, key)[i] in s
  {
    var r := SortDesc(s, key);
    forall i | 0 <= i < |s| ensures s[i] in r {
      assert s[i] in multiset(s);
    }
    forall i | 0 <= i < |r| ensures r[i] in s {
      assert r[i] in multiset(r);
    }
  }

  /** The elements of `s` whose key is `k`, in order. */
  function WithKey<T>(s: seq<T>, key: T -> int, k: int): seq<T> {
    if |s| == 0 then []
    else if key(s[0]) == k then [s[0]] + WithKey(s[1..], key, k)
    else WithKey(s[1..], key, k)
  }

  /** `WithKey` is `Where(x => key(x) == k)`. */
  lemma {:induction false} WithKeyIsFilter<T>(s: seq<T>, key: T -> int, k: int)
    ensures WithKey(s, key, k) == Filter(s, (y: T) => key(y) == k)
  {
    if |s| > 0 {
      WithKeyIsFilter(s[1..], key, k);
    }
  }

  /** Inserting `x` into a sorted sequence leaves the elements of every other
      key in place and puts `x` first among the elements of its own key. */
  lemma {:induction false} InsertDescByKey<T>(x: T, s: seq<T>, key: T -> int, k: int)
    requires SortedDesc(s, key)
    ensures WithKey(InsertDesc(x, s, key), key, k)
         == if key(x) == k then [x] + WithKey(s, key, k) else WithKey(s, key, k)
  {
    if |s| == 0 || key(x) >= key(s[0]) {
      assert InsertDesc(x, s, key) == [x] + s;
      assert ([x] + s)[1..] == s;
    } else {
      var rest := InsertDesc(x, s[1..], key);
      assert InsertDesc(x, s, key) == [s[0]] + rest;
      assert ([s[0]] + rest)[1..] == rest;
      InsertDescByKey(x, s[1..], key, k);
    }
  }

  /** The sort is stable, as `OrderByDescending` is: the elements sharing a
      key keep their input order. */
  lemma {:induction false} SortDescStable<T>(s: seq<T>, key: T -> int, k: int)
    ensures Filter(SortDesc(s, key), (x: T) => key(x) == k) == Filter(s, (x: T) => key(x) == k)
  {
    SortDescStableByKey(s, key, k);
    WithKeyIsFilter(s, key, k);
    WithKeyIsFilter(SortDesc(s, key), key, k);
  }

  /** Stability for any predicate that picks out exactly the elements of one
      key. */
  lemma SortDescStableBy<T>(s: seq<T>, key: T -> int, k: int, p: T -> bool)
    requires forall x :: p(x) == (key(x) == k)
    ensures Filter(SortDesc(s, key), p) == Filter(s, p)
  {
    SortDescStable(s, key, k);
    FilterSamePredicate(s, (x: T) => key(x) == k, p);
    FilterSamePredicate(SortDesc(s, key), (x: T) => key(x) == k, p);
  }

  /** Stability stated with `WithKey`, by induction over the insertions. */
  lemma {:induction false} SortDescStableByKey<T>(s: seq<T>, key: T -> int, k: int)
    ensures WithKey(SortDesc(s, key), key, k) == WithKey(s, key, k)
  {
    if |s| > 0 {
      SortDescStableByKey(s[1..], key, k);
      InsertDescByKey(s[0], SortDesc(s[1..], key), key, k);
    }
  }
}

=== FILE: paniers.dfy ===
/** The client's cart (`Panier`): reading it with the total recomputed,
    adding a room stay, removing room and service lines, settling it with
    loyalty points, and the checks made before handing it to the payment
    provider. */
module Paniers {
  import opened Common
  import opened Hotel
  import opened Availability

  // ----- GetActivePanier -----------------------------------------------------

  /** `GET /paniers/active`: the caller's "Actif" cart with its cached total
      replaced by the sum of its lines, or nothing when there is none. */
  function GetActivePanier(h: Hotel, userId: string): (s: Step<Option<Cart>>)
    ensures ClientIndex(h.clients, userId).None? ==> s == Step(h, Err(ClientNotFound))
    ensures s.result.Err? ==> s.next == h
    ensures ClientIndex(h.clients, userId).Some? ==>
      var k := ActiveCartIndex(h.carts, h.clients[ClientIndex(h.clients, userId).value].id);
      && (k.None? ==> s == Step(h, Ok(None)))
      && (k.Some? ==> s.result.Ok? && s.result.value.Some?)
    ensures s.result.Ok? && s.result.value.Some? ==>
      var c := s.result.value.value;
      var k := ActiveCartIndex(h.carts, h.clients[ClientIndex(h.clients, userId).value].id).value;
      && c.total == LinesTotal(s.next, c.id)
      && c == h.carts[k].(total := c.total)
      && s.next.carts == h.carts[k := c]
      && s.next == h.(carts := s.next.carts)
  {
    match ClientIndex(h.clients, userId)
    case None => Step(h, Err(ClientNotFound))
    case Some(ci) =>
      match ActiveCartIndex(h.carts, h.clients[ci].id)
      case None => Step(h, Ok(None))
      case Some(k) =>
        var c := h.carts[k].(total := LinesTotal(h, h.carts[k].id));
        Step(h.(carts := h.carts[k := c]), Ok(Some(c)))
  }

  /** Reading the cart is idempotent: a second read changes nothing more and
      returns the same cart. */
  lemma GetActivePanierIdempotent(h: Hotel, userId: string)
    ensures var s1 := GetActivePanier(h, userId);
      var s2 := GetActivePanier(s1.next, userId);
      s2.next == s1.next && s2.result == s1.result
  {
    var s1 := GetActivePanier(h, userId);
    if s1.result.Ok? && s1.result.value.Some? {
      var ci := ClientIndex(h.clients, userId).value;
      var k := ActiveCartIndex(h.carts, h.clients[ci].id).value;
      assert s1.next.clients == h.clients;
      assert forall j :: 0 <= j < |h.carts| ==>
        s1.next.carts[j].clientId == h.carts[j].clientId && s1.next.carts[j].status == h.carts[j].status;
      var pred := (c: Cart) => c.clientId == h.clients[ci].id && c.status == Actif;
      assert forall j :: 0 <= j < |h.carts| ==> pred(s1.next.carts[j]) == pred(h.carts[j]);
      assert ActiveCartIndex(s1.next.carts, h.clients[ci].id) == Some(k);
    }
  }

  // ----- AddToPanier ---------------------------------------------------------

  /** The booking half of `POST /paniers/add`: puts the first free room of
      the category in the cart at index `k`, priced `Tarif * days`, and raises
      that cart's total by the price. The dates are not checked. */
  function AddLine(h: Hotel, k: nat, cid: int, typeId: int, start: int, end: int): (s: Step<RoomReservation>)
    requires k < |h.carts|
    ensures s.result.Err? ==> s.next == h && (s.result.error == NoAvailability || s.result.error == UnknownRoomType)
    ensures s.result == Err(NoAvailability) <==> |FreeRooms(h, typeId, start, end)| == 0
    ensures s.result == Err(UnknownRoomType) <==> |FreeRooms(h, typeId, start, end)| > 0 && RateOf(h, typeId).None?
    ensures s.result.Ok? ==>
      var r := s.result.value;
      && r.id == h.nextId && r.status == Panier && r.cartId == Some(h.carts[k].id) && r.clientId == Some(cid)
      && r.start == start && r.end == end && r.guestName == None
      && RateOf(h, typeId).Some? && r.price == RoomPrice(RateOf(h, typeId).value, start, end)
      && r.roomId == FreeRooms(h, typeId, start, end)[0].id
      && s.next == h.(bookings := h.bookings + [r], nextId := h.nextId + 1,
                      carts := h.carts[k := h.carts[k].(total := h.carts[k].total + r.price)])
  {
    var b := Book(h, typeId, start, end, Panier, Some(cid), None, Some(h.carts[k].id), false);
    if b.result.Err? then b
    else
      var r := b.result.value;
      Step(b.next.(carts := h.carts[k := h.carts[k].(total := h.carts[k].total + r.price)]), b.result)
  }

  /** `POST /paniers/add`: the caller must have a client profile; their
      active cart is fetched or created (and stays created even when no room
      is free), then the line is added to it. Availability is judged on the
      state before the cart was created, which a new cart does not change. */
  function AddToPanier(h: Hotel, userId: string, typeId: int, start: int, end: int): (s: Step<RoomReservation>)
    ensures ClientIndex(h.clients, userId).None? ==> s == Step(h, Err(ClientNotFound))
    ensures ClientIndex(h.clients, userId).Some? ==>
      var cid := h.clients[ClientIndex(h.clients, userId).value].id;
      var hk := GetOrCreateCart(h, cid);
      && ActiveCartIndex(hk.0.carts, cid) == Some(hk.1)
      && s == AddLine(hk.0, hk.1, cid, typeId, start, end)
      && FreeRooms(hk.0, typeId, start, end) == FreeRooms(h, typeId, start, end)
      && RateOf(hk.0, typeId) == RateOf(h, typeId)
  {
    match ClientIndex(h.clients, userId)
    case None => Step(h, Err(ClientNotFound))
    case Some(ci) =>
      var cid := h.clients[ci].id;
      var hk := GetOrCreateCart(h, cid);
      assert hk.0.rooms == h.rooms && hk.0.bookings == h.bookings && hk.0.types == h.types;
      AddLine(hk.0, hk.1, cid, typeId, start, end)
  }

  /** A cart whose cached total equals the sum of its lines. */
  predicate Consistent(h: Hotel, k: nat)
    requires k < |h.carts|
  {
    h.carts[k].total == LinesTotal(h, h.carts[k].id)
  }

  /** Adding a line to a consistent active cart keeps it consistent and keeps
      it the client's active cart. */
  lemma AddLineKeepsTotal(h: Hotel, k: nat, cid: int, typeId: int, start: int, end: int)
    requires k < |h.carts| && ActiveCartIndex(h.carts, cid) == Some(k) && Consistent(h, k)
    ensures var s := AddLine(h, k, cid, typeId, start, end);
      s.result.Ok? ==> ActiveCartIndex(s.next.carts, cid) == Some(k) && Consistent(s.next, k)
  {
    var s := AddLine(h, k, cid, typeId, start, end);
    if s.result.Ok? {
      var r := s.result.value;
      var id := h.carts[k].id;
      RoomLinesTotalAppend(h.bookings, [r], id);
      assert RoomLinesTotal([r], id) == RoomLinesTotal([], id) + r.price;
      var pred := (c: Cart) => c.clientId == cid && c.status == Actif;
      assert forall j :: 0 <= j < |h.carts| ==> pred(s.next.carts[j]) == pred(h.carts[j]);
    }
  }

  /** Adding a room keeps the cart's cached total equal to the sum of its
      lines, both for an existing consistent cart and for a freshly created one. */
  lemma AddToPanierKeepsTotal(h: Hotel, userId: string, typeId: int, start: int, end: int)
    requires Valid(h)
    requires ClientIndex(h.clients, userId).Some?
    requires var cid := h.clients[ClientIndex(h.clients, userId).value].id;
      var k := ActiveCartIndex(h.carts, cid);
      k.Some? ==> Consistent(h, k.value)
    ensures var s := AddToPanier(h, userId, typeId, start, end);
      var k := ActiveCartIndex(s.next.carts, h.clients[ClientIndex(h.clients, userId).value].id);
      s.result.Ok? ==> k.Some? && Consistent(s.next, k.value)
  {
    var cid := h.clients[ClientIndex(h.clients, userId).value].id;
    var hk := GetOrCreateCart(h, cid);
    var h1, k := hk.0, hk.1;
    if ActiveCartIndex(h.carts, cid).None? {
      RoomLinesTotalNone(h.bookings, h.nextId);
      ServiceLinesTotalNone(h.serviceBookings, h.nextId);
    }
    assert Consistent(h1, k);
    AddLineKeepsTotal(h1, k, cid, typeId, start, end);
  }

  // ----- RemoveItem / RemoveServiceItem -------------------------------------

  /** The line's cart exists and is "Actif" (`r.Panier.Statut == "Actif"`). */
  predicate InActiveCart(carts: seq<Cart>, cartId: Option<int>) {
    cartId.Some? && CartIndex(carts, cartId.value).Some?
    && carts[CartIndex(carts, cartId.value).value].status == Actif
  }

  /** The first stay with that id that belongs to the client and sits in an
      active cart. */
  function OwnRoomLine(h: Hotel, cid: int, id: int): Option<nat> {
    FirstIndex(h.bookings, (b: RoomReservation) => b.id == id && b.clientId == Some(cid) && InActiveCart(h.carts, b.cartId))
  }

  /** The first service line with that id that belongs to the client and sits
      in an active cart. */
  function OwnServiceLine(h: Hotel, cid: int, id: int): Option<nat> {
    FirstIndex(h.serviceBookings, (b: ServiceReservation) =>
      b.id == id && b.clientId == Some(cid) && InActiveCart(h.carts, b.cartId))
  }

  /** `DELETE /paniers/remove/{id}`: deletes the caller's room line from its
      active cart and lowers that cart's total by the line's price, never
      below zero. */
  function RemoveItem(h: Hotel, userId: string, id: int): (s: Step<int>)
    ensures ClientIndex(h.clients, userId).None? ==> s == Step(h, Err(ClientNotFound))
    ensures s.result.Err? ==> s.next == h && s.result.error in {ClientNotFound, ItemNotFound}
    ensures s.result == Err(ClientNotFound) ==> ClientIndex(h.clients, userId).None?
    ensures ClientIndex(h.clients, userId).Some? ==>
      var cid := h.clients[ClientIndex(h.clients, userId).value].id;
      var line := OwnRoomLine(h, cid, id);
      && (s.result == Err(ItemNotFound) <==>
            forall i :: 0 <= i < |h.bookings| ==>
              !(h.bookings[i].id == id && h.bookings[i].clientId == Some(cid)
                && InActiveCart(h.carts, h.bookings[i].cartId)))
      && (s.result.Ok? ==>
            && line.Some? && line.value < |h.bookings|
            && var i := line.value;
               && h.bookings[i].id == id && h.bookings[i].clientId == Some(cid)
               && InActiveCart(h.carts, h.bookings[i].cartId)
               && var j := CartIndex(h.carts, h.bookings[i].cartId.value).value;
                  && s.result.value == Max(0, h.carts[j].total - h.bookings[i].price)
                  && s.next.carts == h.carts[j := h.carts[j].(total := s.result.value)]
                  && s.next.bookings == RemoveAt(h.bookings, i)
                  && s.next == h.(carts := s.next.carts, bookings := s.next.bookings))
  {
    match ClientIndex(h.clients, userId)
    case None => Step(h, Err(ClientNotFound))
    case Some(ci) =>
      match OwnRoomLine(h, h.clients[ci].id, id)
      case None => Step(h, Err(ItemNotFound))
      case Some(i) =>
        var b := h.bookings[i];
        var j := CartIndex(h.carts, b.cartId.value).value;
        var total := Max(0, h.carts[j].total - b.price);
        Step(h.(carts := h.carts[j := h.carts[j].(total := total)], bookings := RemoveAt(h.bookings, i)), Ok(total))
  }

  /** `DELETE /paniers/remove-service/{id}`: the same for a service line, whose
      missing price counts as zero. */
  function RemoveServiceItem(h: Hotel, userId: string, id: int): (s: Step<int>)
    ensures ClientIndex(h.clients, userId).None? ==> s == Step(h, Err(ClientNotFound))
    ensures s.result.Err? ==> s.next == h && s.result.error in {ClientNotFound, ItemNotFound}
    ensures s.result == Err(ClientNotFound) ==> ClientIndex(h.clients, userId).None?
    ensures ClientIndex(h.clients, userId).Some? ==>
      var cid := h.clients[ClientIndex(h.clients, userId).value].id;
      var line := OwnServiceLine(h, cid, id);
      && (s.result == Err(ItemNotFound) <==>
            forall i :: 0 <= i < |h.serviceBookings| ==>
              !(h.serviceBookings[i].id == id && h.serviceBookings[i].clientId == Some(cid)
                && InActiveCart(h.carts, h.serviceBookings[i].cartId)))
      && (s.result.Ok? ==>
            && line.Some? && line.value < |h.serviceBookings|
            && var i := line.value;
               && h.serviceBookings[i].id == id && h.serviceBookings[i].clientId == Some(cid)
               && InActiveCart(h.carts, h.serviceBookings[i].cartId)
               && var j := CartIndex(h.carts, h.serviceBookings[i].cartId.value).value;
                  && s.result.value == Max(0, h.carts[j].total - h.serviceBookings[i].price.GetOr(0))
                  && s.next.carts == h.carts[j := h.carts[j].(total := s.result.value)]
                  && s.next.serviceBookings == RemoveAt(h.serviceBookings, i)
                  && s.next == h.(carts := s.next.carts, serviceBookings := s.next.serviceBookings))
  {
    match ClientIndex(h.clients, userId)
    case None => Step(h, Err(ClientNotFound))
    case Some(ci) =>
      match OwnServiceLine(h, h.clients[ci].id, id)
      case None => Step(h, Err(ItemNotFound))
      case Some(i) =>
        var b := h.serviceBookings[i];
        var j := CartIndex(h.carts, b.cartId.value).value;
        var total := Max(0, h.carts[j].total - b.price.GetOr(0));
        Step(h.(carts := h.carts[j := h.carts[j].(total := total)],
                serviceBookings := RemoveAt(h.serviceBookings, i)), Ok(total))
  }

  /** Removing a room line keeps its cart consistent as long as the floor at
      zero does not apply. */
  lemma RemoveItemKeepsTotal(h: Hotel, userId: string, id: int)
    requires forall i :: 0 <= i < |h.bookings| && h.bookings[i].id == id && InActiveCart(h.carts, h.bookings[i].cartId) ==>
      var j := CartIndex(h.carts, h.bookings[i].cartId.value).value;
      Consistent(h, j) && h.carts[j].total >= h.bookings[i].price
    ensures var s := RemoveItem(h, userId, id);
      s.result.Ok? ==>
        exists j :: 0 <= j < |s.next.carts| && Consistent(s.next, j) && s.next.carts[j].total == s.result.value
  {
    var s := RemoveItem(h, userId, id);
    if s.result.Ok? {
      var cid := h.clients[ClientIndex(h.clients, userId).value].id;
      var i := OwnRoomLine(h, cid, id).value;
      var j := CartIndex(h.carts, h.bookings[i].cartId.value).value;
      RemoveLineKeepsConsistent(h, s.next, i, j);
    }
  }

  /** Deleting a stay of cart `j` and lowering that cart's total by its price,
      with the floor at zero not reached, keeps the cart consistent. */
  lemma RemoveLineKeepsConsistent(h: Hotel, next: Hotel, i: nat, j: nat)
    requires i < |h.bookings| && j < |h.carts| && h.bookings[i].cartId == Some(h.carts[j].id)
    requires Consistent(h, j) && h.carts[j].total >= h.bookings[i].price
    requires next.carts == h.carts[j := h.carts[j].(total := Max(0, h.carts[j].total - h.bookings[i].price))]
    requires next.bookings == RemoveAt(h.bookings, i) && next.serviceBookings == h.serviceBookings
    ensures Consistent(next, j) && next.carts[j].total == h.carts[j].total - h.bookings[i].price
  {
    RoomLinesTotalRemove(h.bookings, i, h.carts[j].id);
  }

  // ----- Checkout ------------------------------------------------------------

  /** The cart's room lines set to "Confirmée"; other lines untouched. */
  function ConfirmRoomLines(rs: seq<RoomReservation>, cartId: int): (r: seq<RoomReservation>)
    ensures |r| == |rs|
    ensures forall i :: 0 <= i < |r| && rs[i].cartId == Some(cartId) ==> r[i] == rs[i].(status := Confirmee)
    ensures forall i :: 0 <= i < |r| && rs[i].cartId != Some(cartId) ==> r[i] == rs[i]
  {
    seq(|rs|, i requires 0 <= i < |rs| =>
      if rs[i].cartId == Some(cartId) then rs[i].(status := Confirmee) else rs[i])
  }

  function ConfirmServiceLines(ss: seq<ServiceReservation>, cartId: int): (r: seq<ServiceReservation>)
    ensures |r| == |ss|
    ensures forall i :: 0 <= i < |r| && ss[i].cartId == Some(cartId) ==> r[i] == ss[i].(status := Confirmee)
    ensures forall i :: 0 <= i < |r| && ss[i].cartId != Some(cartId) ==> r[i] == ss[i]
  {
    seq(|ss|, i requires 0 <= i < |ss| =>
      if ss[i].cartId == Some(cartId) then ss[i].(status := Confirmee) else ss[i])
  }

  /** The rooms booked by the cart's room lines. */
  function CartRoomIds(rs: seq<RoomReservation>, cartId: int): set<int> {
    set b | b in rs && b.cartId == Some(cartId) :: b.roomId
  }

  /** `Math.Max(0, Total - pointsUsed)`, in cents. */
  function AmountPaid(total: int, pointsUsed: int): int {
    Max(0, total - pointsUsed * CentsPerPoint)
  }

  /** `(int)(amountPaid / 20)`: one point per full 20 euros paid. */
  function PointsEarned(amountPaid: int): int
    requires amountPaid >= 0
  {
    amountPaid / CentsPerEarnedPoint
  }

  /** What the client is told after paying. */
  datatype Receipt = Receipt(pointsUsed: int, amountPaid: int, pointsEarned: int)

  /** Confirms every line of cart `k`, marks its rooms "Réservée", sets the
      client's balance and closes the cart. */
  function Settle(h: Hotel, ci: nat, k: nat, points: int): Hotel
    requires ci < |h.clients| && k < |h.carts|
  {
    var cart := h.carts[k];
    h.(clients := h.clients[ci := h.clients[ci].(points := points)],
       bookings := ConfirmRoomLines(h.bookings, cart.id),
       serviceBookings := ConfirmServiceLines(h.serviceBookings, cart.id),
       rooms := SetRoomState(h.rooms, CartRoomIds(h.bookings, cart.id), Reservee),
       carts := h.carts[k := cart.(status := Paye)])
  }

  /** Everything a successful settlement of cart `k` guarantees. */
  predicate Settled(h: Hotel, next: Hotel, ci: nat, k: nat, points: int)
    requires ci < |h.clients| && k < |h.carts|
  {
    var id := h.carts[k].id;
    && |next.clients| == |h.clients| && next.clients[ci].points == points
    && |next.carts| == |h.carts| && next.carts[k].status == Paye
    && |next.bookings| == |h.bookings| && |next.serviceBookings| == |h.serviceBookings|
    && |next.rooms| == |h.rooms|
    && (forall i :: 0 <= i < |h.bookings| && h.bookings[i].cartId == Some(id) ==>
          next.bookings[i] == h.bookings[i].(status := Confirmee))
    && (forall i :: 0 <= i < |h.bookings| && h.bookings[i].cartId != Some(id) ==>
          next.bookings[i] == h.bookings[i])
    && (forall i :: 0 <= i < |h.serviceBookings| && h.serviceBookings[i].cartId == Some(id) ==>
          next.serviceBookings[i] == h.serviceBookings[i].(status := Confirmee))
    && (forall i, j ::
          0 <= i < |h.bookings| && h.bookings[i].cartId == Some(id) && 0 <= j < |h.rooms| && h.rooms[j].id == h.bookings[i].roomId
          ==> next.rooms[j].state == Reservee)
  }

  lemma SettleSettles(h: Hotel, ci: nat, k: nat, points: int)
    requires ci < |h.clients| && k < |h.carts|
    ensures Settled(h, Settle(h, ci, k, points), ci, k, points)
  {
    var id := h.carts[k].id;
    var next := Settle(h, ci, k, points);
    forall i, j | 0 <= i < |h.bookings| && h.bookings[i].cartId == Some(id)
      && 0 <= j < |h.rooms| && h.rooms[j].id == h.bookings[i].roomId
      ensures next.rooms[j].state == Reservee
    {
      assert h.bookings[i] in h.bookings;
      assert h.rooms[j].id in CartRoomIds(h.bookings, id);
    }
  }

  /** `POST /paniers/checkout?pointsUsed=N`, as written: rejects a missing or
      empty cart and a positive `pointsUsed` above the balance; otherwise
      deducts positive points, confirms every line, marks the rooms,
      credits one point per 20 euros of `max(0, Total - pointsUsed)` computed
      from the cached total, and closes the cart. */
  function Checkout(h: Hotel, userId: string, pointsUsed: int): (s: Step<Receipt>)
    ensures ClientIndex(h.clients, userId).None? ==> s == Step(h, Err(ClientNotFound))
    ensures s.result.Err? ==> s.next == h && s.result.error in {ClientNotFound, EmptyCart, InsufficientPoints}
    ensures s.result == Err(ClientNotFound) ==> ClientIndex(h.clients, userId).None?
    ensures ClientIndex(h.clients, userId).Some? ==>
      var ci := ClientIndex(h.clients, userId).value;
      var c := h.clients[ci];
      var k := ActiveCartIndex(h.carts, c.id);
      && (s.result == Err(EmptyCart) <==> k.None? || !HasLines(h, h.carts[k.value].id))
      && (s.result == Err(InsufficientPoints) <==>
            k.Some? && HasLines(h, h.carts[k.value].id) && pointsUsed > 0 && c.points < pointsUsed)
      && (s.result.Ok? ==>
            var paid := AmountPaid(h.carts[k.value].total, pointsUsed);
            var earned := PointsEarned(paid);
            var spent := if pointsUsed > 0 then pointsUsed else 0;
            && s.result.value == Receipt(pointsUsed, paid, earned)
            && s.next == Settle(h, ci, k.value, c.points - spent + earned))
  {
    match ClientIndex(h.clients, userId)
    case None => Step(h, Err(ClientNotFound))
    case Some(ci) =>
      var c := h.clients[ci];
      match ActiveCartIndex(h.carts, c.id)
      case None => Step(h, Err(EmptyCart))
      case Some(k) =>
        if !HasLines(h, h.carts[k].id) then Step(h, Err(EmptyCart))
        else if pointsUsed > 0 && c.points < pointsUsed then Step(h, Err(InsufficientPoints))
        else
          var afterSpend := if pointsUsed > 0 then c.points - pointsUsed else c.points;
          var paid := AmountPaid(h.carts[k].total, pointsUsed);
          var earned := PointsEarned(paid);
          Step(Settle(h, ci, k, afterSpend + earned), Ok(Receipt(pointsUsed, paid, earned)))
  }

  /** The loyalty ledger after checkout: the balance moves by exactly the
      points earned minus the points spent, and stays non-negative whenever
      the client spends between zero and their whole balance. */
  lemma CheckoutBalance(h: Hotel, userId: string, pointsUsed: int)
    requires Checkout(h, userId, pointsUsed).result.Ok?
    ensures var s := Checkout(h, userId, pointsUsed);
      var ci := ClientIndex(h.clients, userId).value;
      var old_ := h.clients[ci].points;
      var new_ := s.next.clients[ci].points;
      && new_ - old_ == s.result.value.pointsEarned - (if pointsUsed > 0 then pointsUsed else 0)
      && s.result.value.pointsEarned >= 0
      && s.result.value.pointsEarned * CentsPerEarnedPoint <= s.result.value.amountPaid
      && (0 <= pointsUsed <= old_ ==> new_ >= 0)
  {
  }

  // ----- CreateCheckoutSession -----------------------------------------------

  /** The prices of the cart's room lines, in table order. */
  function RoomAmounts(rs: seq<RoomReservation>, cartId: int): seq<int> {
    if |rs| == 0 then []
    else
      var last := rs[|rs| - 1];
      RoomAmounts(rs[..|rs| - 1], cartId) + (if last.cartId == Some(cartId) then [last.price] else [])
  }

  function ServiceAmounts(ss: seq<ServiceReservation>, cartId: int): seq<int> {
    if |ss| == 0 then []
    else
      var last := ss[|ss| - 1];
      ServiceAmounts(ss[..|ss| - 1], cartId) + (if last.cartId == Some(cartId) then [last.price.GetOr(0)] else [])
  }

  function Sum(xs: seq<int>): int {
    if |xs| == 0 then 0 else Sum(xs[..|xs| - 1]) + xs[|xs| - 1]
  }

  lemma {:induction false} SumAppend(a: seq<int>, b: seq<int>)
    ensures Sum(a + b) == Sum(a) + Sum(b)
    decreases |b|
  {
    if |b| == 0 {
      assert a + b == a;
    } else {
      assert (a + b)[..|a + b| - 1] == a + b[..|b| - 1];
      SumAppend(a, b[..|b| - 1]);
    }
  }

  lemma {:induction false} RoomAmountsSum(rs: seq<RoomReservation>, cartId: int)
    ensures Sum(RoomAmounts(rs, cartId)) == RoomLinesTotal(rs, cartId)
  {
    if |rs| > 0 {
      var last := rs[|rs| - 1];
      RoomAmountsSum(rs[..|rs| - 1], cartId);
      SumAppend(RoomAmounts(rs[..|rs| - 1], cartId), if last.cartId == Some(cartId) then [last.price] else []);
      assert Sum([last.price]) == Sum([]) + last.price;
    }
  }

  lemma {:induction false} ServiceAmountsSum(ss: seq<ServiceReservation>, cartId: int)
    ensures Sum(ServiceAmounts(ss, cartId)) == ServiceLinesTotal(ss, cartId)
  {
    if |ss| > 0 {
      var last := ss[|ss| - 1];
      ServiceAmountsSum(ss[..|ss| - 1], cartId);
      SumAppend(ServiceAmounts(ss[..|ss| - 1], cartId),
                if last.cartId == Some(cartId) then [last.price.GetOr(0)] else []);
      assert Sum([last.price.GetOr(0)]) == Sum([]) + last.price.GetOr(0);
    }
  }

  /** The line items and discount handed to the payment provider, in cents. */
  datatype Manifest = Manifest(lineAmounts: seq<int>, discount: int)

  /** `POST /paniers/create-checkout-session`, up to the provider call:
      rejects negative points, points above the balance, an empty cart, and
      points worth more than the freshly recomputed total. Nothing changes. */
  function CheckoutSession(h: Hotel, userId: string, pointsUsed: int): (r: Result<Manifest>)
    ensures ClientIndex(h.clients, userId).None? <==> r == Err(ClientNotFound)
    ensures r.Err? ==> r.error in {ClientNotFound, InvalidPoints, InsufficientPoints, EmptyCart, PointsExceedTotal}
    ensures ClientIndex(h.clients, userId).Some? ==>
      var c := h.clients[ClientIndex(h.clients, userId).value];
      var k := ActiveCartIndex(h.carts, c.id);
      && (pointsUsed < 0 <==> r == Err(InvalidPoints))
      && (r == Err(InsufficientPoints) <==> 0 <= pointsUsed && c.points < pointsUsed)
      && (r == Err(EmptyCart) <==> 0 <= pointsUsed <= c.points && (k.None? || !HasLines(h, h.carts[k.value].id)))
      && (r == Err(PointsExceedTotal) <==>
            0 <= pointsUsed <= c.points && k.Some? && HasLines(h, h.carts[k.value].id)
            && pointsUsed * CentsPerPoint > LinesTotal(h, h.carts[k.value].id))
      && (r.Ok? ==>
            && 0 <= pointsUsed <= c.points
            && k.Some? && HasLines(h, h.carts[k.value].id)
            && Sum(r.value.lineAmounts) == LinesTotal(h, h.carts[k.value].id)
            && pointsUsed * CentsPerPoint <= Sum(r.value.lineAmounts)
            && r.value.discount == (if pointsUsed > 0 then pointsUsed * CentsPerPoint else 0))
  {
    match ClientIndex(h.clients, userId)
    case None => Err(ClientNotFound)
    case Some(ci) =>
      var c := h.clients[ci];
      if pointsUsed < 0 then Err(InvalidPoints)
      else if pointsUsed > c.points then Err(InsufficientPoints)
      else match ActiveCartIndex(h.carts, c.id)
        case None => Err(EmptyCart)
        case Some(k) =>
          var id := h.carts[k].id;
          if !HasLines(h, id) then Err(EmptyCart)
          else
            var amounts := RoomAmounts(h.bookings, id) + ServiceAmounts(h.serviceBookings, id);
            RoomAmountsSum(h.bookings, id);
            ServiceAmountsSum(h.serviceBookings, id);
            SumAppend(RoomAmounts(h.bookings, id), ServiceAmounts(h.serviceBookings, id));
            if pointsUsed * CentsPerPoint > Sum(amounts) then Err(PointsExceedTotal)
            else Ok(Manifest(amounts, if pointsUsed > 0 then pointsUsed * CentsPerPoint else 0))
  }

  // ----- Corrected checkout and add ------------------------------------------

  /** Checkout with the point checks the session endpoint makes: negative
      points, points above the balance and points worth more than the
      recomputed total are refused; the amount paid is the recomputed total
      less the points. */
  function CheckoutChecked(h: Hotel, userId: string, pointsUsed: int): (s: Step<Receipt>)
    ensures s.result.Ok? <==> CheckoutSession(h, userId, pointsUsed).Ok?
    ensures s.result.Err? ==> s.next == h && s.result.error == CheckoutSession(h, userId, pointsUsed).error
    ensures s.result.Ok? ==>
      var ci := ClientIndex(h.clients, userId).value;
      var c := h.clients[ci];
      var k := ActiveCartIndex(h.carts, c.id).value;
      var receipt := s.result.value;
      && 0 <= pointsUsed <= c.points
      && receipt.amountPaid == LinesTotal(h, h.carts[k].id) - pointsUsed * CentsPerPoint >= 0
      && 0 <= receipt.pointsEarned && receipt.pointsEarned * CentsPerEarnedPoint <= LinesTotal(h, h.carts[k].id)
      && s.next == Settle(h, ci, k, c.points - pointsUsed + receipt.pointsEarned)
      && s.next.clients[ci].points >= 0
  {
    match CheckoutSession(h, userId, pointsUsed)
    case Err(e) => Step(h, Err(e))
    case Ok(m) =>
      var ci := ClientIndex(h.clients, userId).value;
      var c := h.clients[ci];
      var k := ActiveCartIndex(h.carts, c.id).value;
      var paid := Sum(m.lineAmounts) - pointsUsed * CentsPerPoint;
      var earned := PointsEarned(paid);
      Step(Settle(h, ci, k, c.points - pointsUsed + earned), Ok(Receipt(pointsUsed, paid, earned)))
  }

  /** As written, a negative `pointsUsed` passes every check of `Checkout`:
      spending -20*m points on a cart of non-negative total reports 100*20*m
      more cents paid than the cart is worth and credits m points more than
      spending none would, while the corrected checkout refuses it. */
  lemma NegativePointsInflateEarnings(h: Hotel, userId: string, m: int)
    requires m > 0
    requires Checkout(h, userId, 0).result.Ok?
    requires h.carts[ActiveCartIndex(h.carts, h.clients[ClientIndex(h.clients, userId).value].id).value].total >= 0
    ensures var plain := Checkout(h, userId, 0);
      var cheat := Checkout(h, userId, -20 * m);
      var ci := ClientIndex(h.clients, userId).value;
      && cheat.result.Ok?
      && cheat.result.value.amountPaid == plain.result.value.amountPaid + 20 * m * CentsPerPoint
      && cheat.result.value.pointsEarned == plain.result.value.pointsEarned + m
      && cheat.next.clients[ci].points == plain.next.clients[ci].points + m
      && CheckoutChecked(h, userId, -20 * m).result == Err(InvalidPoints)
  {
    var ci := ClientIndex(h.clients, userId).value;
    var k := ActiveCartIndex(h.carts, h.clients[ci].id).value;
    var t := h.carts[k].total;
    assert AmountPaid(t, -20 * m) == t + 2000 * m;
    assert (t + 2000 * m) / 2000 == t / 2000 + m;
  }

  /** As written, `Checkout` accepts more points than the cart is worth: the
      amount paid floors at zero and the whole `pointsUsed` is still taken
      from the balance, so points beyond the total are lost. The corrected
      checkout refuses them, as the session endpoint does. */
  lemma PointsBeyondTotalAccepted(h: Hotel, userId: string, pointsUsed: int)
    requires ClientIndex(h.clients, userId).Some?
    requires var c := h.clients[ClientIndex(h.clients, userId).value];
      && ActiveCartIndex(h.carts, c.id).Some?
      && var k := ActiveCartIndex(h.carts, c.id).value;
      && HasLines(h, h.carts[k].id) && Consistent(h, k)
      && 0 < pointsUsed <= c.points && pointsUsed * CentsPerPoint > h.carts[k].total
    ensures var s := Checkout(h, userId, pointsUsed);
      var ci := ClientIndex(h.clients, userId).value;
      && s.result.Ok? && s.result.value.amountPaid == 0 && s.result.value.pointsEarned == 0
      && s.next.clients[ci].points == h.clients[ci].points - pointsUsed
      && CheckoutChecked(h, userId, pointsUsed).result == Err(PointsExceedTotal)
  {
    var c := h.clients[ClientIndex(h.clients, userId).value];
    var k := ActiveCartIndex(h.carts, c.id).value;
    var id := h.carts[k].id;
    RoomAmountsSum(h.bookings, id);
    ServiceAmountsSum(h.serviceBookings, id);
    SumAppend(RoomAmounts(h.bookings, id), ServiceAmounts(h.serviceBookings, id));
  }

  /** `AddToPanier` with the date order checked: a departure before the
      arrival is refused, so no line ever carries a negative night count. */
  function AddToPanierChecked(h: Hotel, userId: string, typeId: int, start: int, end: int): (s: Step<RoomReservation>)
    ensures end < start ==> s == Step(h, Err(InvalidDates))
    ensures s.result.Ok? ==>
      && start <= end && Nights(start, end) >= 1
      && RateOf(h, typeId).Some?
      && (RateOf(h, typeId).value >= 0 ==> s.result.value.price >= 0)
    ensures start <= end ==> s == AddToPanier(h, userId, typeId, start, end)
  {
    if end < start then Step(h, Err(InvalidDates))
    else AddToPanier(h, userId, typeId, start, end)
  }

  /** As written, reversed dates are accepted whenever a room of a priced
      category is free: the stay is priced at a negative number of nights, so
      the line lowers the cart total instead of raising it. */
  lemma ReversedDatesLowerTotal(h: Hotel, userId: string, typeId: int, start: int, end: int)
    requires end < start
    requires ClientIndex(h.clients, userId).Some?
    requires RateOf(h, typeId).Some? && RateOf(h, typeId).value > 0
    requires |FreeRooms(h, typeId, start, end)| > 0
    ensures var s := AddToPanier(h, userId, typeId, start, end);
      var cid := h.clients[ClientIndex(h.clients, userId).value].id;
      var hk := GetOrCreateCart(h, cid);
      && s.result.Ok?
      && s.result.value.price < 0
      && ActiveCartIndex(s.next.carts, cid) == Some(hk.1)
      && s.next.carts[hk.1].total < hk.0.carts[hk.1].total
      && AddToPanierChecked(h, userId, typeId, start, end).result == Err(InvalidDates)
  {
    var cid := h.clients[ClientIndex(h.clients, userId).value].id;
    var hk := GetOrCreateCart(h, cid);
    ReversedLineLowersTotal(hk.0, hk.1, cid, typeId, start, end);
  }

  /** The cart half of the reversed-dates case: a free room of a category with
      a positive rate is booked at a negative price into cart `k`, which stays
      the client's active cart. */
  lemma ReversedLineLowersTotal(h: Hotel, k: nat, cid: int, typeId: int, start: int, end: int)
    requires k < |h.carts| && ActiveCartIndex(h.carts, cid) == Some(k)
    requires end < start
    requires RateOf(h, typeId).Some? && RateOf(h, typeId).value > 0
    requires |FreeRooms(h, typeId, start, end)| > 0
    ensures var s := AddLine(h, k, cid, typeId, start, end);
      && s.result.Ok?
      && s.result.value.price < 0
      && ActiveCartIndex(s.next.carts, cid) == Some(k)
      && s.next.carts[k].total < h.carts[k].total
  {
    var s := AddLine(h, k, cid, typeId, start, end);
    assert s.result.Ok?;
    var pred := (c: Cart) => c.clientId == cid && c.status == Actif;
    assert forall j :: 0 <= j < |h.carts| ==> pred(s.next.carts[j]) == pred(h.carts[j]);
    assert s.result.value.price < 0 by {
      var rate := RateOf(h, typeId).value;
      assert s.result.value.price == RoomPrice(rate, start, end);
      assert Nights(start, end) == end - start;
      NegativeTimesPositive(rate, Nights(start, end));
    }
  }

  lemma NegativeTimesPositive(a: int, b: int)
    requires a > 0 && b < 0
    ensures a * b < 0
  {
  }
}

=== FILE: reservations.dfy ===
/** The room-reservation endpoints outside the cart: direct booking by a
    client, booking by staff, completion of a stay and the client's list. */
module Reservations {
  import opened Common
  import opened Hotel
  import opened Availability
  import Ordering

  /** `POST /reservations`: a client books the first free room of a category
      directly, bypassing the cart. */
  function CreateReservation(h: Hotel, userId: string, typeId: int, start: int, end: int): (s: Step<RoomReservation>)
    ensures s.result.Err? ==> s.next == h
    ensures s.result.Err? ==> s.result.error in {InvalidDates, ClientNotFound, NoAvailability, UnknownRoomType}
    ensures start >= end <==> s.result == Err(InvalidDates)
    ensures start < end && ClientIndex(h.clients, userId).None? <==> s.result == Err(ClientNotFound)
    ensures start < end && ClientIndex(h.clients, userId).Some? ==>
      && (s.result == Err(NoAvailability) <==> |FreeRooms(h, typeId, start, end)| == 0)
      && (s.result == Err(UnknownRoomType) <==> |FreeRooms(h, typeId, start, end)| > 0 && RateOf(h, typeId).None?)
    ensures s.result.Ok? ==>
      var r := s.result.value;
      && start < end
      && ClientIndex(h.clients, userId).Some?
      && r.clientId == Some(h.clients[ClientIndex(h.clients, userId).value].id)
      && r.status == Confirmee && r.cartId == None && r.guestName == None
      && r.start == start && r.end == end
      && RateOf(h, typeId).Some? && r.price == RateOf(h, typeId).value * (end - start)
      && r.roomId == FreeRooms(h, typeId, start, end)[0].id
      && r.id == h.nextId
      && s.next.bookings == h.bookings + [r]
      && |s.next.rooms| == |h.rooms|
      && (forall i :: 0 <= i < |h.rooms| && h.rooms[i].id == r.roomId ==> s.next.rooms[i].state == Reservee)
      && s.next.clients == h.clients && s.next.carts == h.carts
      && s.next == h.(bookings := h.bookings + [r], nextId := h.nextId + 1,
                      rooms := SetRoomState(h.rooms, {r.roomId}, Reservee))
  {
    if start >= end then Step(h, Err(InvalidDates))
    else match ClientIndex(h.clients, userId)
      case None => Step(h, Err(ClientNotFound))
      case Some(c) =>
        StayPrice(0, start, end);
        Book(h, typeId, start, end, Confirmee, Some(h.clients[c].id), None, None, true)
  }

  /** The caller may book rooms for guests: a staff profile that manages rooms
      or whose role ends with "/ADMIN". */
  predicate CanManageRooms(h: Hotel, userId: string) {
    match StaffIndex(h.staff, userId)
    case Some(i) => h.staff[i].roomManager || IsAdminRole(h.staff[i].role)
    case None => false
  }

  /** Who a staff booking is recorded for: the client id when given, otherwise
      the free-text name when it is non-empty, otherwise nobody. */
  function GuestFor(clientId: Option<int>, guestName: Option<string>): (r: Option<string>)
    ensures clientId.Some? ==> r == None
    ensures r.Some? ==> |r.value| > 0 && r == guestName
    ensures clientId.None? && guestName.Some? && |guestName.value| > 0 ==> r == guestName
  {
    if clientId.Some? then None
    else match guestName
      case Some(n) => if |n| > 0 then Some(n) else None
      case None => None
  }

  /** `POST /reservations/create-admin`: staff book a room for a registered
      client or a walk-in guest. A client id that names no stored client
      breaks the `ClientId` foreign key when the booking is saved, so nothing
      is stored and the call fails after the availability and price checks. */
  function CreateAdminReservation(h: Hotel, userId: string, typeId: int, start: int, end: int,
                                  clientId: Option<int>, guestName: Option<string>): (s: Step<RoomReservation>)
    ensures s.result.Err? ==> s.next == h
    ensures s.result.Err? ==> s.result.error in {InvalidDates, Forbidden, NoAvailability, UnknownRoomType, UnknownClient}
    ensures start >= end <==> s.result == Err(InvalidDates)
    ensures start < end && !CanManageRooms(h, userId) <==> s.result == Err(Forbidden)
    ensures start < end && CanManageRooms(h, userId) ==>
      && (s.result == Err(NoAvailability) <==> |FreeRooms(h, typeId, start, end)| == 0)
      && (s.result == Err(UnknownRoomType) <==> |FreeRooms(h, typeId, start, end)| > 0 && RateOf(h, typeId).None?)
      && (s.result == Err(UnknownClient) <==>
            |FreeRooms(h, typeId, start, end)| > 0 && RateOf(h, typeId).Some? && !KnownClient(h.clients, clientId))
    ensures s.result.Ok? ==>
      var r := s.result.value;
      && start < end && CanManageRooms(h, userId) && KnownClient(h.clients, clientId)
      && r.start == start && r.end == end
      && r.roomId == FreeRooms(h, typeId, start, end)[0].id
      && r.status == Confirmee && r.cartId == None
      && r.clientId == clientId
      && r.guestName == GuestFor(clientId, guestName)
      && RateOf(h, typeId).Some? && r.price == RateOf(h, typeId).value * (end - start)
      && r.id == h.nextId
      && s.next.bookings == h.bookings + [r]
      && |s.next.rooms| == |h.rooms|
      && (forall i :: 0 <= i < |h.rooms| && h.rooms[i].id == r.roomId ==> s.next.rooms[i].state == Reservee)
      && s.next.clients == h.clients && s.next.carts == h.carts
      && s.next == h.(bookings := h.bookings + [r], nextId := h.nextId + 1,
                      rooms := SetRoomState(h.rooms, {r.roomId}, Reservee))
  {
    if start >= end then Step(h, Err(InvalidDates))
    else if !CanManageRooms(h, userId) then Step(h, Err(Forbidden))
    else
      StayPrice(0, start, end);
      var s := Book(h, typeId, start, end, Confirmee, clientId, GuestFor(clientId, guestName), None, true);
      if s.result.Ok? && !KnownClient(h.clients, clientId) then Step(h, Err(UnknownClient)) else s
  }

  /** `POST /reservations/complete/{id}`: closes a stay and frees its room. */
  function CompleteReservation(h: Hotel, id: int): (s: Step<()>)
    ensures s.result.Err? ==> s.next == h
    ensures (forall i :: 0 <= i < |h.bookings| ==> h.bookings[i].id != id) <==> s.result == Err(NotFound)
    ensures s.result == Err(AlreadyCompleted) ==>
      exists i :: 0 <= i < |h.bookings| && h.bookings[i].id == id && h.bookings[i].status == Terminee
    ensures var k := FirstIndex(h.bookings, (b: RoomReservation) => b.id == id);
      k.Some? ==>
        && (s.result == Err(AlreadyCompleted) <==> h.bookings[k.value].status == Terminee)
        && (h.bookings[k.value].status != Terminee ==> s.result.Ok?)
    ensures s.result.Ok? ==>
      exists k :: 0 <= k < |h.bookings| && h.bookings[k].id == id && h.bookings[k].status != Terminee
        && s.next.bookings == h.bookings[k := h.bookings[k].(status := Terminee)]
        && s.next.rooms == SetRoomState(h.rooms, {h.bookings[k].roomId}, Disponible)
        && s.next == h.(bookings := s.next.bookings, rooms := s.next.rooms)
  {
    match FirstIndex(h.bookings, (b: RoomReservation) => b.id == id)
    case None => Step(h, Err(NotFound))
    case Some(k) =>
      var b := h.bookings[k];
      if b.status == Terminee then Step(h, Err(AlreadyCompleted))
      else
        Step(h.(bookings := h.bookings[k := b.(status := Terminee)],
                rooms := SetRoomState(h.rooms, {b.roomId}, Disponible)), Ok(()))
  }

  /** The client's "Confirmée" stays in table order. */
  function ConfirmedStaysOf(h: Hotel, cid: int): seq<RoomReservation> {
    Filter(h.bookings, (b: RoomReservation) => b.clientId == Some(cid) && b.status == Confirmee)
  }

  /** `GET /reservations/my-reservations`: the caller's confirmed stays, latest
      arrival first. */
  function GetMyReservations(h: Hotel, userId: string): (r: Result<seq<RoomReservation>>)
    ensures ClientIndex(h.clients, userId).None? <==> r == Err(ClientNotFound)
    ensures r.Ok? ==>
      var c := h.clients[ClientIndex(h.clients, userId).value];
      && (forall i :: 0 <= i < |r.value| ==>
            r.value[i].clientId == Some(c.id) && r.value[i].status == Confirmee)
      && (forall i :: 0 <= i < |h.bookings| && h.bookings[i].clientId == Some(c.id)
            && h.bookings[i].status == Confirmee
            ==> h.bookings[i] in r.value)
      && multiset(r.value) <= multiset(h.bookings)
      && multiset(r.value) == multiset(ConfirmedStaysOf(h, c.id))
      && Ordering.SortedDesc(r.value, (b: RoomReservation) => b.start)
  {
    match ClientIndex(h.clients, userId)
    case None => Err(ClientNotFound)
    case Some(c) =>
      var mine := ConfirmedStaysOf(h, h.clients[c].id);
      var sorted := Ordering.SortDesc(mine, (b: RoomReservation) => b.start);
      Ordering.SortDescMembers(mine, (b: RoomReservation) => b.start);
      Ok(sorted)
  }

  /** Stays arriving on the same day are listed in table order. */
  lemma GetMyReservationsStable(h: Hotel, userId: string, day: int)
    requires ClientIndex(h.clients, userId).Some?
    ensures var c := h.clients[ClientIndex(h.clients, userId).value];
      Filter(GetMyReservations(h, userId).value, (b: RoomReservation) => b.start == day)
        == Filter(ConfirmedStaysOf(h, c.id), (b: RoomReservation) => b.start == day)
  {
    var c := h.clients[ClientIndex(h.clients, userId).value];
    var mine := ConfirmedStaysOf(h, c.id);
    assert GetMyReservations(h, userId).value == Ordering.SortDesc(mine, (b: RoomReservation) => b.start);
    Ordering.SortDescStableBy(mine, (b: RoomReservation) => b.start, day, (b: RoomReservation) => b.start == day);
  }
}

=== FILE: roomtypes.dfy ===
/** Room categories (`TypeChambre`): admin-only edits and the public search
    by capacity and free dates. */
module RoomTypes {
  import opened Common
  import opened Hotel
  import opened Availability

  // ----- Catalogue -----------------------------------------------------------

  /** `GET /typechambres/{id}`: the first category with that id. */
  function FindType(h: Hotel, id: int): (r: Option<RoomType>)
    ensures r.Some? ==> r.value.id == id && r.value in h.types
    ensures r.None? ==> forall i :: 0 <= i < |h.types| ==> h.types[i].id != id
  {
    match TypeIndex(h.types, id)
    case Some(k) => Some(h.types[k])
    case None => None
  }

  /** `PUT /typechambres/{id}`: an admin overwrites a category with the body
      sent, whose id must match the route. */
  function PutType(h: Hotel, userId: string, id: int, t: RoomType): (s: Step<()>)
    ensures !IsAdmin(h, userId) ==> s == Step(h, Err(Forbidden))
    ensures IsAdmin(h, userId) && id != t.id ==> s == Step(h, Err(IdMismatch))
    ensures IsAdmin(h, userId) && id == t.id && FindType(h, id).None? ==> s == Step(h, Err(NotFound))
    ensures s.result.Err? ==> s.next == h && s.result.error in {Forbidden, IdMismatch, NotFound}
    ensures IsAdmin(h, userId) && id == t.id && FindType(h, id).Some? ==> s.result.Ok?
    ensures s.result.Ok? ==>
      exists k :: 0 <= k < |h.types| && h.types[k].id == id && t.id == id
        && s.next.types == h.types[k := t]
        && s.next == h.(types := s.next.types)
  {
    if !IsAdmin(h, userId) then Step(h, Err(Forbidden))
    else if id != t.id then Step(h, Err(IdMismatch))
    else match TypeIndex(h.types, id)
      case None => Step(h, Err(NotFound))
      case Some(k) => Step(h.(types := h.types[k := t]), Ok(()))
  }

  /** `POST /typechambres`: an admin adds a category under a fresh id. */
  function PostType(h: Hotel, userId: string, name: string, capacity: int, rate: int): (s: Step<RoomType>)
    ensures !IsAdmin(h, userId) <==> s == Step(h, Err(Forbidden))
    ensures s.result.Err? ==> s.next == h && s.result.error == Forbidden
    ensures s.result.Ok? ==>
      && s.result.value == RoomType(h.nextId, name, capacity, rate)
      && s.next == h.(types := h.types + [s.result.value], nextId := h.nextId + 1)
  {
    if !IsAdmin(h, userId) then Step(h, Err(Forbidden))
    else
      var t := RoomType(h.nextId, name, capacity, rate);
      Step(h.(types := h.types + [t], nextId := h.nextId + 1), Ok(t))
  }

  /** `DELETE /typechambres/{id}`: an admin removes a category. */
  function DeleteType(h: Hotel, userId: string, id: int): (s: Step<()>)
    ensures !IsAdmin(h, userId) ==> s == Step(h, Err(Forbidden))
    ensures IsAdmin(h, userId) && FindType(h, id).None? ==> s == Step(h, Err(NotFound))
    ensures s.result.Err? ==> s.next == h && s.result.error in {Forbidden, NotFound}
    ensures IsAdmin(h, userId) && FindType(h, id).Some? ==> s.result.Ok?
    ensures s.result.Ok? ==>
      exists k :: 0 <= k < |h.types| && h.types[k].id == id
        && s.next.types == RemoveAt(h.types, k)
        && s.next == h.(types := s.next.types)
  {
    if !IsAdmin(h, userId) then Step(h, Err(Forbidden))
    else match TypeIndex(h.types, id)
      case None => Step(h, Err(NotFound))
      case Some(k) => Step(h.(types := RemoveAt(h.types, k)), Ok(()))
  }

  /** An edit is seen by the next read and by the booking price. */
  lemma PutTypeThenFind(h: Hotel, userId: string, id: int, t: RoomType)
    requires PutType(h, userId, id, t).result.Ok?
    ensures var next := PutType(h, userId, id, t).next;
      FindType(next, id) == Some(t) && RateOf(next, id) == Some(t.rate)
  {
    var k := TypeIndex(h.types, id).value;
    var next := PutType(h, userId, id, t).next;
    assert next.types == h.types[k := t];
    var p := (x: RoomType) => x.id == id;
    assert forall j :: 0 <= j < |h.types| ==> p(next.types[j]) == p(h.types[j]);
    assert TypeIndex(next.types, id) == Some(k);
  }

  /** A new category can be read back under its fresh id. */
  lemma PostTypeThenFind(h: Hotel, userId: string, name: string, capacity: int, rate: int)
    requires Fresh(h)
    requires PostType(h, userId, name, capacity, rate).result.Ok?
    ensures var s := PostType(h, userId, name, capacity, rate);
      FindType(s.next, s.result.value.id) == Some(s.result.value) && Fresh(s.next)
  {
    var s := PostType(h, userId, name, capacity, rate);
    assert forall j :: 0 <= j < |h.types| ==> s.next.types[j] == h.types[j];
    assert s.next.types[|h.types|] == s.result.value;
    match TypeIndex(s.next.types, h.nextId)
    case Some(k) => assert k == |h.types|;
    case None => assert false;
  }

  // ----- SearchTypeChambres --------------------------------------------------

  /** `reservedChambreIds`: every room holding a live reservation that meets
      [arrival, departure), whatever its category. */
  function ReservedRoomIds(h: Hotel, arrival: int, departure: int): set<int> {
    set b | b in h.bookings && Live(b.status) && Overlaps(b, arrival, departure) :: b.roomId
  }

  /** The category has a room outside the reserved set (`t.Chambres.Any`). */
  predicate HasUnreservedRoom(h: Hotel, t: RoomType, reserved: set<int>) {
    exists i :: 0 <= i < |h.rooms| && h.rooms[i].typeId == t.id && h.rooms[i].id !in reserved
  }

  /** The category has a room no live reservation occupies on those days. */
  predicate HasFreeRoom(h: Hotel, t: RoomType, arrival: int, departure: int) {
    exists i :: 0 <= i < |h.rooms| && h.rooms[i].typeId == t.id && RoomFree(h, h.rooms[i].id, arrival, departure)
  }

  predicate FitsCapacity(t: RoomType, capacity: Option<int>) {
    capacity.None? || t.capacity >= capacity.value
  }

  lemma ReservedIffOccupied(h: Hotel, arrival: int, departure: int, roomId: int)
    ensures roomId in ReservedRoomIds(h, arrival, departure) <==> !RoomFree(h, roomId, arrival, departure)
  {
    if !RoomFree(h, roomId, arrival, departure) {
      var i :| 0 <= i < |h.bookings| && h.bookings[i].roomId == roomId && Live(h.bookings[i].status)
        && Overlaps(h.bookings[i], arrival, departure);
      assert h.bookings[i] in h.bookings;
    }
  }

  lemma UnreservedIffFree(h: Hotel, t: RoomType, arrival: int, departure: int)
    ensures HasUnreservedRoom(h, t, ReservedRoomIds(h, arrival, departure)) <==> HasFreeRoom(h, t, arrival, departure)
  {
    var reserved := ReservedRoomIds(h, arrival, departure);
    forall i | 0 <= i < |h.rooms|
      ensures h.rooms[i].id !in reserved <==> RoomFree(h, h.rooms[i].id, arrival, departure)
    {
      ReservedIffOccupied(h, arrival, departure, h.rooms[i].id);
    }
  }

  /** `GET /typechambres/search`: the categories holding at least `capacity`
      guests and, when both dates are given, owning a room free for the whole
      stay; an arrival not before the departure is refused. */
  function SearchTypes(h: Hotel, arrival: Option<int>, departure: Option<int>, capacity: Option<int>): (r: Result<seq<RoomType>>)
    ensures (arrival.Some? && departure.Some? && arrival.value >= departure.value) <==> r == Err(InvalidDates)
    ensures r.Err? ==> r.error == InvalidDates
    ensures r.Ok? ==> forall i :: 0 <= i < |r.value| ==>
      && r.value[i] in h.types
      && FitsCapacity(r.value[i], capacity)
      && (arrival.Some? && departure.Some? ==> HasFreeRoom(h, r.value[i], arrival.value, departure.value))
    ensures r.Ok? ==> forall i :: 0 <= i < |h.types| ==>
      (FitsCapacity(h.types[i], capacity)
       && (arrival.Some? && departure.Some? ==> HasFreeRoom(h, h.types[i], arrival.value, departure.value)))
      ==> h.types[i] in r.value
    ensures r.Ok? ==> multiset(r.value) <= multiset(h.types)
  {
    var fitting := Filter(h.types, (t: RoomType) => FitsCapacity(t, capacity));
    if arrival.Some? && departure.Some? then
      var a := arrival.value;
      var d := departure.value;
      if a >= d then Err(InvalidDates)
      else
        var reserved := ReservedRoomIds(h, a, d);
        var result := Filter(fitting, (t: RoomType) => HasUnreservedRoom(h, t, reserved));
        forall t: RoomType | t in h.types ensures HasUnreservedRoom(h, t, reserved) <==> HasFreeRoom(h, t, a, d) {
          UnreservedIffFree(h, t, a, d);
        }
        assert forall i :: 0 <= i < |result| ==> result[i] in fitting;
        Ok(result)
    else Ok(fitting)
  }

  /** The search and the per-category availability check agree: with
      distinct room ids, a category passes the date filter exactly when the
      availability query finds a free room of it. */
  lemma SearchAgreesWithAvailability(h: Hotel, t: RoomType, arrival: int, departure: int)
    requires RoomIdsDistinct(h.rooms)
    ensures HasFreeRoom(h, t, arrival, departure) <==> |FreeRooms(h, t.id, arrival, departure)| > 0
  {
    var free := FreeRooms(h, t.id, arrival, departure);
    if HasFreeRoom(h, t, arrival, departure) {
      var k :| 0 <= k < |h.rooms| && h.rooms[k].typeId == t.id && RoomFree(h, h.rooms[k].id, arrival, departure);
      FreeRoomsAreFree(h, t.id, arrival, departure, k);
    }
    if |free| > 0 {
      var k :| 0 <= k < |h.rooms| && h.rooms[k] == free[0];
      FreeRoomsAreFree(h, t.id, arrival, departure, k);
    }
  }
}

=== FILE: safety.dfy ===
/** The state invariant `Valid` — distinct room ids, no two overlapping live
    stays on one room, fresh identity values, live lines in active carts and
    at most one active cart per client — is preserved by every endpoint that
    writes. */
module Safety {
  import opened Common
  import opened Hotel
  import opened Availability
  import Reservations
  import Paniers
  import Services
  import Staff
  import RoomTypes

  // ----- Building blocks -----------------------------------------------------

  /** Carts keep their ids, owners and statuses. */
  predicate SameCartKeys(a: seq<Cart>, b: seq<Cart>) {
    |a| == |b| && forall j :: 0 <= j < |a| ==>
      a[j].id == b[j].id && a[j].clientId == b[j].clientId && a[j].status == b[j].status
  }

  /** Changing only a cart's cached total keeps the invariant. */
  lemma CartTotalKeepsValid(h: Hotel, carts: seq<Cart>)
    requires Valid(h) && SameCartKeys(h.carts, carts)
    ensures Valid(h.(carts := carts))
  {
    var h' := h.(carts := carts);
    forall id | true ensures IsActiveCart(carts, id) == IsActiveCart(h.carts, id) {
      if IsActiveCart(h.carts, id) {
        var j :| 0 <= j < |h.carts| && h.carts[j].id == id && h.carts[j].status == Actif;
        assert carts[j].id == id && carts[j].status == Actif;
      }
    }
  }

  /** Getting or creating the active cart keeps the invariant, and the cart's
      id is already below `nextId` so lines may refer to it. */
  lemma GetOrCreateCartKeepsValid(h: Hotel, clientId: int)
    requires Valid(h)
    ensures var (h1, k) := GetOrCreateCart(h, clientId);
      Valid(h1) && h1.carts[k].id < h1.nextId
  {
    var (h1, k) := GetOrCreateCart(h, clientId);
    if ActiveCartIndex(h.carts, clientId).None? {
      assert h1.carts[k].id == h.nextId;
      forall i, j | 0 <= i < j < |h1.carts| && h1.carts[i].clientId == h1.carts[j].clientId
        ensures h1.carts[i].status != Actif || h1.carts[j].status != Actif
      {
        if j == |h.carts| {
          assert h1.carts[i] == h.carts[i];
        } else {
          assert h1.carts[i] == h.carts[i] && h1.carts[j] == h.carts[j];
        }
      }
      forall id | IsActiveCart(h1.carts, id) && id < h.nextId ensures IsActiveCart(h.carts, id) {
        var j :| 0 <= j < |h1.carts| && h1.carts[j].id == id && h1.carts[j].status == Actif;
        assert j < |h.carts|;
        assert h.carts[j] == h1.carts[j];
      }
    }
  }

  /** Appending a booking made by `Book` keeps the invariant when the status
      is live and the cart it names already exists. */
  lemma BookKeepsValid(h: Hotel, typeId: int, start: int, end: int, status: LineStatus,
                       clientId: Option<int>, guestName: Option<string>, cartId: Option<int>, markRoom: bool)
    requires Valid(h) && Live(status)
    requires cartId.Some? ==> cartId.value < h.nextId
    ensures Valid(Book(h, typeId, start, end, status, clientId, guestName, cartId, markRoom).next)
  {
    var s := Book(h, typeId, start, end, status, clientId, guestName, cartId, markRoom);
    if s.result.Ok? {
      BookKeepsNoDoubleBooking(h, typeId, start, end, status, clientId, guestName, cartId, markRoom);
      var h' := s.next;
      assert forall i :: 0 <= i < |h.bookings| ==> h'.bookings[i] == h.bookings[i];
      assert RoomIdsDistinct(h'.rooms);
      assert Fresh(h');
      assert ActiveCartLinesLive(h');
    }
  }

  // ----- Booking endpoints ---------------------------------------------------

  lemma CreateReservationKeepsValid(h: Hotel, userId: string, typeId: int, start: int, end: int)
    requires Valid(h)
    ensures Valid(Reservations.CreateReservation(h, userId, typeId, start, end).next)
  {
    if start < end {
      match ClientIndex(h.clients, userId)
      case None =>
      case Some(c) =>
        BookKeepsValid(h, typeId, start, end, Confirmee, Some(h.clients[c].id), None, None, true);
    }
  }

  lemma CreateAdminReservationKeepsValid(h: Hotel, userId: string, typeId: int, start: int, end: int,
                                         clientId: Option<int>, guestName: Option<string>)
    requires Valid(h)
    ensures Valid(Reservations.CreateAdminReservation(h, userId, typeId, start, end, clientId, guestName).next)
  {
    if start < end && Reservations.CanManageRooms(h, userId) {
      BookKeepsValid(h, typeId, start, end, Confirmee, clientId,
                     Reservations.GuestFor(clientId, guestName), None, true);
    }
  }

  lemma AddLineKeepsValid(h: Hotel, k: nat, cid: int, typeId: int, start: int, end: int)
    requires Valid(h) && k < |h.carts| && h.carts[k].id < h.nextId
    ensures Valid(Paniers.AddLine(h, k, cid, typeId, start, end).next)
  {
    var s := Paniers.AddLine(h, k, cid, typeId, start, end);
    if s.result.Ok? {
      var b := Book(h, typeId, start, end, Panier, Some(cid), None, Some(h.carts[k].id), false);
      BookKeepsValid(h, typeId, start, end, Panier, Some(cid), None, Some(h.carts[k].id), false);
      assert s.next == b.next.(carts := s.next.carts);
      CartTotalKeepsValid(b.next, s.next.carts);
    }
  }

  lemma AddToPanierKeepsValid(h: Hotel, userId: string, typeId: int, start: int, end: int)
    requires Valid(h)
    ensures Valid(Paniers.AddToPanier(h, userId, typeId, start, end).next)
  {
    if ClientIndex(h.clients, userId).Some? {
      var cid := h.clients[ClientIndex(h.clients, userId).value].id;
      var hk := GetOrCreateCart(h, cid);
      GetOrCreateCartKeepsValid(h, cid);
      AddLineKeepsValid(hk.0, hk.1, cid, typeId, start, end);
    }
  }

  /** Rewriting stays in place — same ids, carts, rooms and dates, and the
      same live ones — and rooms in place with the same ids keeps the
      invariant. */
  lemma StatusChangeKeepsValid(h: Hotel, bookings: seq<RoomReservation>, rooms: seq<Room>)
    requires Valid(h) && |bookings| == |h.bookings| && |rooms| == |h.rooms|
    requires forall i :: 0 <= i < |bookings| ==>
      && bookings[i].id == h.bookings[i].id && bookings[i].cartId == h.bookings[i].cartId
      && bookings[i].roomId == h.bookings[i].roomId
      && bookings[i].start == h.bookings[i].start && bookings[i].end == h.bookings[i].end
      && (Live(bookings[i].status) <==> Live(h.bookings[i].status))
    requires forall i :: 0 <= i < |rooms| ==> rooms[i].id == h.rooms[i].id
    ensures Valid(h.(bookings := bookings, rooms := rooms))
  {
    LiveStatusesKeepNoDoubleBooking(h.bookings, bookings);
  }

  /** Completing a stay that was not cancelled keeps the invariant. A
      cancelled stay would be revived as "Terminée" and could then overlap a
      later booking of its room, so that case is excluded. */
  lemma CompleteReservationKeepsValid(h: Hotel, id: int)
    requires Valid(h)
    requires forall i :: 0 <= i < |h.bookings| && h.bookings[i].id == id ==> h.bookings[i].status != Annulee
    ensures Valid(Reservations.CompleteReservation(h, id).next)
  {
    var s := Reservations.CompleteReservation(h, id);
    if s.result.Ok? {
      var k := FirstIndex(h.bookings, (b: RoomReservation) => b.id == id).value;
      var bookings := h.bookings[k := h.bookings[k].(status := Terminee)];
      var rooms := SetRoomState(h.rooms, {h.bookings[k].roomId}, Disponible);
      assert s.next == h.(bookings := bookings, rooms := rooms);
      StatusChangeKeepsValid(h, bookings, rooms);
    }
  }

  // ----- Cart endpoints ------------------------------------------------------

  lemma GetActivePanierKeepsValid(h: Hotel, userId: string)
    requires Valid(h)
    ensures Valid(Paniers.GetActivePanier(h, userId).next)
  {
    var s := Paniers.GetActivePanier(h, userId);
    CartTotalKeepsValid(h, s.next.carts);
  }

  /** Deleting one stay keeps the others pairwise apart. */
  lemma RemoveAtKeepsNoDoubleBooking(bs: seq<RoomReservation>, i: nat)
    requires NoDoubleBooking(bs) && i < |bs|
    ensures NoDoubleBooking(RemoveAt(bs, i))
  {
    var rs := RemoveAt(bs, i);
    var at := (x: nat) => if x < i then x else x + 1;
    assert forall x :: 0 <= x < |rs| ==> rs[x] == bs[at(x)];
    forall x, y | 0 <= x < |rs| && 0 <= y < |rs| && x != y
      && rs[x].roomId == rs[y].roomId && Live(rs[x].status) && Live(rs[y].status)
      ensures !Overlaps(rs[x], rs[y].start, rs[y].end)
    {
      assert at(x) != at(y);
    }
  }

  /** Deleting one room stay keeps the invariant. */
  lemma RemoveBookingKeepsValid(h: Hotel, i: nat)
    requires Valid(h) && i < |h.bookings|
    ensures Valid(h.(bookings := RemoveAt(h.bookings, i)))
  {
    RemoveAtKeepsNoDoubleBooking(h.bookings, i);
    var bs := RemoveAt(h.bookings, i);
    assert forall x :: 0 <= x < |bs| ==> bs[x] in h.bookings;
  }

  /** Deleting one service booking keeps the invariant. */
  lemma RemoveServiceBookingKeepsValid(h: Hotel, i: nat)
    requires Valid(h) && i < |h.serviceBookings|
    ensures Valid(h.(serviceBookings := RemoveAt(h.serviceBookings, i)))
  {
  }

  /** A successful removal deletes the first matching stay and only
      lowers the cart's total. */
  lemma RemoveItemShape(h: Hotel, userId: string, id: int)
    requires Paniers.RemoveItem(h, userId, id).result.Ok?
    ensures var s := Paniers.RemoveItem(h, userId, id);
      var cid := h.clients[ClientIndex(h.clients, userId).value].id;
      var i := Paniers.OwnRoomLine(h, cid, id).value;
      && i < |h.bookings|
      && SameCartKeys(h.carts, s.next.carts)
      && s.next == h.(bookings := RemoveAt(h.bookings, i), carts := s.next.carts)
  {
  }

  lemma RemoveItemKeepsValid(h: Hotel, userId: string, id: int)
    requires Valid(h)
    ensures Valid(Paniers.RemoveItem(h, userId, id).next)
  {
    var s := Paniers.RemoveItem(h, userId, id);
    if s.result.Ok? {
      var cid := h.clients[ClientIndex(h.clients, userId).value].id;
      var i := Paniers.OwnRoomLine(h, cid, id).value;
      RemoveItemShape(h, userId, id);
      RemoveBookingKeepsValid(h, i);
      CartTotalKeepsValid(h.(bookings := RemoveAt(h.bookings, i)), s.next.carts);
    }
  }

  lemma RemoveServiceItemShape(h: Hotel, userId: string, id: int)
    requires Paniers.RemoveServiceItem(h, userId, id).result.Ok?
    ensures var s := Paniers.RemoveServiceItem(h, userId, id);
      var cid := h.clients[ClientIndex(h.clients, userId).value].id;
      var i := Paniers.OwnServiceLine(h, cid, id).value;
      && i < |h.serviceBookings|
      && SameCartKeys(h.carts, s.next.carts)
      && s.next == h.(serviceBookings := RemoveAt(h.serviceBookings, i), carts := s.next.carts)
  {
  }

  lemma RemoveServiceItemKeepsValid(h: Hotel, userId: string, id: int)
    requires Valid(h)
    ensures Valid(Paniers.RemoveServiceItem(h, userId, id).next)
  {
    var s := Paniers.RemoveServiceItem(h, userId, id);
    if s.result.Ok? {
      var cid := h.clients[ClientIndex(h.clients, userId).value].id;
      var i := Paniers.OwnServiceLine(h, cid, id).value;
      RemoveServiceItemShape(h, userId, id);
      RemoveServiceBookingKeepsValid(h, i);
      CartTotalKeepsValid(h.(serviceBookings := RemoveAt(h.serviceBookings, i)), s.next.carts);
    }
  }

  /** Settling an active cart keeps the invariant: its lines were live and
      stay live, and closing a cart only removes an active one. */
  lemma SettleKeepsValid(h: Hotel, ci: nat, k: nat, points: int)
    requires Valid(h) && ci < |h.clients| && k < |h.carts| && h.carts[k].status == Actif
    ensures Valid(Paniers.Settle(h, ci, k, points))
  {
    var id := h.carts[k].id;
    var next := Paniers.Settle(h, ci, k, points);
    assert IsActiveCart(h.carts, id);
    LiveStatusesKeepNoDoubleBooking(h.bookings, next.bookings);
    forall x | IsActiveCart(next.carts, x) ensures IsActiveCart(h.carts, x) {
      var j :| 0 <= j < |next.carts| && next.carts[j].id == x && next.carts[j].status == Actif;
      assert j != k && next.carts[j] == h.carts[j];
    }
    assert ActiveCartLinesLive(next);
  }

  lemma CheckoutKeepsValid(h: Hotel, userId: string, pointsUsed: int)
    requires Valid(h)
    ensures Valid(Paniers.Checkout(h, userId, pointsUsed).next)
  {
    var s := Paniers.Checkout(h, userId, pointsUsed);
    if s.result.Ok? {
      var ci := ClientIndex(h.clients, userId).value;
      var k := ActiveCartIndex(h.carts, h.clients[ci].id).value;
      var spent := if pointsUsed > 0 then pointsUsed else 0;
      SettleKeepsValid(h, ci, k, h.clients[ci].points - spent + s.result.value.pointsEarned);
    }
  }

  lemma CheckoutCheckedKeepsValid(h: Hotel, userId: string, pointsUsed: int)
    requires Valid(h)
    ensures Valid(Paniers.CheckoutChecked(h, userId, pointsUsed).next)
  {
    var s := Paniers.CheckoutChecked(h, userId, pointsUsed);
    if s.result.Ok? {
      var ci := ClientIndex(h.clients, userId).value;
      var k := ActiveCartIndex(h.carts, h.clients[ci].id).value;
      SettleKeepsValid(h, ci, k, h.clients[ci].points - pointsUsed + s.result.value.pointsEarned);
    }
  }

  // ----- Services ------------------------------------------------------------

  /** Appending a service booking under the fresh id keeps the invariant when
      the cart it names already exists. */
  lemma AppendServiceLineKeepsValid(h: Hotel, r: ServiceReservation)
    requires Valid(h) && r.id == h.nextId
    requires r.cartId.Some? ==> r.cartId.value < h.nextId
    ensures Valid(h.(serviceBookings := h.serviceBookings + [r], nextId := h.nextId + 1))
  {
  }

  lemma ReserveServiceKeepsValid(h: Hotel, caller: Services.Caller, serviceId: int, date: int, time: int,
                                 clientId: Option<int>, guestName: Option<string>)
    requires Valid(h)
    ensures Valid(Services.ReserveService(h, caller, serviceId, date, time, clientId, guestName).next)
  {
    var s := Services.ReserveService(h, caller, serviceId, date, time, clientId, guestName);
    if s.result.Ok? {
      if s.result.value.status == Panier {
        ReserveServiceInCartKeepsValid(h, caller, serviceId, date, time, clientId, guestName);
      } else {
        ReserveServiceDirectKeepsValid(h, caller, serviceId, date, time, clientId, guestName);
      }
    }
  }

  /** The shape of a paid service booked by a client: a line under the
      fresh id, in the active cart (created if need be), whose total grows. */
  lemma ReserveServiceInCartShape(h: Hotel, caller: Services.Caller, serviceId: int, date: int, time: int,
                                  clientId: Option<int>, guestName: Option<string>)
    requires var s := Services.ReserveService(h, caller, serviceId, date, time, clientId, guestName);
      s.result.Ok? && s.result.value.status == Panier
    ensures var s := Services.ReserveService(h, caller, serviceId, date, time, clientId, guestName);
      var r := s.result.value;
      var cid := h.clients[ClientIndex(h.clients, caller.userId).value].id;
      var hk := GetOrCreateCart(h, cid);
      var h1, k := hk.0, hk.1;
      && r.id == h1.nextId && r.cartId == Some(h1.carts[k].id)
      && SameCartKeys(h1.carts, s.next.carts)
      && s.next == h1.(serviceBookings := h1.serviceBookings + [r], nextId := h1.nextId + 1, carts := s.next.carts)
  {
  }

  /** Appending a line under the fresh id to an existing cart, and changing
      only that cart's total, keeps the invariant. */
  lemma AppendCartServiceLineKeepsValid(h: Hotel, r: ServiceReservation, next: Hotel)
    requires Valid(h) && r.id == h.nextId
    requires r.cartId.Some? ==> r.cartId.value < h.nextId
    requires SameCartKeys(h.carts, next.carts)
    requires next == h.(serviceBookings := h.serviceBookings + [r], nextId := h.nextId + 1, carts := next.carts)
    ensures Valid(next)
  {
    AppendServiceLineKeepsValid(h, r);
    CartTotalKeepsValid(h.(serviceBookings := h.serviceBookings + [r], nextId := h.nextId + 1), next.carts);
  }

  /** A paid service booked by a client goes into their active cart. */
  lemma ReserveServiceInCartKeepsValid(h: Hotel, caller: Services.Caller, serviceId: int, date: int, time: int,
                                       clientId: Option<int>, guestName: Option<string>)
    requires Valid(h)
    requires var s := Services.ReserveService(h, caller, serviceId, date, time, clientId, guestName);
      s.result.Ok? && s.result.value.status == Panier
    ensures Valid(Services.ReserveService(h, caller, serviceId, date, time, clientId, guestName).next)
  {
    var s := Services.ReserveService(h, caller, serviceId, date, time, clientId, guestName);
    var cid := h.clients[ClientIndex(h.clients, caller.userId).value].id;
    GetOrCreateCartKeepsValid(h, cid);
    ReserveServiceInCartShape(h, caller, serviceId, date, time, clientId, guestName);
    AppendCartServiceLineKeepsValid(GetOrCreateCart(h, cid).0, s.result.value, s.next);
  }

  /** Any other service booking is confirmed at once, outside any cart. */
  lemma ReserveServiceDirectKeepsValid(h: Hotel, caller: Services.Caller, serviceId: int, date: int, time: int,
                                       clientId: Option<int>, guestName: Option<string>)
    requires Valid(h)
    requires var s := Services.ReserveService(h, caller, serviceId, date, time, clientId, guestName);
      s.result.Ok? && s.result.value.status != Panier
    ensures Valid(Services.ReserveService(h, caller, serviceId, date, time, clientId, guestName).next)
  {
    var s := Services.ReserveService(h, caller, serviceId, date, time, clientId, guestName);
    var r := s.result.value;
    assert r.id == h.nextId && r.cartId == None;
    AppendServiceLineKeepsValid(h, r);
    assert s.next == h.(serviceBookings := h.serviceBookings + [r], nextId := h.nextId + 1);
  }

  lemma CompleteServiceKeepsValid(h: Hotel, id: int)
    requires Valid(h)
    ensures Valid(Services.CompleteService(h, id).next)
  {
  }

  // ----- Catalogue and staff ---------------------------------------------------

  /** Only `Fresh` reads the catalogues, so any service and category lists
      whose ids are below the counter keep the invariant. */
  lemma CatalogueChangeKeepsValid(h: Hotel, services: seq<Service>, types: seq<RoomType>, nextId: int)
    requires Valid(h)
    requires nextId >= h.nextId
    requires forall j :: 0 <= j < |services| ==> services[j].id < nextId
    requires forall j :: 0 <= j < |types| ==> types[j].id < nextId
    ensures Valid(h.(services := services, types := types, nextId := nextId))
  {
    var h' := h.(services := services, types := types, nextId := nextId);
    assert ActiveCartLinesLive(h') by {
      assert h'.bookings == h.bookings && h'.carts == h.carts;
    }
  }

  lemma PutServiceKeepsValid(h: Hotel, userId: string, id: int, name: string, price: Option<int>, category: string)
    requires Valid(h)
    ensures Valid(Services.PutService(h, userId, id, name, price, category).next)
  {
    var s := Services.PutService(h, userId, id, name, price, category);
    if s.result.Ok? {
      var k := ServiceIndex(h.services, id).value;
      var services := h.services[k := Service(id, name, price, category)];
      assert s.next == h.(services := services, types := h.types, nextId := h.nextId);
      assert forall j :: 0 <= j < |services| ==> services[j].id == h.services[j].id;
      CatalogueChangeKeepsValid(h, services, h.types, h.nextId);
    }
  }

  lemma PostServiceKeepsValid(h: Hotel, userId: string, name: string, price: Option<int>, category: string)
    requires Valid(h)
    ensures Valid(Services.PostService(h, userId, name, price, category).next)
  {
    var s := Services.PostService(h, userId, name, price, category);
    if s.result.Ok? {
      var services := h.services + [Service(h.nextId, name, price, category)];
      assert s.next == h.(services := services, types := h.types, nextId := h.nextId + 1);
      assert forall j :: 0 <= j < |h.services| ==> services[j] == h.services[j];
      CatalogueChangeKeepsValid(h, services, h.types, h.nextId + 1);
    }
  }

  lemma DeleteServiceKeepsValid(h: Hotel, userId: string, id: int)
    requires Valid(h)
    ensures Valid(Services.DeleteService(h, userId, id).next)
  {
    var s := Services.DeleteService(h, userId, id);
    if s.result.Ok? {
      var k := ServiceIndex(h.services, id).value;
      var services := RemoveAt(h.services, k);
      var staff := Services.ReleaseScope(h.staff, StaffIndex(h.staff, userId).value, id);
      StaffChangeKeepsValid(h, staff, h.nextId);
      var h1 := h.(staff := staff, nextId := h.nextId);
      assert s.next == h1.(services := services, types := h1.types, nextId := h1.nextId);
      assert forall j :: 0 <= j < |services| ==> services[j] in h1.services;
      CatalogueChangeKeepsValid(h1, services, h1.types, h1.nextId);
    }
  }

  lemma PutTypeKeepsValid(h: Hotel, userId: string, id: int, t: RoomType)
    requires Valid(h)
    ensures Valid(RoomTypes.PutType(h, userId, id, t).next)
  {
    var s := RoomTypes.PutType(h, userId, id, t);
    if s.result.Ok? {
      var k := TypeIndex(h.types, id).value;
      var types := h.types[k := t];
      assert s.next == h.(services := h.services, types := types, nextId := h.nextId);
      assert forall j :: 0 <= j < |types| ==> types[j].id == h.types[j].id;
      CatalogueChangeKeepsValid(h, h.services, types, h.nextId);
    }
  }

  lemma PostTypeKeepsValid(h: Hotel, userId: string, name: string, capacity: int, rate: int)
    requires Valid(h)
    ensures Valid(RoomTypes.PostType(h, userId, name, capacity, rate).next)
  {
    var s := RoomTypes.PostType(h, userId, name, capacity, rate);
    if s.result.Ok? {
      var types := h.types + [RoomType(h.nextId, name, capacity, rate)];
      assert s.next == h.(services := h.services, types := types, nextId := h.nextId + 1);
      assert forall j :: 0 <= j < |h.types| ==> types[j] == h.types[j];
      CatalogueChangeKeepsValid(h, h.services, types, h.nextId + 1);
    }
  }

  lemma DeleteTypeKeepsValid(h: Hotel, userId: string, id: int)
    requires Valid(h)
    ensures Valid(RoomTypes.DeleteType(h, userId, id).next)
  {
    var s := RoomTypes.DeleteType(h, userId, id);
    if s.result.Ok? {
      var k := TypeIndex(h.types, id).value;
      var types := RemoveAt(h.types, k);
      assert s.next == h.(services := h.services, types := types, nextId := h.nextId);
      assert forall j :: 0 <= j < |types| ==> types[j] in h.types;
      CatalogueChangeKeepsValid(h, h.services, types, h.nextId);
    }
  }

  /** Staff records and a larger id counter play no part in the invariant, so
      creating, promoting and editing staff keep it. */
  lemma StaffChangeKeepsValid(h: Hotel, staff: seq<Responsable>, nextId: int)
    requires Valid(h) && nextId >= h.nextId
    ensures Valid(h.(staff := staff, nextId := nextId))
  {
  }

  // ----- Staff scopes --------------------------------------------------------

  /** A successful edit keeps every staff scope on a stored service. */
  lemma EditKeepsScopesKnown(h: Hotel, id: int, submitted: Responsable)
    requires ScopesKnown(h)
    ensures ScopesKnown(Staff.Edit(h, id, submitted).next)
  {
    var s := Staff.Edit(h, id, submitted);
    if s.result.Ok? {
      var k := FirstIndex(h.staff, (r: Responsable) => r.id == id).value;
      assert s.next.staff == h.staff[k := submitted.(role := h.staff[k].role, userId := h.staff[k].userId)];
    }
  }

  /** A successful delete keeps every staff scope on a stored service: no
      other profile named the service, and the caller's own scope on it was
      released. */
  lemma DeleteServiceKeepsScopesKnown(h: Hotel, userId: string, id: int)
    requires ScopesKnown(h)
    ensures ScopesKnown(Services.DeleteService(h, userId, id).next)
  {
    var s := Services.DeleteService(h, userId, id);
    if s.result.Ok? {
      var k := ServiceIndex(h.services, id).value;
      var services := RemoveAt(h.services, k);
      assert s.next.services == services;
      forall j | 0 <= j < |s.next.staff| && s.next.staff[j].serviceId.Some?
        ensures ServiceIndex(services, s.next.staff[j].serviceId.value).Some?
      {
        var x := s.next.staff[j].serviceId.value;
        assert x != id;
        assert s.next.staff[j] == h.staff[j];
        var m := ServiceIndex(h.services, x).value;
        assert m != k;
        if m < k {
          assert services[m] == h.services[m];
        } else {
          assert services[m - 1] == h.services[m];
        }
      }
    }
  }
}

=== FILE: services.dfy ===
/** The service catalogue and service bookings: admin-only catalogue edits,
    booking a service (into the cart when it costs something), the staff and
    client listings and completion. */
module Services {
  import opened Common
  import opened Hotel
  import Ordering

  // ----- Catalogue -----------------------------------------------------------

  /** `GET /services/{id}`: the first service with that id. */
  function FindService(h: Hotel, id: int): (r: Option<Service>)
    ensures r.Some? ==> r.value.id == id && r.value in h.services
    ensures r.None? ==> forall i :: 0 <= i < |h.services| ==> h.services[i].id != id
  {
    match ServiceIndex(h.services, id)
    case Some(k) => Some(h.services[k])
    case None => None
  }

  /** `PUT /services/{id}`: an admin replaces the name, price and category. */
  function PutService(h: Hotel, userId: string, id: int, name: string, price: Option<int>, category: string): (s: Step<()>)
    ensures !IsAdmin(h, userId) ==> s == Step(h, Err(Forbidden))
    ensures IsAdmin(h, userId) && FindService(h, id).None? ==> s == Step(h, Err(NotFound))
    ensures s.result.Err? ==> s.next == h && s.result.error in {Forbidden, NotFound}
    ensures IsAdmin(h, userId) && FindService(h, id).Some? ==> s.result.Ok?
    ensures s.result.Ok? ==>
      exists k :: 0 <= k < |h.services| && h.services[k].id == id
        && s.next.services == h.services[k := Service(id, name, price, category)]
        && s.next == h.(services := s.next.services)
  {
    if !IsAdmin(h, userId) then Step(h, Err(Forbidden))
    else match ServiceIndex(h.services, id)
      case None => Step(h, Err(NotFound))
      case Some(k) => Step(h.(services := h.services[k := Service(id, name, price, category)]), Ok(()))
  }

  /** `POST /services`: an admin adds a service under a fresh id. */
  function PostService(h: Hotel, userId: string, name: string, price: Option<int>, category: string): (s: Step<Service>)
    ensures !IsAdmin(h, userId) <==> s == Step(h, Err(Forbidden))
    ensures s.result.Err? ==> s.next == h && s.result.error == Forbidden
    ensures s.result.Ok? ==>
      && s.result.value == Service(h.nextId, name, price, category)
      && s.next == h.(services := h.services + [s.result.value], nextId := h.nextId + 1)
  {
    if !IsAdmin(h, userId) then Step(h, Err(Forbidden))
    else
      var svc := Service(h.nextId, name, price, category);
      Step(h.(services := h.services + [svc], nextId := h.nextId + 1), Ok(svc))
  }

  /** Some staff profile other than the `skip`-th is scoped to the service. */
  predicate ScopedElsewhere(staff: seq<Responsable>, skip: nat, id: int) {
    exists j :: 0 <= j < |staff| && j != skip && staff[j].serviceId == Some(id)
  }

  /** The staff after the delete: the caller's own profile, which the admin
      check loaded and so is tracked, has its `ServiceId` set to null when it
      names the deleted service. */
  function ReleaseScope(staff: seq<Responsable>, me: nat, id: int): seq<Responsable>
    requires me < |staff|
  {
    if staff[me].serviceId == Some(id) then staff[me := staff[me].(serviceId := None)] else staff
  }

  /** `DELETE /services/{id}`: an admin removes a service. The `ServiceId`
      foreign key from staff profiles has no delete action, so the save fails
      while an untracked profile is still scoped to the service; only the
      caller's own tracked profile is released. */
  function DeleteService(h: Hotel, userId: string, id: int): (s: Step<()>)
    ensures !IsAdmin(h, userId) ==> s == Step(h, Err(Forbidden))
    ensures IsAdmin(h, userId) && FindService(h, id).None? ==> s == Step(h, Err(NotFound))
    ensures s.result.Err? ==> s.next == h && s.result.error in {Forbidden, NotFound, ServiceInUse}
    ensures var me := StaffIndex(h.staff, userId);
      s.result == Err(ServiceInUse) <==>
        IsAdmin(h, userId) && FindService(h, id).Some? && me.Some? && ScopedElsewhere(h.staff, me.value, id)
    ensures var me := StaffIndex(h.staff, userId);
      (IsAdmin(h, userId) && FindService(h, id).Some? && me.Some? && !ScopedElsewhere(h.staff, me.value, id)
       ==> s.result.Ok?)
    ensures s.result.Ok? ==>
      && StaffIndex(h.staff, userId).Some?
      && (forall j :: 0 <= j < |s.next.staff| ==> s.next.staff[j].serviceId != Some(id))
      && (exists k :: 0 <= k < |h.services| && h.services[k].id == id
            && s.next.services == RemoveAt(h.services, k))
      && s.next == h.(services := s.next.services,
                      staff := ReleaseScope(h.staff, StaffIndex(h.staff, userId).value, id))
  {
    if !IsAdmin(h, userId) then Step(h, Err(Forbidden))
    else match ServiceIndex(h.services, id)
      case None => Step(h, Err(NotFound))
      case Some(k) =>
        match StaffIndex(h.staff, userId)
        case None => assert false; Step(h, Err(Forbidden))
        case Some(me) =>
          if ScopedElsewhere(h.staff, me, id) then Step(h, Err(ServiceInUse))
          else Step(h.(services := RemoveAt(h.services, k), staff := ReleaseScope(h.staff, me, id)), Ok(()))
  }

  /** An edit is seen by the next read, and touches no other service. */
  lemma PutThenFind(h: Hotel, userId: string, id: int, name: string, price: Option<int>, category: string, other: int)
    requires PutService(h, userId, id, name, price, category).result.Ok?
    ensures var next := PutService(h, userId, id, name, price, category).next;
      && FindService(next, id) == Some(Service(id, name, price, category))
      && (other != id ==> FindService(next, other) == FindService(h, other))
  {
    var k := ServiceIndex(h.services, id).value;
    var next := PutService(h, userId, id, name, price, category).next;
    assert next.services == h.services[k := Service(id, name, price, category)];
    var p := (s: Service) => s.id == id;
    assert forall j :: 0 <= j < |h.services| ==> p(next.services[j]) == p(h.services[j]);
    assert ServiceIndex(next.services, id) == Some(k);
    if other != id {
      var q := (s: Service) => s.id == other;
      assert forall j :: 0 <= j < |h.services| ==> q(next.services[j]) == q(h.services[j]);
      assert forall j :: 0 <= j < |h.services| && q(h.services[j]) ==> next.services[j] == h.services[j];
      match ServiceIndex(h.services, other)
      case Some(m) => assert ServiceIndex(next.services, other) == Some(m);
      case None => assert ServiceIndex(next.services, other).None?;
    }
  }

  /** A new service can be read back under its id, and distinct ids stay
      distinct when every existing id is below the fresh one. */
  lemma PostThenFind(h: Hotel, userId: string, name: string, price: Option<int>, category: string)
    requires Fresh(h) && ServiceIdsDistinct(h.services)
    requires PostService(h, userId, name, price, category).result.Ok?
    ensures var s := PostService(h, userId, name, price, category);
      && FindService(s.next, s.result.value.id) == Some(s.result.value)
      && ServiceIdsDistinct(s.next.services) && Fresh(s.next)
  {
    var s := PostService(h, userId, name, price, category);
    assert forall j :: 0 <= j < |h.services| ==> s.next.services[j] == h.services[j];
    assert s.next.services[|h.services|] == s.result.value;
    match ServiceIndex(s.next.services, h.nextId)
    case Some(k) => assert k == |h.services|;
    case None => assert false;
  }

  /** With distinct ids, a deleted service can no longer be found. */
  lemma DeleteThenFind(h: Hotel, userId: string, id: int)
    requires ServiceIdsDistinct(h.services)
    requires DeleteService(h, userId, id).result.Ok?
    ensures var next := DeleteService(h, userId, id).next;
      FindService(next, id).None? && ServiceIdsDistinct(next.services)
  {
    var k := ServiceIndex(h.services, id).value;
    var next := DeleteService(h, userId, id).next;
    assert next.services == RemoveAt(h.services, k);
    forall j | 0 <= j < |next.services| ensures next.services[j].id != id {
      if j < k {
        assert next.services[j] == h.services[j];
      } else {
        assert next.services[j] == h.services[j + 1];
      }
    }
  }

  // ----- ReserveService ------------------------------------------------------

  /** The authenticated caller of `POST /services/reserve` and the identity
      roles it holds. */
  datatype Caller = Caller(userId: string, isClient: bool, isResponsable: bool)

  /** A service costs something when its `Prix` is present and positive. */
  predicate Paid(svc: Service) {
    svc.price.Some? && svc.price.value > 0
  }

  /** `POST /services/reserve`. The line copies the service's price and starts
      "Confirmée". A caller in the client role is recorded as the client when
      they have a profile; a paid service then goes to their active cart
      (created if needed) with status "Panier" and raises its total. A caller
      in the staff role must name a registered client or a non-empty guest
      name; a client id that names no stored client breaks the `ClientId`
      foreign key when the line is saved, so nothing is stored. Any other
      caller books with nobody attached. */
  function ReserveService(h: Hotel, caller: Caller, serviceId: int, date: int, time: int,
                          clientId: Option<int>, guestName: Option<string>): (s: Step<ServiceReservation>)
    ensures FindService(h, serviceId).None? ==> s == Step(h, Err(ServiceNotFound))
    ensures s.result == Err(ServiceNotFound) <==> FindService(h, serviceId).None?
    ensures s.result.Err? ==> s.next == h && s.result.error in {ServiceNotFound, MissingClient, UnknownClient}
    ensures s.result == Err(MissingClient) <==>
      && FindService(h, serviceId).Some? && !caller.isClient && caller.isResponsable
      && clientId.None? && (guestName.None? || |guestName.value| == 0)
    ensures s.result == Err(UnknownClient) <==>
      && FindService(h, serviceId).Some? && !caller.isClient && caller.isResponsable
      && clientId.Some? && !KnownClient(h.clients, clientId)
    ensures s.result.Ok? ==>
      var r := s.result.value;
      var svc := FindService(h, serviceId).value;
      && r.serviceId == serviceId && r.date == date && r.time == time && r.price == svc.price
      && KnownClient(h.clients, r.clientId)
      && s.next.serviceBookings == h.serviceBookings + [r]
      && s.next.bookings == h.bookings && s.next.rooms == h.rooms && s.next.clients == h.clients
      && (r.status == Panier <==> caller.isClient && ClientIndex(h.clients, caller.userId).Some? && Paid(svc))
      && (r.status != Panier ==> r.status == Confirmee && r.cartId == None && s.next.carts == h.carts)
      && (r.status != Panier ==>
            r.id == h.nextId && s.next == h.(serviceBookings := h.serviceBookings + [r], nextId := h.nextId + 1))
      && (caller.isClient ==>
            && r.guestName == None
            && (r.clientId.Some? <==> ClientIndex(h.clients, caller.userId).Some?)
            && (r.clientId.Some? ==> r.clientId.value == h.clients[ClientIndex(h.clients, caller.userId).value].id))
      && (!caller.isClient && caller.isResponsable ==>
            && r.clientId == clientId
            && (clientId.None? ==> r.guestName == guestName && |r.guestName.value| > 0)
            && (clientId.Some? ==> r.guestName == None))
      && (!caller.isClient && !caller.isResponsable ==> r.clientId == None && r.guestName == None)
      && (r.status == Panier ==>
            var cid := h.clients[ClientIndex(h.clients, caller.userId).value].id;
            var (h1, k) := GetOrCreateCart(h, cid);
            && r.cartId == Some(h1.carts[k].id)
            && s.next.carts == h1.carts[k := h1.carts[k].(total := h1.carts[k].total + svc.price.value)]
            && r.id == h1.nextId
            && s.next == h1.(serviceBookings := h1.serviceBookings + [r], nextId := h1.nextId + 1,
                             carts := s.next.carts))
  {
    match ServiceIndex(h.services, serviceId)
    case None => Step(h, Err(ServiceNotFound))
    case Some(si) =>
      var svc := h.services[si];
      var line := ServiceReservation(h.nextId, date, time, svc.price, Confirmee, None, None, serviceId, None);
      if caller.isClient then
        match ClientIndex(h.clients, caller.userId)
        case None => Step(h.(serviceBookings := h.serviceBookings + [line], nextId := h.nextId + 1), Ok(line))
        case Some(ci) =>
          var cid := h.clients[ci].id;
          if !Paid(svc) then
            var r := line.(clientId := Some(cid));
            Step(h.(serviceBookings := h.serviceBookings + [r], nextId := h.nextId + 1), Ok(r))
          else
            var (h1, k) := GetOrCreateCart(h, cid);
            var cart := h1.carts[k];
            var r := line.(id := h1.nextId, clientId := Some(cid), status := Panier, cartId := Some(cart.id));
            Step(h1.(serviceBookings := h1.serviceBookings + [r], nextId := h1.nextId + 1,
                     carts := h1.carts[k := cart.(total := cart.total + svc.price.value)]), Ok(r))
      else if caller.isResponsable then
        if clientId.Some? then
          if !KnownClient(h.clients, clientId) then Step(h, Err(UnknownClient))
          else
            var r := line.(clientId := clientId);
            Step(h.(serviceBookings := h.serviceBookings + [r], nextId := h.nextId + 1), Ok(r))
        else if guestName.Some? && |guestName.value| > 0 then
          var r := line.(guestName := guestName);
          Step(h.(serviceBookings := h.serviceBookings + [r], nextId := h.nextId + 1), Ok(r))
        else Step(h, Err(MissingClient))
      else Step(h.(serviceBookings := h.serviceBookings + [line], nextId := h.nextId + 1), Ok(line))
  }

  /** Booking a paid service keeps the receiving cart's cached total equal to
      the sum of its lines, both for an existing consistent cart and for a
      freshly created one. */
  lemma ReserveServiceKeepsTotal(h: Hotel, caller: Caller, serviceId: int, date: int, time: int,
                                 clientId: Option<int>, guestName: Option<string>)
    requires Fresh(h)
    requires caller.isClient && ClientIndex(h.clients, caller.userId).Some?
    requires var cid := h.clients[ClientIndex(h.clients, caller.userId).value].id;
      var k := ActiveCartIndex(h.carts, cid);
      k.Some? ==> h.carts[k.value].total == LinesTotal(h, h.carts[k.value].id)
    ensures var s := ReserveService(h, caller, serviceId, date, time, clientId, guestName);
      s.result.Ok? && s.result.value.status == Panier ==>
        var cid := h.clients[ClientIndex(h.clients, caller.userId).value].id;
        var k := GetOrCreateCart(h, cid).1;
        && ActiveCartIndex(s.next.carts, cid) == Some(k)
        && s.next.carts[k].total == LinesTotal(s.next, s.next.carts[k].id)
  {
    var s := ReserveService(h, caller, serviceId, date, time, clientId, guestName);
    if s.result.Ok? && s.result.value.status == Panier {
      var cid := h.clients[ClientIndex(h.clients, caller.userId).value].id;
      var (h1, k) := GetOrCreateCart(h, cid);
      var r := s.result.value;
      var id := h1.carts[k].id;
      if ActiveCartIndex(h.carts, cid).None? {
        RoomLinesTotalNone(h.bookings, id);
        ServiceLinesTotalNone(h.serviceBookings, id);
      }
      ServiceLinesTotalAppend(h.serviceBookings, [r], id);
      assert ServiceLinesTotal([r], id) == ServiceLinesTotal([], id) + r.price.GetOr(0);
      var pred := (c: Cart) => c.clientId == cid && c.status == Actif;
      assert forall j :: 0 <= j < |h1.carts| ==> pred(s.next.carts[j]) == pred(h1.carts[j]);
    }
  }

  // ----- Listings ------------------------------------------------------------

  /** The bookings a staff member may see: those of their assigned service,
      or all of them for an unassigned admin. */
  predicate InScope(staff: Responsable, b: ServiceReservation) {
    if staff.serviceId.Some? then b.serviceId == staff.serviceId.value
    else IsAdminRole(staff.role)
  }

  /** The service bookings in the staff member's scope, in table order. */
  function VisibleTo(h: Hotel, staff: Responsable): seq<ServiceReservation> {
    Filter(h.serviceBookings, (b: ServiceReservation) => InScope(staff, b))
  }

  /** The client's "Confirmée" or "Terminée" service bookings, in table order. */
  function SettledServicesOf(h: Hotel, cid: int): seq<ServiceReservation> {
    Filter(h.serviceBookings, (b: ServiceReservation) =>
      b.clientId == Some(cid) && (b.status == Confirmee || b.status == Terminee))
  }

  /** `GET /services/reservations`: the bookings in the caller's scope, latest
      day first. */
  function GetReservations(h: Hotel, userId: string): (r: Result<seq<ServiceReservation>>)
    ensures StaffIndex(h.staff, userId).None? <==> r == Err(Unauthorized)
    ensures r.Ok? ==>
      var staff := h.staff[StaffIndex(h.staff, userId).value];
      && (forall i :: 0 <= i < |r.value| ==> InScope(staff, r.value[i]))
      && (forall i :: 0 <= i < |h.serviceBookings| && InScope(staff, h.serviceBookings[i])
            ==> h.serviceBookings[i] in r.value)
      && multiset(r.value) <= multiset(h.serviceBookings)
      && multiset(r.value) == multiset(VisibleTo(h, staff))
      && Ordering.SortedDesc(r.value, (b: ServiceReservation) => b.date)
  {
    match StaffIndex(h.staff, userId)
    case None => Err(Unauthorized)
    case Some(i) =>
      var visible := VisibleTo(h, h.staff[i]);
      Ordering.SortDescMembers(visible, (b: ServiceReservation) => b.date);
      Ok(Ordering.SortDesc(visible, (b: ServiceReservation) => b.date))
  }

  /** A staff member with neither an assigned service nor the admin suffix
      sees nothing; an unassigned admin sees every booking. */
  lemma GetReservationsScope(h: Hotel, userId: string)
    requires StaffIndex(h.staff, userId).Some?
    ensures var staff := h.staff[StaffIndex(h.staff, userId).value];
      var r := GetReservations(h, userId).value;
      && (staff.serviceId.None? && !IsAdminRole(staff.role) ==> r == [])
      && (staff.serviceId.None? && IsAdminRole(staff.role) ==> multiset(r) == multiset(h.serviceBookings))
  {
    var staff := h.staff[StaffIndex(h.staff, userId).value];
    var p := (b: ServiceReservation) => InScope(staff, b);
    if staff.serviceId.None? && IsAdminRole(staff.role) {
      FilterAll(h.serviceBookings, p);
    }
  }

  /** `GET /services/my-reservations`: the caller's confirmed or completed
      service bookings, latest day first; lines still in a cart are hidden. */
  function GetMyServiceReservations(h: Hotel, userId: string): (r: Result<seq<ServiceReservation>>)
    ensures ClientIndex(h.clients, userId).None? <==> r == Err(ClientNotFound)
    ensures r.Ok? ==>
      var c := h.clients[ClientIndex(h.clients, userId).value];
      && (forall i :: 0 <= i < |r.value| ==>
            r.value[i].clientId == Some(c.id) && (r.value[i].status == Confirmee || r.value[i].status == Terminee))
      && (forall i :: 0 <= i < |h.serviceBookings| && h.serviceBookings[i].clientId == Some(c.id)
            && (h.serviceBookings[i].status == Confirmee || h.serviceBookings[i].status == Terminee)
            ==> h.serviceBookings[i] in r.value)
      && multiset(r.value) <= multiset(h.serviceBookings)
      && multiset(r.value) == multiset(SettledServicesOf(h, c.id))
      && Ordering.SortedDesc(r.value, (b: ServiceReservation) => b.date)
  {
    match ClientIndex(h.clients, userId)
    case None => Err(ClientNotFound)
    case Some(ci) =>
      var mine := SettledServicesOf(h, h.clients[ci].id);
      Ordering.SortDescMembers(mine, (b: ServiceReservation) => b.date);
      Ok(Ordering.SortDesc(mine, (b: ServiceReservation) => b.date))
  }

  /** Bookings on the same day are listed in table order. */
  lemma GetReservationsStable(h: Hotel, userId: string, day: int)
    requires StaffIndex(h.staff, userId).Some?
    ensures var staff := h.staff[StaffIndex(h.staff, userId).value];
      Filter(GetReservations(h, userId).value, (b: ServiceReservation) => b.date == day)
        == Filter(VisibleTo(h, staff), (b: ServiceReservation) => b.date == day)
  {
    var visible := VisibleTo(h, h.staff[StaffIndex(h.staff, userId).value]);
    assert GetReservations(h, userId).value == Ordering.SortDesc(visible, (b: ServiceReservation) => b.date);
    Ordering.SortDescStableBy(visible, (b: ServiceReservation) => b.date, day,
                              (b: ServiceReservation) => b.date == day);
  }

  /** The client's bookings on the same day are listed in table order. */
  lemma GetMyServiceReservationsStable(h: Hotel, userId: string, day: int)
    requires ClientIndex(h.clients, userId).Some?
    ensures var c := h.clients[ClientIndex(h.clients, userId).value];
      Filter(GetMyServiceReservations(h, userId).value, (b: ServiceReservation) => b.date == day)
        == Filter(SettledServicesOf(h, c.id), (b: ServiceReservation) => b.date == day)
  {
    var mine := SettledServicesOf(h, h.clients[ClientIndex(h.clients, userId).value].id);
    assert GetMyServiceReservations(h, userId).value == Ordering.SortDesc(mine, (b: ServiceReservation) => b.date);
    Ordering.SortDescStableBy(mine, (b: ServiceReservation) => b.date, day,
                              (b: ServiceReservation) => b.date == day);
  }

  // ----- CompleteService -----------------------------------------------------

  /** `POST /services/complete/{id}`: marks the first booking with that id
      "Terminée" unless it already is. */
  function CompleteService(h: Hotel, id: int): (s: Step<()>)
    ensures s.result.Err? ==> s.next == h
    ensures (forall i :: 0 <= i < |h.serviceBookings| ==> h.serviceBookings[i].id != id) <==> s.result == Err(NotFound)
    ensures s.result == Err(AlreadyCompleted) ==>
      exists i :: 0 <= i < |h.serviceBookings| && h.serviceBookings[i].id == id && h.serviceBookings[i].status == Terminee
    ensures var k := FirstIndex(h.serviceBookings, (b: ServiceReservation) => b.id == id);
      k.Some? ==>
        && (s.result == Err(AlreadyCompleted) <==> h.serviceBookings[k.value].status == Terminee)
        && (h.serviceBookings[k.value].status != Terminee ==> s.result.Ok?)
    ensures s.result.Ok? ==>
      exists k :: 0 <= k < |h.serviceBookings| && h.serviceBookings[k].id == id && h.serviceBookings[k].status != Terminee
        && s.next.serviceBookings == h.serviceBookings[k := h.serviceBookings[k].(status := Terminee)]
        && s.next == h.(serviceBookings := s.next.serviceBookings)
  {
    match FirstIndex(h.serviceBookings, (b: ServiceReservation) => b.id == id)
    case None => Step(h, Err(NotFound))
    case Some(k) =>
      var b := h.serviceBookings[k];
      if b.status == Terminee then Step(h, Err(AlreadyCompleted))
      else Step(h.(serviceBookings := h.serviceBookings[k := b.(status := Terminee)]), Ok(()))
  }

  /** Completing twice: the second call is refused and changes nothing. */
  lemma CompleteServiceTwice(h: Hotel, id: int)
    requires CompleteService(h, id).result.Ok?
    ensures var s1 := CompleteService(h, id);
      CompleteService(s1.next, id) == Step(s1.next, Err(AlreadyCompleted))
  {
    var k := FirstIndex(h.serviceBookings, (b: ServiceReservation) => b.id == id).value;
    var s1 := CompleteService(h, id);
    var p := (b: ServiceReservation) => b.id == id;
    assert forall j :: 0 <= j < |h.serviceBookings| ==> p(s1.next.serviceBookings[j]) == p(h.serviceBookings[j]);
    assert FirstIndex(s1.next.serviceBookings, p) == Some(k);
  }
}

=== FILE: staff.dfy ===
/** Staff profiles (`Responsable`): the listing with the displayed role, the
    creation of an employee account with a generated user name, promotion to
    administrator and the edit that cannot touch the role. */
module Staff {
  import opened Common
  import opened Text
  import opened Hotel

  // ----- Role strings --------------------------------------------------------

  /** The role shown in the staff list: the part before the first '/', or
      the whole role when it has none. */
  function DisplayRole(role: string): (r: string)
    ensures '/' !in role ==> r == role
    ensures '/' in role ==> |r| < |role| && role[|r|] == '/' && role == r + role[|r|..]
    ensures '/' !in r && r == role[..|r|]
  {
    if '/' in role then PrefixBefore(role, '/') else role
  }

  /** Promotion appends "/ADMIN" and leaves the displayed role unchanged. */
  lemma PromotedDisplayRole(role: string)
    ensures IsAdminRole(role + AdminSuffix)
    ensures DisplayRole(role + AdminSuffix) == DisplayRole(role)
  {
    AppendEndsWith(role, AdminSuffix);
    var promoted := role + AdminSuffix;
    assert promoted[|role|] == '/';
    assert '/' in promoted;
    PrefixBeforeExtend(role, AdminSuffix, '/');
  }

  /** Text after the first separator does not change the prefix before it;
      without a separator in `s`, the prefix of `s + t` is `s` followed by the
      prefix of `t`. */
  lemma {:induction false} PrefixBeforeExtend(s: string, t: string, sep: char)
    ensures sep in s ==> PrefixBefore(s + t, sep) == PrefixBefore(s, sep)
    ensures sep !in s ==> PrefixBefore(s + t, sep) == s + PrefixBefore(t, sep)
  {
    if |s| == 0 {
      assert s + t == t;
    } else {
      assert (s + t)[0] == s[0];
      assert (s + t)[1..] == s[1..] + t;
      if s[0] != sep {
        PrefixBeforeExtend(s[1..], t, sep);
        assert sep in s ==> sep in s[1..];
        assert s == [s[0]] + s[1..];
      }
    }
  }

  /** `dto.RoleEmploye?.Trim() ?? "Employé Standard"`. */
  function DefaultRole(requested: Option<string>): (r: string)
    ensures requested.None? ==> r == "Employé Standard"
    ensures requested.Some? ==>
      && r == Trim(requested.value)
      && TrimmedAt(requested.value, r, LeadingEnd(requested.value, 0))
  {
    match requested
    case Some(role) => Trim(role)
    case None => "Employé Standard"
  }

  // ----- User names ----------------------------------------------------------

  /** `Prenom.Trim() + Nom.Trim()` with every space removed. */
  function BaseUserName(firstName: string, lastName: string): (r: string)
    ensures ' ' !in r
    ensures r == Filter(Trim(firstName), (x: char) => x != ' ') + Filter(Trim(lastName), (x: char) => x != ' ')
  {
    FilterAppend(Trim(firstName), Trim(lastName), (x: char) => x != ' ');
    RemoveChar(Trim(firstName) + Trim(lastName), ' ')
  }

  /** The `k`-th name tried: the base itself, then the base followed by 1, 2, … */
  function Candidate(base: string, k: nat): string {
    if k == 0 then base else base + NatToString(k)
  }

  lemma CandidateInjective(base: string, i: nat, j: nat)
    requires Candidate(base, i) == Candidate(base, j)
    ensures i == j
  {
    if i != 0 && j != 0 {
      assert NatToString(i) == Candidate(base, i)[|base|..];
      assert NatToString(j) == Candidate(base, j)[|base|..];
      NatToStringInjective(i, j);
    }
  }

  /** The names tried before the `n`-th candidate. */
  ghost function CandidatesBelow(base: string, n: nat): set<string> {
    if n == 0 then {} else CandidatesBelow(base, n - 1) + {Candidate(base, n - 1)}
  }

  /** No candidate repeats an earlier one. */
  lemma {:induction false} CandidateNotBelow(base: string, n: nat, m: nat)
    requires m <= n
    ensures Candidate(base, n) !in CandidatesBelow(base, m)
  {
    if m > 0 {
      CandidateNotBelow(base, n, m - 1);
      if Candidate(base, n) == Candidate(base, m - 1) {
        CandidateInjective(base, n, m - 1);
      }
    }
  }

  /** The user-name loop: the first candidate that is not taken, together
      with its counter (0 for the bare base). */
  method GenerateUserName(base: string, taken: set<string>) returns (name: string, counter: nat)
    ensures name == Candidate(base, counter) && name !in taken
    ensures forall j :: 0 <= j < counter ==> Candidate(base, j) in taken
    ensures base !in taken ==> name == base
  {
    counter := 0;
    ghost var tried: set<string> := {};
    while Candidate(base, counter) in taken
      invariant tried == CandidatesBelow(base, counter) && tried <= taken
      invariant forall j :: 0 <= j < counter ==> Candidate(base, j) in taken
      decreases |taken - tried|
    {
      var c := Candidate(base, counter);
      CandidateNotBelow(base, counter, counter);
      assert CandidatesBelow(base, counter + 1) == tried + {c};
      assert c in taken && tried + {c} <= taken;
      assert taken - (tried + {c}) < taken - tried;
      tried := tried + {c};
      counter := counter + 1;
    }
    assert counter > 0 ==> Candidate(base, 0) in taken;
    name := Candidate(base, counter);
  }

  // ----- Endpoints -----------------------------------------------------------

  /** One row of the staff list. */
  datatype StaffRow = StaffRow(id: int, role: string, userId: string)

  /** The caller's staff profile, if it carries the admin suffix. */
  function AdminGate(h: Hotel, userId: string): (r: Result<Responsable>)
    ensures StaffIndex(h.staff, userId).None? <==> r == Err(Unauthorized)
    ensures r == Err(Forbidden) <==> StaffIndex(h.staff, userId).Some? && !IsAdmin(h, userId)
    ensures r.Ok? <==> IsAdmin(h, userId)
    ensures r.Ok? ==> r.value == h.staff[StaffIndex(h.staff, userId).value]
  {
    match StaffIndex(h.staff, userId)
    case None => Err(Unauthorized)
    case Some(i) => if IsAdminRole(h.staff[i].role) then Ok(h.staff[i]) else Err(Forbidden)
  }

  /** `GET /Responsables`: every staff profile with its displayed role, for
      admins only. */
  function Index(h: Hotel, userId: string): (r: Result<seq<StaffRow>>)
    ensures AdminGate(h, userId).Err? ==> r == Err(AdminGate(h, userId).error)
    ensures r.Ok? <==> IsAdmin(h, userId)
    ensures r.Ok? ==>
      && |r.value| == |h.staff|
      && forall i :: 0 <= i < |h.staff| ==>
           r.value[i] == StaffRow(h.staff[i].id, DisplayRole(h.staff[i].role), h.staff[i].userId)
  {
    match AdminGate(h, userId)
    case Err(e) => Err(e)
    case Ok(_) =>
      Ok(seq(|h.staff|, i requires 0 <= i < |h.staff| =>
        StaffRow(h.staff[i].id, DisplayRole(h.staff[i].role), h.staff[i].userId)))
  }

  /** What a successful creation reports. */
  datatype Account = Account(userName: string, role: string)

  /** `POST /Responsables/Create`: an admin creates an employee account. The
      user name is the first free candidate built from the names; the new
      staff profile gets the requested role (trimmed) or the default one and
      the identity id the identity store assigned (`newUserId`). */
  method CreateEmployee(h: Hotel, userId: string, firstName: string, lastName: string,
                        requestedRole: Option<string>, taken: set<string>, newUserId: string)
    returns (s: Step<Account>)
    ensures AdminGate(h, userId).Err? ==> s == Step(h, Err(AdminGate(h, userId).error))
    ensures s.result.Ok? <==> IsAdmin(h, userId)
    ensures s.result.Ok? ==>
      var a := s.result.value;
      var base := BaseUserName(firstName, lastName);
      && IsAdmin(h, userId)
      && a.userName !in taken
      && (base !in taken ==> a.userName == base)
      && (exists k: nat :: a.userName == Candidate(base, k)
            && forall j :: 0 <= j < k ==> Candidate(base, j) in taken)
      && a.role == DefaultRole(requestedRole)
      && s.next == h.(staff := h.staff + [Responsable(h.nextId, a.role, newUserId, false, None)],
                      nextId := h.nextId + 1)
  {
    match AdminGate(h, userId)
    case Err(e) =>
      return Step(h, Err(e));
    case Ok(_) =>
      var role := DefaultRole(requestedRole);
      var name, k := GenerateUserName(BaseUserName(firstName, lastName), taken);
      var profile := Responsable(h.nextId, role, newUserId, false, None);
      return Step(h.(staff := h.staff + [profile], nextId := h.nextId + 1), Ok(Account(name, role)));
  }

  /** `POST /Responsables/Promote/{id}`: an admin appends "/ADMIN" to the role
      of a staff member who does not already carry it. */
  function PromoteToAdmin(h: Hotel, userId: string, id: int): (s: Step<string>)
    ensures AdminGate(h, userId).Err? ==> s == Step(h, Err(AdminGate(h, userId).error))
    ensures s.result.Err? ==> s.next == h
    ensures IsAdmin(h, userId) && (forall i :: 0 <= i < |h.staff| ==> h.staff[i].id != id)
      ==> s.result == Err(NotFound)
    ensures s.result == Err(AlreadyAdmin) ==>
      exists i :: 0 <= i < |h.staff| && h.staff[i].id == id && IsAdminRole(h.staff[i].role)
    ensures IsAdmin(h, userId) ==>
      match FirstIndex(h.staff, (r: Responsable) => r.id == id)
      case None => s.result == Err(NotFound)
      case Some(k) =>
        && (s.result == Err(AlreadyAdmin) <==> IsAdminRole(h.staff[k].role))
        && (!IsAdminRole(h.staff[k].role) ==> s.result.Ok?)
    ensures s.result.Ok? ==>
      exists k :: 0 <= k < |h.staff| && h.staff[k].id == id && !IsAdminRole(h.staff[k].role)
        && s.result.value == h.staff[k].role + AdminSuffix
        && s.next.staff == h.staff[k := h.staff[k].(role := s.result.value)]
        && s.next == h.(staff := s.next.staff)
  {
    match AdminGate(h, userId)
    case Err(e) => Step(h, Err(e))
    case Ok(_) =>
      match FirstIndex(h.staff, (r: Responsable) => r.id == id)
      case None => Step(h, Err(NotFound))
      case Some(k) =>
        var target := h.staff[k];
        if IsAdminRole(target.role) then Step(h, Err(AlreadyAdmin))
        else
          var role := target.role + AdminSuffix;
          Step(h.(staff := h.staff[k := target.(role := role)]), Ok(role))
  }

  /** A promoted member is an admin, shows the same role as before, and a
      second promotion is refused with nothing changed. */
  lemma PromoteTwice(h: Hotel, userId: string, id: int)
    requires PromoteToAdmin(h, userId, id).result.Ok?
    ensures var s1 := PromoteToAdmin(h, userId, id);
      var k := FirstIndex(h.staff, (r: Responsable) => r.id == id).value;
      && IsAdminRole(s1.next.staff[k].role)
      && DisplayRole(s1.next.staff[k].role) == DisplayRole(h.staff[k].role)
      && PromoteToAdmin(s1.next, userId, id) == Step(s1.next, Err(AlreadyAdmin))
  {
    var s1 := PromoteToAdmin(h, userId, id);
    var k := FirstIndex(h.staff, (r: Responsable) => r.id == id).value;
    assert s1.next.staff == h.staff[k := h.staff[k].(role := h.staff[k].role + AdminSuffix)];
    PromotedDisplayRole(h.staff[k].role);
    RoleChangeKeepsLookups(h.staff, k, h.staff[k].role + AdminSuffix, id, userId);
    assert IsAdmin(s1.next, userId) by {
      var c := StaffIndex(h.staff, userId).value;
      assert c != k;
    }
  }

  /** Changing one member's role moves no one: the lookups by id and by
      identity user find the same positions. */
  lemma RoleChangeKeepsLookups(staff: seq<Responsable>, k: nat, role: string, id: int, user: string)
    requires k < |staff|
    ensures var next := staff[k := staff[k].(role := role)];
      && FirstIndex(next, (r: Responsable) => r.id == id) == FirstIndex(staff, (r: Responsable) => r.id == id)
      && StaffIndex(next, user) == StaffIndex(staff, user)
  {
    var next := staff[k := staff[k].(role := role)];
    var p := (r: Responsable) => r.id == id;
    assert forall j :: 0 <= j < |staff| ==> p(next[j]) == p(staff[j]);
    var q := (r: Responsable) => r.userId == user;
    assert forall j :: 0 <= j < |staff| ==> q(next[j]) == q(staff[j]);
    match FirstIndex(staff, p)
    case Some(m) => assert FirstIndex(next, p) == Some(m);
    case None => assert FirstIndex(next, p).None?;
    match StaffIndex(staff, user)
    case Some(m) => assert StaffIndex(next, user) == Some(m);
    case None => assert StaffIndex(next, user).None?;
  }

  /** `POST /Responsables/Edit/{id}`: the submitted profile replaces the stored
      one, except that the stored role and identity id are kept. The route id
      must match the body's. A submitted `ServiceId` that names no service
      breaks the `ServiceId` foreign key when the profile is saved, so nothing
      changes. */
  function Edit(h: Hotel, id: int, submitted: Responsable): (s: Step<()>)
    ensures id != submitted.id ==> s == Step(h, Err(NotFound))
    ensures (forall i :: 0 <= i < |h.staff| ==> h.staff[i].id != id) ==> s == Step(h, Err(NotFound))
    ensures s.result.Err? ==> s.next == h && s.result.error in {NotFound, UnknownService}
    ensures s.result == Err(UnknownService) <==>
      && id == submitted.id && (exists i :: 0 <= i < |h.staff| && h.staff[i].id == id)
      && !KnownService(h.services, submitted.serviceId)
    ensures (id == submitted.id && (exists i :: 0 <= i < |h.staff| && h.staff[i].id == id)
             && KnownService(h.services, submitted.serviceId)) ==> s.result.Ok?
    ensures s.result.Ok? ==>
      exists k :: 0 <= k < |h.staff| && h.staff[k].id == id
        && s.next.staff == h.staff[k := submitted.(role := h.staff[k].role, userId := h.staff[k].userId)]
        && s.next == h.(staff := s.next.staff)
  {
    if id != submitted.id then Step(h, Err(NotFound))
    else match FirstIndex(h.staff, (r: Responsable) => r.id == id)
      case None => Step(h, Err(NotFound))
      case Some(k) =>
        if !KnownService(h.services, submitted.serviceId) then Step(h, Err(UnknownService))
        else
          var original := h.staff[k];
          Step(h.(staff := h.staff[k := submitted.(role := original.role, userId := original.userId)]), Ok(()))
  }

  /** An edit cannot grant or revoke administrator rights: for every user,
      being an admin is the same before and after. */
  lemma EditKeepsAdmins(h: Hotel, id: int, submitted: Responsable, user: string)
    ensures IsAdmin(Edit(h, id, submitted).next, user) == IsAdmin(h, user)
  {
    var s := Edit(h, id, submitted);
    if s.result.Ok? {
      var k := FirstIndex(h.staff, (r: Responsable) => r.id == id).value;
      assert s.next.staff == h.staff[k := submitted.(role := h.staff[k].role, userId := h.staff[k].userId)];
      var q := (r: Responsable) => r.userId == user;
      assert forall j :: 0 <= j < |h.staff| ==> q(s.next.staff[j]) == q(h.staff[j]);
      assert forall j :: 0 <= j < |h.staff| ==> s.next.staff[j].role == h.staff[j].role;
      match StaffIndex(h.staff, user)
      case Some(c) => assert StaffIndex(s.next.staff, user) == Some(c);
      case None => assert StaffIndex(s.next.staff, user).None?;
    }
  }
}

=== FILE: text.dfy ===
/** The string operations the staff code relies on: `EndsWith`, the part of a
    role before its first '/', `Trim`, removal of spaces and the decimal
    rendering of the counter appended to generated user names. */
module Text {
  import opened Common

  predicate EndsWith(s: string, suffix: string) {
    |suffix| <= |s| && s[|s| - |suffix|..] == suffix
  }

  /** Appending a suffix makes the string end with it. */
  lemma AppendEndsWith(s: string, suffix: string)
    ensures EndsWith(s + suffix, suffix)
  {
    assert (s + suffix)[|s|..] == suffix;
  }

  /** `s.Split(sep)[0]`: the longest prefix of `s` that does not contain `sep`. */
  function PrefixBefore(s: string, sep: char): (r: string)
    ensures |r| <= |s| && r == s[..|r|]
    ensures sep !in r
    ensures |r| < |s| ==> s[|r|] == sep
  {
    if |s| == 0 || s[0] == sep then ""
    else [s[0]] + PrefixBefore(s[1..], sep)
  }

  /** The characters `char.IsWhiteSpace` accepts among ASCII and Latin-1. */
  predicate IsWhiteSpace(c: char) {
    c == ' ' || c == '\t' || c == '\n' || c == '\r' || c == '\U{0B}' || c == '\U{0C}'
    || c == '\U{85}' || c == '\U{A0}'
  }

  /** The index of the first character at or after `i` that is not white
      space, or `|s|`. */
  function LeadingEnd(s: string, i: nat): (a: nat)
    requires i <= |s|
    ensures i <= a <= |s|
    ensures forall k :: i <= k < a ==> IsWhiteSpace(s[k])
    ensures a < |s| ==> !IsWhiteSpace(s[a])
    decreases |s| - i
  {
    if i < |s| && IsWhiteSpace(s[i]) then LeadingEnd(s, i + 1) else i
  }

  /** The index just after the last character before `j` and not before `lo`
      that is not white space, or `lo`. */
  function TrailingStart(s: string, lo: nat, j: nat): (b: nat)
    requires lo <= j <= |s|
    ensures lo <= b <= j
    ensures forall k :: b <= k < j ==> IsWhiteSpace(s[k])
    ensures b > lo ==> !IsWhiteSpace(s[b - 1])
    decreases j - lo
  {
    if j > lo && IsWhiteSpace(s[j - 1]) then TrailingStart(s, lo, j - 1) else j
  }

  /** `r` is the slice of `s` starting at `a`, with nothing but white space
      around it and no white space at either of its ends. For a given `s`
      exactly one string has this shape. */
  predicate TrimmedAt(s: string, r: string, a: nat) {
    && a + |r| <= |s| && r == s[a..a + |r|]
    && (forall i :: 0 <= i < a ==> IsWhiteSpace(s[i]))
    && (forall i :: a + |r| <= i < |s| ==> IsWhiteSpace(s[i]))
    && (|r| > 0 ==> !IsWhiteSpace(r[0]) && !IsWhiteSpace(r[|r| - 1]))
  }

  /** C#'s `string.Trim()`: leading and trailing white space removed. */
  function Trim(s: string): (r: string)
    ensures TrimmedAt(s, r, LeadingEnd(s, 0))
    ensures |s| == 0 || (!IsWhiteSpace(s[0]) && !IsWhiteSpace(s[|s| - 1])) ==> r == s
  {
    var a := LeadingEnd(s, 0);
    var b := TrailingStart(s, a, |s|);
    var r := s[a..b];
    assert |r| > 0 ==> r[0] == s[a] && r[|r| - 1] == s[b - 1];
    r
  }

  /** The trimmed string is the only one of its shape: any slice of `s` with
      only white space around it and none at its ends is `Trim(s)`. */
  lemma TrimUnique(s: string, r: string, a: nat)
    requires TrimmedAt(s, r, a)
    ensures r == Trim(s)
  {
    var t := Trim(s);
    var b := LeadingEnd(s, 0);
    assert |r| > 0 ==> !IsWhiteSpace(s[a]);
    assert |t| > 0 ==> !IsWhiteSpace(s[b]);
    assert |r| == 0 <==> |t| == 0;
    if |r| > 0 {
      assert a == b;
      assert !IsWhiteSpace(s[a + |r| - 1]) && !IsWhiteSpace(s[b + |t| - 1]);
      assert |r| == |t|;
    }
  }

  /** `s.Replace(c.ToString(), "")`: every occurrence of `c` dropped, the
      remaining characters kept in order. */
  function RemoveChar(s: string, c: char): (r: string)
    ensures c !in r
    ensures |r| <= |s|
    ensures c !in s ==> r == s
    ensures forall x :: x != c ==> multiset(r)[x] == multiset(s)[x]
    ensures forall i :: 0 <= i < |r| ==> r[i] in s
    ensures r == Filter(s, (x: char) => x != c)
  {
    if |s| == 0 then ""
    else
      assert s == [s[0]] + s[1..];
      var rest := RemoveChar(s[1..], c);
      assert forall i :: 0 <= i < |rest| ==> rest[i] in s;
      if s[0] == c then rest
      else [s[0]] + rest
  }

  predicate IsDigit(c: char) {
    '0' <= c <= '9'
  }

  function DigitChar(d: nat): (c: char)
    requires d < 10
    ensures IsDigit(c)
  {
    "0123456789"[d]
  }

  function DigitValue(c: char): int {
    c as int - '0' as int
  }

  /** The number a string of decimal digits denotes, most significant first. */
  function DecimalValue(s: string): int {
    if |s| == 0 then 0 else 10 * DecimalValue(s[..|s| - 1]) + DigitValue(s[|s| - 1])
  }

  /** The invariant-culture decimal rendering of a natural number, as string
      interpolation `$"{counter}"` produces it. */
  function NatToString(n: nat): (r: string)
    ensures |r| >= 1
    ensures forall i :: 0 <= i < |r| ==> IsDigit(r[i])
    ensures r[|r| - 1] == DigitChar(n % 10)
    ensures |r| == 1 <==> n < 10
    decreases n
  {
    if n < 10 then [DigitChar(n)] else NatToString(n / 10) + [DigitChar(n % 10)]
  }

  /** The rendering is canonical and reads back as the number: no leading
      zero, and its decimal value is `n`. */
  lemma {:induction false} NatToStringValue(n: nat)
    ensures |NatToString(n)| > 1 ==> NatToString(n)[0] != '0'
    ensures DecimalValue(NatToString(n)) == n
    decreases n
  {
    var r := NatToString(n);
    if n < 10 {
      assert DigitValue(DigitChar(n)) == n;
    } else {
      var p := NatToString(n / 10);
      NatToStringValue(n / 10);
      assert r[..|r| - 1] == p;
      assert r[0] == p[0];
      assert DigitValue(DigitChar(n % 10)) == n % 10;
    }
  }

  /** Distinct counters render to distinct strings. */
  lemma {:induction false} NatToStringInjective(a: nat, b: nat)
    requires NatToString(a) == NatToString(b)
    ensures a == b
    decreases a
  {
    var s := NatToString(a);
    assert DigitChar(a % 10) == DigitChar(b % 10);
    assert a % 10 == b % 10;
    if a >= 10 {
      assert b >= 10;
      assert NatToString(a / 10) == s[..|s| - 1] == NatToString(b / 10);
      NatToStringInjective(a / 10, b / 10);
    }
  }
}
